=== FILE: README.md ===
# smartsql in Dafny

A model of the query builder in `sqlbuilder/smartsql` and of its MySQL and
Cassandra compile registries, with proofs of what the builder promises.

The builder writes SQL with `%s` placeholders. Each builder object carries a
text and a list of bind values. The central property is the placeholder
invariant: every text the builder produces binds exactly one value per `%s`,
in the order the `%s` appear. The invariant holds provided the pieces the
caller hands in keep it themselves.

What is modelled:

- **Identifiers** (`identifiers.dfy`): the attribute shorthand of `MetaTable`
  and `MetaField`. `user__u` names table `user` with alias `u`, and
  `user__name__n` names field `name` with prefix `user` and alias `n`. The
  module covers Python's `str.split("__", n)` and the `IndexError` and
  `AttributeError` paths. It also proves round trips from a table or field to
  its key and back.
- **Conditions** (`conditions.dfy`):
  - `Field.__sqlrepr__`;
  - the comparison operators `==`, `!=`, `>`, `<`, `>=`, `<=` and `%`, with
    the `IS NULL` / `IN (...)` forms of `==` and `!=`;
  - the two different errors an empty list raises.
- **Condition sets** (`condition_sets.dfy`):
  - `Condition.__and__`/`__or__` and `ConditionSet`'s `_and`, `_or`, `_rand`
    and `_ror`;
  - the parenthesizing by last operator;
  - `_pre_extend`, modelled as written: it puts the values of a condition
    standing left of a set in reverse order.

  A reference semantics (`BoolExpr`) prints a boolean expression with the
  fewest parentheses SQL precedence allows. The builder's text is proved equal
  to it. Its values are proved to be a permutation of the expression's
  values, and equal to them in order when every leaf binds at most one value.
  `RAndSwapsValues` shows that the order can differ otherwise.
- **Tuple values** (`tuple_values.dfy`): `Expr` keeps its values in a Python
  tuple, and a comparison against it passes the tuple on. The module follows
  that flag and shows where `&` and `|` as written fail on it. See Findings.
- **Tables** (`tables.dfy`): `Table` and `TableSet`. This covers joins with
  `*` and `+`, `on`, the text of nested chains, and their bind values. See
  Findings.
- **Options** (`options.dfy`): the `opt_checker` decorator and `opt.get`.
- **Queries** (`queries.dfy`, `keywords.dfy`):
  - `QuerySet` and its builder methods;
  - the `_gen_*` helpers;
  - `_join_sql_part`;
  - `select`, `select_one`, `count`, `insert`, `insert_many`, `update` and
    `delete`.

  Statements are assembled from words (keywords, texts, table references,
  clauses) that are joined by spaces at the end.
- **Query properties** (`query_properties.dfy`, `query_relations.dfy`):
  - every statement keeps the placeholder invariant, and every builder method
    keeps the query's invariant;
  - `select_one` is `select` with `LIMIT 0, 1`;
  - after `group_by`, `count()` is a `COUNT(DISTINCT ...)` over the grouping
    fields;
  - `select`, `count`, `insert`, `insert_many`, `update` and `delete` each
    write their clauses in one fixed order, stated as an explicit word list;
  - a second `where` / `having` is combined with AND (OR for `or_where` /
    `or_having`).
- **Unions** (`unions.dfy`): `select_for_union`, `UnionPart` and
  `UnionQuerySet`, covering UNION DISTINCT (`*`), UNION ALL (`+`),
  `order_by`, `limit` and `select`.
- **Dialects** (`dialects.dfy`): the MySQL registry and the Cassandra
  registry.
  - MySQL overrides four rules:
    - `compile_name` puts the name in backticks;
    - `compile_condition` applies the `TRANSLATION_MAP` operators, so `LIKE`
      becomes `LIKE BINARY` and `ILIKE` becomes `LIKE`;
    - `compile_concat` writes `CONCAT(...)` and `CONCAT_WS(...)`;
    - its `ValueCompiler` escapes a quote as `\'`.
  - Cassandra overrides `compile_field`: `*` passes through and a field becomes
    a bare `Name`. It reuses MySQL's value compiler.

  `CompileConcat` is the Python loop with its `first` flag. It is proved equal
  to the recursive definition.

Python's `None` for an unset prefix, alias, join or clause text is the empty
string. Every use of these in the source is a truthiness test, for which
`None` and `""` agree, except `_order_by`, which is tested with `is None`
(`__init__.py:545`, `:730`). The two tests agree there too, because a set
ORDER BY text starts with `ORDER BY ` and is never empty. Unset clauses and tables are `Option`s.
Errors are the `Outcomes.Error` values: `IndexError`, `AttributeError`,
`TypeError`, the module's `Error` (`BuilderError`), and the `TypeError` of
`opt_checker` (`UnsupportedOption(key)`).

## Model

| member | source | states |
|---|---|---|
| Identifiers.CheckKey | sqlbuilder/smartsql/__init__.py:26-28 | a key is accepted iff it is non-empty and does not start with `_`; the empty key is an `IndexError` (Python's `key[0]`) and a `_`-leading key an `AttributeError` |
| Identifiers.Split | sqlbuilder/smartsql/__init__.py:126 | `str.split("__", n)` yields between 1 and n+1 pieces, and a key with no split is one piece, the key itself |
| Identifiers.SplitJoin | sqlbuilder/smartsql/__init__.py:126 | joining the pieces of a split with `__` gives the key back |
| Identifiers.SplitPieces | sqlbuilder/smartsql/__init__.py:126 | every piece but the last holds no `__`, and so does the last when the split limit was not reached |
| Identifiers.SplitLeftmost | sqlbuilder/smartsql/__init__.py:126 | every piece but the last ends at the leftmost `__` of the text that remains from that piece on |
| Identifiers.SplitFirstPiece | sqlbuilder/smartsql/__init__.py:126 | with several pieces, the first one ends at the key's leftmost `__` |
| Identifiers.TripleUnderscore | sqlbuilder/smartsql/__init__.py:126 | `"a___b"` splits once into `a` and `_b`: the separator is the leftmost two underscores |
| Identifiers.ParseTableKey | sqlbuilder/smartsql/__init__.py:25-36 | the empty key is an `IndexError`, a `_`-leading key an `AttributeError`, and no other key fails; a key without `__` is the name with no alias; otherwise the name is the text before the leftmost `__` and the alias the rest |
| Identifiers.ParseFieldKey | sqlbuilder/smartsql/__init__.py:122-137 | the empty key is an `IndexError`, a `_`-leading key an `AttributeError`, and no other key fails; one piece is a bare name, two are prefix and name, three are prefix, name and alias; the prefix is the text before the leftmost `__`, and a name followed by an alias ends at the leftmost `__` after the prefix |
| Identifiers.TableKeyRoundTrip | sqlbuilder/smartsql/__init__.py:25-36 | parsing the key of a table gives the table back |
| Identifiers.FieldKeyRoundTrip | sqlbuilder/smartsql/__init__.py:122-137 | parsing the key of any expressible field gives the field back |
| Identifiers.TableField | sqlbuilder/smartsql/__init__.py:54-59 | a table's attribute is the field of that name prefixed by the alias if set, else by the table name |
| Conditions.FieldSql | sqlbuilder/smartsql/__init__.py:231-237 | an unaliased field is `prefix.name` (or `name`); a field in a definition context is referred to by its alias |
| Conditions.FieldAliasForms | sqlbuilder/smartsql/__init__.py:231-237 | an aliased field outside a definition is its plain text, ` AS ` and its alias, which differs from the alias-only form |
| Conditions.InList | sqlbuilder/smartsql/__init__.py:162-163 | the IN-list text holds exactly n placeholders; it is empty for no values and `%s` for one |
| Conditions.InListCons | sqlbuilder/smartsql/__init__.py:162-163 | each further value puts `%s, ` in front of the list for one value fewer, so the list is n `%s` separated by `, ` |
| Conditions.Compare | sqlbuilder/smartsql/__init__.py:148-229 | per operator and operand, the text and values: `<f> IS NULL` / `<f> IS NOT NULL` with no values for `None` under `==`/`!=`; `<f> IN (<n markers>)` / `<f> NOT IN (...)` binding every list item; `<f> <op> <g>` with no values for a field; `<f> <op> <expr>` with the expression's values; `<f> <op> %s` binding the one value otherwise; an empty list fails with `TypeError` for `==` and the module `Error` for `!=` |
| Conditions.CompareBalanced | sqlbuilder/smartsql/__init__.py:148-229 | every comparison binds one value per `%s` of its text |
| ConditionSets.Init | sqlbuilder/smartsql/__init__.py:286-292 | a set initialised from a clause has that clause's text, values and last operator |
| ConditionSets.AndWith | sqlbuilder/smartsql/__init__.py:324-344 | `_and` appends the clause's values after the set's and records AND; the text grows by ` AND ` plus two characters for each OR side it parenthesizes |
| ConditionSets.OrWith | sqlbuilder/smartsql/__init__.py:369-382 | `_or` appends values, records OR and never parenthesizes |
| ConditionSets.PreExtend | sqlbuilder/smartsql/__init__.py:294-296 | inserting each item at the front leaves the items reversed before the target |
| ConditionSets.RAndWith | sqlbuilder/smartsql/__init__.py:302-318 | `_rand` puts the condition's values, reversed, before the set's and records AND |
| ConditionSets.ROrWith | sqlbuilder/smartsql/__init__.py:350-363 | `_ror` puts the condition's values, reversed, before the set's and records OR |
| ConditionSets.SetAnd | sqlbuilder/smartsql/__init__.py:321-344 | `ConditionSet.__and__` accepts strings, conditions and sets and refuses anything else with `TypeError` |
| ConditionSets.SetOr | sqlbuilder/smartsql/__init__.py:366-382 | `ConditionSet.__or__` accepts strings, conditions and sets and refuses anything else with `TypeError` |
| ConditionSets.SetRAnd | sqlbuilder/smartsql/__init__.py:299-318 | `__rand__` accepts only a string or a plain condition on its left: a string becomes a raw condition with no values and a condition is used as it is, both put in front with AND; anything else is a `TypeError` |
| ConditionSets.SetROr | sqlbuilder/smartsql/__init__.py:347-363 | `__ror__` accepts only a string or a plain condition on its left: a string becomes a raw condition with no values and a condition is used as it is, both put in front with OR; anything else is a `TypeError` |
| ConditionSets.CondAnd | sqlbuilder/smartsql/__init__.py:245-255 | `Condition & x` hands a set to the set's `__rand__`; a condition, or a string taken as a raw condition, is added with `&` to the set started from the condition; anything else is a `TypeError` |
| ConditionSets.CondOr | sqlbuilder/smartsql/__init__.py:257-267 | `Condition \| x` hands a set to the set's `__ror__`; a condition, or a string taken as a raw condition, is added with `\|` to the set started from the condition; anything else is a `TypeError` |
| ConditionSets.PyAnd | sqlbuilder/smartsql/__init__.py:245-344 | Python's `x & y` for two clauses agrees with the operator Python dispatches to |
| ConditionSets.PyOr | sqlbuilder/smartsql/__init__.py:257-382 | Python's `x \| y` for two clauses agrees with the operator Python dispatches to |
| ConditionSets.BuildText | sqlbuilder/smartsql/__init__.py:299-382 | the text built with `&` and `\|` is the precedence-aware rendering of the expression written, and its last operator is the expression's root |
| ConditionSets.BuildParamsPermuted | sqlbuilder/smartsql/__init__.py:294-382 | the built set binds every value of the expression, each exactly as often |
| ConditionSets.BuildParamsInOrder | sqlbuilder/smartsql/__init__.py:294-318 | when no leaf binds more than one value, the values come in the order the text mentions them |
| ConditionSets.RAndSwapsValues | sqlbuilder/smartsql/__init__.py:294-318 | a two-value condition put in front of a set has its values bound in reverse |
| ConditionSets.CombinatorsBalanced | sqlbuilder/smartsql/__init__.py:299-382 | all four combinators keep one `%s` per bound value |
| ConditionSets.BuildBalanced | sqlbuilder/smartsql/__init__.py:245-388 | an expression of balanced conditions builds a balanced set |
| TupleValues.CompareAsWritten | sqlbuilder/smartsql/__init__.py:394-396 | a comparison holds its values in a tuple exactly when they come from an `Expr` with values |
| TupleValues.AsWrittenFailsOnTuples | sqlbuilder/smartsql/__init__.py:288-382 | `&` and `\|` as written raise `AttributeError` exactly when the set receiving values holds a non-empty tuple (and, for `__rand__`/`__ror__`, values come to insert); otherwise they give the list-valued result |
| TupleValues.ExprOnLeftFails | sqlbuilder/smartsql/__init__.py:342 | `(F.a > E("b + %s", 1)) & (F.c == 2)` and its `\|` form raise `AttributeError` as written; with lists they bind 1 then 2 |
| TupleValues.ExprValuesCombine | sqlbuilder/smartsql/__init__.py:394-396 | with lists, a comparison against an `Expr` anded or ored with a condition binds the expression's values then the condition's, one per `%s` |
| Options.CheckOptions | sqlbuilder/smartsql/__init__.py:408-418 | the call proceeds iff every option key is allowed; otherwise the first unknown key, in iteration order, is reported |
| Options.Get | sqlbuilder/smartsql/__init__.py:542 | `opt.get(key)` is absent iff no pair has that key, and otherwise is the value of a pair with that key |
| Tables.TableNamed | sqlbuilder/smartsql/__init__.py:25-46 | `Table.<key>` is an unjoined table whose name and alias recompose the key |
| Tables.AddJoin | sqlbuilder/smartsql/__init__.py:114-117 | a join appends the right operand, marked with the join keyword, to the left chain (a table starts a new one); the chain's own join and ON are kept |
| Tables.InnerJoin | sqlbuilder/smartsql/__init__.py:48-49 | `*` gives a chain whose elements are the left side's (itself, for a table) followed by the right operand marked `JOIN`; a chain on the left keeps its own join keyword and ON clause |
| Tables.LeftJoin | sqlbuilder/smartsql/__init__.py:51-52 | `+` gives a chain whose elements are the left side's (itself, for a table) followed by the right operand marked `LEFT JOIN`; a chain on the left keeps its own join keyword and ON clause |
| Tables.On | sqlbuilder/smartsql/__init__.py:109-111 | `on` sets the ON clause of the last element and changes nothing else |
| Tables.JoinOnText | sqlbuilder/smartsql/__init__.py:61-100 | `(T.a * T.b).on(c)` renders `a JOIN b ON (<c>)` (`LEFT JOIN` for `+`) and binds the values of `c` |
| Tables.TableBalanced | sqlbuilder/smartsql/__init__.py:61-106 | a table or chain binds one value per `%s` of its text once a nested chain's ON values are counted |
| Tables.JoinKeepsPlain | sqlbuilder/smartsql/__init__.py:114-117 | joining well-formed references gives a well-formed chain |
| Tables.OnKeepsPlain | sqlbuilder/smartsql/__init__.py:109-111 | `on` with a balanced clause keeps a chain well formed |
| Tables.NestedOnValuesDropped | sqlbuilder/smartsql/__init__.py:102-106 | for `a * (b * c)` with `.on(x = %s)`, the text holds one `%s` that the written `__params__` leaves unbound |
| Tables.ParamsAgree | sqlbuilder/smartsql/__init__.py:102-106 | `__params__` as written binds the same values as the corrected `Params` exactly when no chain's ON clause binds values, and fewer otherwise |
| Queries.NewQuerySet | sqlbuilder/smartsql/__init__.py:459-473 | a new query has its table, no fields or clauses, and counts `*` without DISTINCT |
| Queries.AndInto | sqlbuilder/smartsql/__init__.py:506-511 | the first clause is stored as given; into an empty stored set the new clause goes unchanged; an empty new set leaves a stored condition's text and values; otherwise the text is `<stored> AND <new>` with each OR side parenthesized, the last operator is AND, and the stored values come first (reversed when a stored condition meets a set); in all cases the values are the stored ones and the new ones |
| Queries.OrInto | sqlbuilder/smartsql/__init__.py:513-518 | as `AndInto` with `<stored> OR <new>`, never parenthesized, last operator OR |
| Queries.Where | sqlbuilder/smartsql/__init__.py:506-511 | `where` changes only the WHERE clause, which becomes the stored clause ANDed with the new one and binds both clauses' values |
| Queries.OrWhere | sqlbuilder/smartsql/__init__.py:513-518 | `or_where` changes only the WHERE clause, ORing the new clause in and binding both clauses' values |
| Queries.Having | sqlbuilder/smartsql/__init__.py:526-531 | `having` changes only the HAVING clause, ANDing the new clause in and binding both clauses' values |
| Queries.OrHaving | sqlbuilder/smartsql/__init__.py:533-538 | `or_having` changes only the HAVING clause, ORing the new clause in and binding both clauses' values |
| Queries.GroupBy | sqlbuilder/smartsql/__init__.py:520-524 | `group_by` stores `GROUP BY <fields>`, makes the grouping fields the default count fields with DISTINCT, and changes nothing else |
| Queries.AppendOrder | sqlbuilder/smartsql/__init__.py:545-548 | the first ORDER BY call opens `ORDER BY <items>`; a later one keeps the text so far as a prefix; the new items always end the text |
| Queries.OrderTwice | sqlbuilder/smartsql/__init__.py:540-550 | two `order_by` calls in one direction give the text of one call with both lists |
| Queries.OrderBy | sqlbuilder/smartsql/__init__.py:540-550 | `order_by` fails exactly on an option other than `desc`, with the `UnsupportedOption` error for the first such key; otherwise it opens or extends the ORDER BY text in the chosen direction |
| Queries.LimitText | sqlbuilder/smartsql/__init__.py:553 | `LIMIT <a>, <b>` whose numerals read back as the offset and the limit |
| Queries.Limit | sqlbuilder/smartsql/__init__.py:552-554 | `limit` changes only the LIMIT text, to the offset and limit given |
| Queries.QueryOn | sqlbuilder/smartsql/__init__.py:499-504 | `on` succeeds exactly on a join chain and sets the ON of its last element; a single table or no table is the module `Error` |
| Queries.ItemsSql | sqlbuilder/smartsql/__init__.py:425-426 | one text per field-list entry: a field's rendering or the raw text |
| Queries.OrderItems | sqlbuilder/smartsql/__init__.py:421-422 | each ORDER BY entry is the item's text, a space and the direction |
| Queries.GenVList | sqlbuilder/smartsql/__init__.py:433-438 | a row's value list holds one `%s` per value |
| Queries.TablesPiece | sqlbuilder/smartsql/__init__.py:663-668 | the tables clause binds the table reference's values |
| Queries.TextPiece | sqlbuilder/smartsql/__init__.py:672-680 | GROUP BY, ORDER BY and LIMIT bind no values |
| Queries.SelectPartsParams | sqlbuilder/smartsql/__init__.py:662-680 | `_join_sql_part` for `select` binds the tables', WHERE's and HAVING's values in that order |
| Queries.CountPartsParams | sqlbuilder/smartsql/__init__.py:662-671 | `_join_sql_part` for `count`/`delete` binds the tables' then WHERE's values |
| Queries.TablesOnlyParams | sqlbuilder/smartsql/__init__.py:663-665 | `_join_sql_part(["tables"])` binds only the tables' values |
| Queries.WhereLimitParams | sqlbuilder/smartsql/__init__.py:669-680 | `_join_sql_part(["where", "limit"])` binds only WHERE's values |
| Queries.Select | sqlbuilder/smartsql/__init__.py:576-592 | `select` fails exactly on an option other than `distinct`/`for_update` and binds the tables', WHERE's and HAVING's values |
| Queries.SelectOne | sqlbuilder/smartsql/__init__.py:594-611 | `select_one` has `select`'s option check, failing with the `UnsupportedOption` error for the first unknown key, and `select`'s values |
| Queries.CountDistinct | sqlbuilder/smartsql/__init__.py:564 | `count` counts distinct rows as the `distinct` option says, or else as grouping made the default |
| Queries.Count | sqlbuilder/smartsql/__init__.py:556-574 | `count` has `select`'s option check, failing with the `UnsupportedOption` error for the first unknown key, and binds the tables' and WHERE's values only; `QueryRelations.CountClauseOrder` states the text |
| Queries.InsertMany | sqlbuilder/smartsql/__init__.py:619-636 | `insert_many` fails with the `UnsupportedOption` error for the first unknown option, and with `AttributeError` for a truthy non-dictionary update option (`fv_dict.items()`); it binds the tables' values, every row value in order, then the update dictionary's values, which are none for an absent or false option; `QueryRelations.InsertManyClauseOrder` states the text |
| Queries.Keys | sqlbuilder/smartsql/__init__.py:617 | the columns of `insert` are the dictionary keys in order |
| Queries.Values | sqlbuilder/smartsql/__init__.py:617 | the row of `insert` is the dictionary values in the same order |
| Queries.Insert | sqlbuilder/smartsql/__init__.py:616-617 | `insert` is `insert_many` with the one row: the same two errors, and the tables' values then the dictionary's values when the update option is absent or false; `QueryRelations.InsertClauseOrder` states the text |
| Queries.Update | sqlbuilder/smartsql/__init__.py:638-652 | `update` accepts only `ignore`, failing with the `UnsupportedOption` error for the first other key, and binds the tables', the assignments' and WHERE's values in that order; `QueryRelations.UpdateClauseOrder` states the text |
| Queries.Delete | sqlbuilder/smartsql/__init__.py:654-659 | `delete` binds the tables' then WHERE's values; `QueryRelations.DeleteClauseOrder` states the text |
| QueryProperties.GenFListPlain | sqlbuilder/smartsql/__init__.py:425-430 | a field list of placeholder-free items holds no placeholder |
| QueryProperties.GenOrderByPlain | sqlbuilder/smartsql/__init__.py:421-422 | an ORDER BY list of placeholder-free items holds no placeholder |
| QueryProperties.GenVListSetCount | sqlbuilder/smartsql/__init__.py:441-442 | the rows' value lists hold one `%s` per value of every row |
| QueryProperties.GenFvDictBalanced | sqlbuilder/smartsql/__init__.py:445-455 | the assignments bind one value per `%s`, inlining raw expressions with their own values |
| QueryProperties.JoinSqlPartBalanced | sqlbuilder/smartsql/__init__.py:662-680 | whatever clauses are requested, `_join_sql_part` binds one value per `%s` it writes |
| QueryProperties.SelectBalanced | sqlbuilder/smartsql/__init__.py:576-592 | `select` of a well-formed query binds one value per `%s` |
| QueryProperties.SelectOneBalanced | sqlbuilder/smartsql/__init__.py:594-611 | `select_one` of a well-formed query binds one value per `%s` |
| QueryProperties.CountBalanced | sqlbuilder/smartsql/__init__.py:556-574 | `count` of a well-formed query binds one value per `%s` |
| QueryProperties.InsertManyBalanced | sqlbuilder/smartsql/__init__.py:619-636 | `insert_many` binds one value per `%s` |
| QueryProperties.InsertBalanced | sqlbuilder/smartsql/__init__.py:616-617 | `insert` binds one value per `%s` |
| QueryProperties.UpdateBalanced | sqlbuilder/smartsql/__init__.py:638-652 | `update` binds one value per `%s` |
| QueryProperties.DeleteBalanced | sqlbuilder/smartsql/__init__.py:654-659 | `delete` binds one value per `%s` |
| QueryProperties.NewQueryPlain | sqlbuilder/smartsql/__init__.py:459-473 | a new query over a well-formed table reference is well formed |
| QueryProperties.StoredClauseBalanced | sqlbuilder/smartsql/__init__.py:506-538 | storing or combining balanced clauses leaves a balanced clause |
| QueryProperties.ConditionsKeepPlain | sqlbuilder/smartsql/__init__.py:506-538 | `where`, `or_where`, `having` and `or_having` with a balanced clause keep the query well formed |
| QueryProperties.GroupByKeepsPlain | sqlbuilder/smartsql/__init__.py:520-524 | `group_by` keeps the query well formed |
| QueryProperties.OrderByKeepsPlain | sqlbuilder/smartsql/__init__.py:540-550 | `order_by` keeps the query well formed |
| QueryProperties.LimitTextPlain | sqlbuilder/smartsql/__init__.py:553 | `LIMIT %u, %u` text holds no placeholder |
| QueryProperties.LimitKeepsPlain | sqlbuilder/smartsql/__init__.py:552-554 | `limit` keeps the query well formed |
| QueryProperties.QueryOnKeepsPlain | sqlbuilder/smartsql/__init__.py:499-504 | `on` with a balanced clause keeps the query well formed |
| QueryRelations.SelectOneIsFirstRow | sqlbuilder/smartsql/__init__.py:577-611 | `select_one` equals `select` on the query whose limit is `LIMIT 0, 1`, text and values alike |
| QueryRelations.GroupedCountIsDistinct | sqlbuilder/smartsql/__init__.py:520-567 | after `group_by(g)`, `count()` equals `count(*g, distinct=True)` on the ungrouped query |
| QueryRelations.SelectClauseOrder | sqlbuilder/smartsql/__init__.py:576-592 | for every accepted option set, `select` is SELECT, DISTINCT when asked, the fields, then FROM, WHERE, GROUP BY, HAVING, ORDER BY and LIMIT in that order, each only when set, and FOR UPDATE last when asked, joined by spaces |
| QueryRelations.CountClauseOrder | sqlbuilder/smartsql/__init__.py:556-574 | for every accepted option set, `count` is SELECT, then COUNT(...) or COUNT(DISTINCT ...) over the given fields, or the default ones when none are given, then FROM and WHERE each only when set, and FOR UPDATE last when asked; never GROUP BY, HAVING, ORDER BY or LIMIT |
| QueryRelations.DeleteClauseOrder | sqlbuilder/smartsql/__init__.py:654-659 | `delete` is DELETE, then FROM and WHERE each only when set |
| QueryRelations.InsertManyClauseOrder | sqlbuilder/smartsql/__init__.py:619-636 | for every accepted option set, `insert_many` is INSERT, IGNORE when asked, INTO, the table reference when set, `(<fields>) VALUES <rows>`, and ON DUPLICATE KEY UPDATE with the assignments when the update dictionary is non-empty |
| QueryRelations.InsertClauseOrder | sqlbuilder/smartsql/__init__.py:616-636 | `insert` is the `insert_many` text with the dictionary's keys as the fields and its values as the one row |
| QueryRelations.UpdateClauseOrder | sqlbuilder/smartsql/__init__.py:638-652 | `update` is UPDATE, IGNORE when asked, the table reference when set, SET and the assignments, then WHERE and LIMIT each only when set |
| Unions.SelectForUnion | sqlbuilder/smartsql/__init__.py:613-614 | a union part is the text and values of `select` with the given fields |
| Unions.SelectForUnionBalanced | sqlbuilder/smartsql/__init__.py:613-614 | a part from a well-formed query is balanced |
| Unions.Start | sqlbuilder/smartsql/__init__.py:706-711 | a union starts with one unlabelled part and no ORDER BY or LIMIT |
| Unions.Append | sqlbuilder/smartsql/__init__.py:713-723 | `*`/`+` append a part with its keyword, and refuse any other operand with `TypeError` |
| Unions.Distinct | sqlbuilder/smartsql/__init__.py:713-717 | `*` appends a UNION DISTINCT part, keeping ORDER BY and LIMIT; `TypeError` exactly for a non-part |
| Unions.All | sqlbuilder/smartsql/__init__.py:719-723 | `+` appends a UNION ALL part, keeping ORDER BY and LIMIT; `TypeError` exactly for a non-part |
| Unions.PartDistinct | sqlbuilder/smartsql/__init__.py:688-691 | `a * b` of two parts is the two-part UNION DISTINCT union; a right operand that is not a part is a `TypeError` |
| Unions.PartAll | sqlbuilder/smartsql/__init__.py:693-696 | `a + b` of two parts is the two-part UNION ALL union; a right operand that is not a part is a `TypeError` |
| Unions.UnionOrderBy | sqlbuilder/smartsql/__init__.py:725-735 | a union's `order_by` accepts only `desc`, failing with the `UnsupportedOption` error for the first other key, and otherwise extends only the ORDER BY text |
| Unions.UnionLimit | sqlbuilder/smartsql/__init__.py:737-739 | a union's `limit` changes only its LIMIT text, to the offset and limit given |
| Unions.UnionSelect | sqlbuilder/smartsql/__init__.py:741-757 | for any number of parts, the text is each part's union keyword (none for the first) and the part in parentheses, in order, then ORDER BY and LIMIT each only when set, joined by spaces; the values are the parts' values, part after part |
| Unions.UnionParamsAppend | sqlbuilder/smartsql/__init__.py:713-757 | adding a part appends exactly its values to the union's values |
| Unions.UnionSelectBalanced | sqlbuilder/smartsql/__init__.py:741-757 | a union of balanced parts binds one value per `%s` |
| Unions.AppendKeepsPlain | sqlbuilder/smartsql/__init__.py:713-723 | `*` and `+` with a balanced part keep the union well formed |
| Unions.UnionOrderByKeepsPlain | sqlbuilder/smartsql/__init__.py:725-735 | `order_by` keeps the union well formed |
| Unions.UnionLimitKeepsPlain | sqlbuilder/smartsql/__init__.py:737-739 | `limit` keeps the union well formed |
| Unions.TwoPartDistinct | sqlbuilder/smartsql/__init__.py:688-757 | `a * b` renders `(a) UNION DISTINCT (b)` with a's values then b's |
| Unions.TwoPartAll | sqlbuilder/smartsql/__init__.py:693-757 | `a + b` renders `(a) UNION ALL (b)` with a's values then b's |
| Dialects.Translate | sqlbuilder/smartsql/compilers/mysql.py:14-17 | `LIKE` becomes `LIKE BINARY`, `ILIKE` becomes `LIKE`, other operators are kept |
| Dialects.TranslateChanges | sqlbuilder/smartsql/compilers/mysql.py:14-17 | an operator is changed iff it is in the translation map, which holds exactly `LIKE` and `ILIKE` |
| Dialects.MysqlTable | sqlbuilder/smartsql/compilers/mysql.py:27-29 | the MySQL escape table starts with quote to backslash-quote and otherwise keeps the base table's entries |
| Dialects.MysqlTableKeepsRest | sqlbuilder/smartsql/compilers/mysql.py:29 | the MySQL table is the quote entry followed by the base table without its first entry |
| Dialects.MysqlNameQuoted | sqlbuilder/smartsql/compilers/mysql.py:20-24 | a name is written between backticks unescaped; stripping them gives the name back |
| Dialects.MysqlBinaryText | sqlbuilder/smartsql/compilers/mysql.py:35-41 | a binary node is left, space, translated operator, space, right |
| Dialects.CompileConcat | sqlbuilder/smartsql/compilers/mysql.py:44-62 | the `first`-flag loop produces exactly the fragments of the recursive CONCAT / CONCAT_WS definition |
| Dialects.MysqlConcatText | sqlbuilder/smartsql/compilers/mysql.py:46-55 | `CONCAT(` the argument texts joined by `, ` `)`, with no stray comma and `CONCAT()` for no arguments |
| Dialects.MysqlConcatWsText | sqlbuilder/smartsql/compilers/mysql.py:56-62 | `CONCAT_WS(` the separator expression, then the separator text before each argument, `)` |
| Dialects.MysqlInherits | sqlbuilder/smartsql/compilers/mysql.py:12 | a node kind MySQL does not override goes to the base rule with its children compiled by MySQL, so a name inside it is backquoted |
| Dialects.MysqlMatchesBase | sqlbuilder/smartsql/compilers/mysql.py:12 | a tree made only of node kinds MySQL does not override renders as in the base registry |
| Dialects.MysqlOverrides | sqlbuilder/smartsql/compilers/mysql.py:20-32 | MySQL's name and value rules do not depend on the base rules; values go through the base value compiler with the MySQL table |
| Dialects.CassandraField | sqlbuilder/smartsql/compilers/cassandra.py:16-21 | a `*` field is written as `*`; any other field renders as the Name of its own name |
| Dialects.CassandraDropsPrefix | sqlbuilder/smartsql/compilers/cassandra.py:16-21 | any node, fields nested at any depth included, renders as the same node with every field prefix removed; two fields with the same name render alike |
| Dialects.CassandraValueIsMysql | sqlbuilder/smartsql/compilers/cassandra.py:24 | Cassandra renders values exactly as MySQL does |
| Dialects.CassandraInheritsBase | sqlbuilder/smartsql/compilers/cassandra.py:13 | names, binary nodes, concatenations and other nodes go to the base rule with children compiled by Cassandra; `p.x <op> v` renders as the base binary rule over the bare name `x` and the MySQL-escaped value, so `LIKE` is not translated |
| Dialects.CassandraMatchesBase | sqlbuilder/smartsql/compilers/cassandra.py:13 | a node with no field and no value at any depth renders as in the base registry |

## Left out

- `sqlbuilder/models.py` and `setup.py` are not part of this model: they use the builder or package it.
- The `if __name__ == "__main__"` demonstration (`__init__.py:761-846`) only prints statements.
- `sqlrepr`'s retry without arguments (`__init__.py:8-13`): every renderer here is called with the arguments it accepts.
- `clone` and the `deepcopy` before each condition-set operator: the model's values are immutable, so operands never change.
- Direct assignment to the `wheres` and `havings` properties: the model stores clauses only through `where`, `or_where`, `having` and `or_having`.
- A raw string stored by `where`/`having` as the first clause: the query stores a `Condition` or a `ConditionSet`.
- `_gen_f_list_define` (`__init__.py:429-430`) has the same text as `_gen_f_list` and no caller; `Queries.GenFList` stands for both.
- Python dictionaries are sequences of (key, value) pairs in iteration order. `insert` relies on `keys()` and the values listed from them agreeing in order, which they do.
- Bind values are `Conditions.Value`: null, integers, strings and lists. Other Python objects are only passed through as values, and their type does not matter.
- Queries.LimitText: the offset and limit are integers. Python's `%u` also takes a float and truncates it toward zero, so `limit(1.9, 10)` writes `LIMIT 1, 10`; a non-numeric argument raises `TypeError`. Neither path is modelled. For negative integers, `%u` writes a minus sign as `%d` does, and so does the model.
- Queries.Limit: takes integers only, as `Queries.LimitText` does.
- Unions.UnionLimit: takes integers only, as `Queries.LimitText` does.
- Placeholders are counted as occurrences of `%s`. A `%%` escape in caller-supplied text is not treated specially. The invariant lemmas require caller text without placeholders of its own.
- The parent package that `mysql.py:1` and `cassandra.py:1` import from is not part of this model. That package holds the base `compile` registry, the node classes, `SPACE` and `ValueCompiler`. Its base rules, its value compiler and its base escape table enter as the `Dialects.Env` parameters.
- Dialects.Render: a base rule sees a node's `Head` (its kind and own attributes) and the fragments of its children, which the calling registry compiles. A base rule that builds new nodes of its own and compiles those is not modelled, because the base rules are not part of this model.
- Fields under MySQL: the base `Field` rule is not part of this model, so a `Dialects.FieldRef` hands its name to the base rule as part of its `Head` and has no child nodes. If that rule compiles `Name(expr._name)` through the calling registry, as Cassandra's own field rule does (`cassandra.py:16-21`), MySQL writes a field's name between backticks; the model does not show that.
- Dialects.MysqlInherits: covers only node kinds neither dialect names (`Other`); it says nothing about fields, for the reason above.
- Dialects.MysqlMatchesBase: covers only trees of `Other` nodes; a tree holding a field is not claimed to render as in the base registry, for the reason above.
- The Python 2 `unicode`/`basestring` aliases in `mysql.py:3-10` and `cassandra.py:3-10` do not affect any rule.
- The statements bind the values of their table reference as `Tables.Params`, the corrected `__params__` described under Findings. The code as written binds `sqlparams(self.tables)` (`__init__.py:665`, `:668`), which is `Tables.ParamsAsWritten`. `Tables.ParamsAgree` proves that the two are equal exactly when no chain's ON clause binds values. Each member below states the corrected values:
- Queries.TablesPiece: binds `Tables.Params`, not the values as written.
- Queries.SelectPartsParams: the tables' values are `Tables.Params`, not the values as written.
- Queries.CountPartsParams: the tables' values are `Tables.Params`, not the values as written.
- Queries.TablesOnlyParams: the tables' values are `Tables.Params`, not the values as written.
- Queries.Select: the tables' values are `Tables.Params`, not the values as written.
- Queries.SelectOne: the tables' values are `Tables.Params`, not the values as written.
- Queries.Count: the tables' values are `Tables.Params`, not the values as written.
- Queries.InsertMany: the tables' values are `Tables.Params`, not the values as written.
- Queries.Insert: the tables' values are `Tables.Params`, not the values as written.
- Queries.Update: the tables' values are `Tables.Params`, not the values as written.
- Queries.Delete: the tables' values are `Tables.Params`, not the values as written.
- QueryProperties.JoinSqlPartBalanced: holds for the corrected table values; as written, a nested chain's ON values are missing.
- QueryProperties.SelectBalanced: holds for the corrected table values; as written, a nested chain's ON values are missing.
- QueryProperties.SelectOneBalanced: holds for the corrected table values; as written, a nested chain's ON values are missing.
- QueryProperties.CountBalanced: holds for the corrected table values; as written, a nested chain's ON values are missing.
- QueryProperties.InsertManyBalanced: holds for the corrected table values; as written, a nested chain's ON values are missing.
- QueryProperties.InsertBalanced: holds for the corrected table values; as written, a nested chain's ON values are missing.
- QueryProperties.UpdateBalanced: holds for the corrected table values; as written, a nested chain's ON values are missing.
- QueryProperties.DeleteBalanced: holds for the corrected table values; as written, a nested chain's ON values are missing.
- Unions.SelectForUnion: a part's values are `select`'s, with the corrected table values.
- Unions.SelectForUnionBalanced: holds for the corrected table values; as written, a nested chain's ON values are missing.
- Python objects are mutable and the model's values are not. Four operations change an operand in place, and a later use of that operand sees the change. This is not modelled:
  - `_add_join` sets the right operand's `_join` and appends it to the left chain (`__init__.py:115-116`);
  - `on` sets `_on` on the chain's last element (`__init__.py:110`);
  - a union's `*` and `+` append to the union itself (`__init__.py:716`, `:722`).

  For example, after `b = T.b; T.a * b`, the table `b` carries `JOIN`, so `QuerySet(b).select()` writes `SELECT  FROM JOIN b`. In the model `b` is unchanged.
- Tables.AddJoin: the right operand is not changed, unlike `_add_join`, which marks it with the join keyword in place.
- Tables.On: returns the updated chain, where `on` changes the chain and its last element in place.
- Unions.Append: returns the extended union, where `*` and `+` extend the union in place.
- ConditionSets.SetAnd: a raw text argument stands for a Python 2 `str`. A `unicode` text fails the `isinstance(c, str)` test (`__init__.py:325`) and raises `TypeError`; that path is not modelled.
- ConditionSets.SetOr: as `SetAnd`, for `__init__.py:370`.
- ConditionSets.SetRAnd: as `SetAnd`, for `__init__.py:303`.
- ConditionSets.SetROr: as `SetAnd`, for `__init__.py:351`.
- ConditionSets.CondAnd: as `SetAnd`, for `__init__.py:246`.
- ConditionSets.CondOr: as `SetAnd`, for `__init__.py:258`.
- Queries.Keys: every key of the `insert` dictionary is taken as raw column text. A `Field` key is rendered through `sqlrepr` by `_gen_f_list` (`__init__.py:425-426`, `:617`), which adds its prefix and alias; that is not modelled.
- Queries.Insert: its contract states the values only without `on_duplicate_key_update`; with that option, `Queries.InsertMany`'s contract applies to the same call.
- Queries.SelectOne: its contract states the option check and the values, but not the text. `QueryRelations.SelectOneIsFirstRow` states the text.

## Findings

| source | as written | input that shows it | evidently intended | confidence | as-written member | corrected member |
|---|---|---|---|---|---|---|
| sqlbuilder/smartsql/__init__.py:102-106 | `TableSet.__params__` collects the values of the chain's elements but not those of the chain's own ON clause. `__sqlrepr__` (91-100) writes that clause when the chain is nested in a join. | `(T.a * (T.b * T.c)).on(F.x == 1)` renders `a JOIN (b JOIN c) ON (x = %s)` with no values | the nested chain's ON values follow its elements' values, one per `%s` | not executed | Tables.NestedOnValuesDropped | Tables.TableBalanced |
| sqlbuilder/smartsql/__init__.py:394-396 | `Expr.__init__` keeps `*params` as a tuple. A comparison with an `Expr` passes it to `Condition` (191 for `>`, and alike for the other operators), `ConditionSet._init` copies the reference (288), and `_and`/`_or` then call `self._params.extend` (342, 380) and `_pre_extend` calls `insert` (296) on it. A tuple has neither method. | `(F.a > E("b + %s", 1)) & (F.c == 2)` raises `AttributeError` at line 342; the `\|` form raises it at line 380 | the values are a list, so the combined set binds 1 then 2 | not executed | TupleValues.ExprOnLeftFails | TupleValues.ExprValuesCombine |

`Tables.ParamsAsWritten` is `__params__` as written. `Tables.NestedOnValuesDropped` shows the one unbound placeholder. `Tables.Params` adds the chain's own ON values, and `Tables.TableBalanced` proves that every well-formed chain then binds one value per `%s`. The queries use `Tables.Params`, and `Tables.ParamsAgree` shows where the two differ.

`TupleValues.CompareAsWritten` and `TupleValues.AsWrittenFailsOnTuples` model the tuple as written: `&` and `|` fail exactly when the set that receives values holds a non-empty tuple. `TupleValues.ExprOnLeftFails` is the concrete case. `ConditionSets` keeps values in lists, as the combinators expect, and `TupleValues.ExprValuesCombine` proves that a comparison against an `Expr` then combines like any other condition and keeps one value per `%s`.

=== FILE: condition_sets.dfy ===
/**
  `ConditionSet` (sqlbuilder/smartsql/__init__.py): AND/OR combination of
  conditions into one text, parenthesizing by the last operator used.
  Python's `&` and `|` deep-copy the receiver before combining; as immutable
  values every combinator here leaves its operands unchanged for free.
 */
module ConditionSets {
  import opened Outcomes
  import opened SqlText
  import opened Conditions

  /** `ConditionSet._last_op`: `None`, `OP_AND` or `OP_OR`. */
  datatype LastOp = NoOp | OpAnd | OpOr

  /** `ConditionSet`: empty, or a text with its bind values and last operator. */
  datatype ConditionSet =
    | EmptySet
    | NonEmpty(sql: string, params: seq<Value>, lastOp: LastOp)

  /** What the combinators accept as an operand: a condition or a set. */
  datatype Clause = CondClause(cond: Condition) | SetClause(conds: ConditionSet)

  /** Any right operand of `&` / `|`: a raw SQL string, a clause, or some other
      Python object (which is refused with `TypeError`). */
  datatype Arg = RawArg(text: string) | ClauseArg(clause: Clause) | OtherArg

  /** `__sqlrepr__` and `__params__` of a set: empty text and no values when empty. */
  function SetSql(s: ConditionSet): string
  {
    if s.EmptySet? then "" else s.sql
  }

  function SetParams(s: ConditionSet): seq<Value>
  {
    if s.EmptySet? then [] else s.params
  }

  function ClauseSql(c: Clause): string
  {
    match c
    case CondClause(d) => d.sql
    case SetClause(s) => SetSql(s)
  }

  function ClauseParams(c: Clause): seq<Value>
  {
    match c
    case CondClause(d) => d.params
    case SetClause(s) => SetParams(s)
  }

  /** The last operator of a clause; a plain condition has none. */
  function LastOpOf(c: Clause): LastOp
  {
    if c.SetClause? && c.conds.NonEmpty? then c.conds.lastOp else NoOp
  }

  function Wrap(s: string, paren: bool): string
  {
    if paren then "(" + s + ")" else s
  }

  /** `_init(c)`: a set holding exactly the clause's text and values. */
  function Init(c: Clause): (r: ConditionSet)
    ensures r.NonEmpty? && SetSql(r) == ClauseSql(c) && SetParams(r) == ClauseParams(c)
    ensures r.lastOp == LastOpOf(c)
  {
    NonEmpty(ClauseSql(c), ClauseParams(c), LastOpOf(c))
  }

  /** `_and(c)`: the set on the left, the clause on the right. */
  function AndWith(s: ConditionSet, c: Clause): (r: ConditionSet)
    ensures r.NonEmpty?
    ensures s.EmptySet? ==> r == Init(c)
    ensures s.NonEmpty? ==> r.lastOp == OpAnd && r.params == s.params + ClauseParams(c)
    ensures s.NonEmpty? ==>
      |r.sql| == |s.sql| + 5 + |ClauseSql(c)| + (if s.lastOp == OpOr then 2 else 0) + (if LastOpOf(c) == OpOr then 2 else 0)
  {
    if s.EmptySet? then Init(c)
    else
      NonEmpty(Wrap(s.sql, s.lastOp == OpOr) + " AND " + Wrap(ClauseSql(c), LastOpOf(c) == OpOr),
               s.params + ClauseParams(c), OpAnd)
  }

  /** `_or(c)`: never parenthesizes. */
  function OrWith(s: ConditionSet, c: Clause): (r: ConditionSet)
    ensures r.NonEmpty?
    ensures s.EmptySet? ==> r == Init(c)
    ensures s.NonEmpty? ==> r.lastOp == OpOr && r.params == s.params + ClauseParams(c)
    ensures s.NonEmpty? ==> |r.sql| == |s.sql| + 4 + |ClauseSql(c)|
  {
    if s.EmptySet? then Init(c)
    else NonEmpty(s.sql + " OR " + ClauseSql(c), s.params + ClauseParams(c), OpOr)
  }

  function Reverse<T>(xs: seq<T>): (r: seq<T>)
    ensures |r| == |xs|
    ensures forall i :: 0 <= i < |xs| ==> r[i] == xs[|xs| - 1 - i]
  {
    if |xs| == 0 then [] else Reverse(xs[1..]) + [xs[0]]
  }

  /** `_pre_extend(array1, array2)`: inserting each item of `array2` at the
      front of `array1` in turn leaves them in reverse order. */
  function PreExtend(target: seq<Value>, items: seq<Value>): (r: seq<Value>)
    ensures r == Reverse(items) + target
    decreases |items|
  {
    if |items| == 0 then target
    else
      assert Reverse(items[1..]) + [items[0]] == Reverse(items);
      PreExtend([items[0]] + target, items[1..])
  }

  /** `_rand(c)`: the condition on the left of the set. Its values are put in
      front of the set's values in REVERSE order, although its text stays in
      its own order. */
  function RAndWith(s: ConditionSet, c: Condition): (r: ConditionSet)
    ensures r.NonEmpty?
    ensures s.EmptySet? ==> r == Init(CondClause(c))
    ensures s.NonEmpty? ==> r.lastOp == OpAnd && r.params == Reverse(c.params) + s.params
    ensures s.NonEmpty? ==> |r.sql| == |c.sql| + 5 + |s.sql| + (if s.lastOp == OpOr then 2 else 0)
  {
    if s.EmptySet? then Init(CondClause(c))
    else NonEmpty(c.sql + " AND " + Wrap(s.sql, s.lastOp == OpOr), PreExtend(s.params, c.params), OpAnd)
  }

  /** `_ror(c)`: the condition on the left of the set, values reversed as in `_rand`. */
  function ROrWith(s: ConditionSet, c: Condition): (r: ConditionSet)
    ensures r.NonEmpty?
    ensures s.EmptySet? ==> r == Init(CondClause(c))
    ensures s.NonEmpty? ==> r.lastOp == OpOr && r.params == Reverse(c.params) + s.params
    ensures s.NonEmpty? ==> |r.sql| == |c.sql| + 4 + |s.sql|
  {
    if s.EmptySet? then Init(CondClause(c))
    else NonEmpty(c.sql + " OR " + s.sql, PreExtend(s.params, c.params), OpOr)
  }

  /** A raw string operand becomes `Condition(text)` with no values. */
  function RawCondition(text: string): Condition
  {
    Condition(text, [])
  }

  /** `ConditionSet.__and__`: strings, conditions and sets are accepted. */
  function SetAnd(s: ConditionSet, a: Arg): (r: Result<ConditionSet>)
    ensures r.Ok? <==> !a.OtherArg?
    ensures r.Err? ==> r.error == TypeError
    ensures a.ClauseArg? ==> r == Ok(AndWith(s, a.clause))
    ensures a.RawArg? ==> r == Ok(AndWith(s, CondClause(RawCondition(a.text))))
  {
    match a
    case RawArg(t) => Ok(AndWith(s, CondClause(RawCondition(t))))
    case ClauseArg(c) => Ok(AndWith(s, c))
    case OtherArg => Err(TypeError)
  }

  /** `ConditionSet.__or__`. */
  function SetOr(s: ConditionSet, a: Arg): (r: Result<ConditionSet>)
    ensures r.Ok? <==> !a.OtherArg?
    ensures r.Err? ==> r.error == TypeError
    ensures a.ClauseArg? ==> r == Ok(OrWith(s, a.clause))
    ensures a.RawArg? ==> r == Ok(OrWith(s, CondClause(RawCondition(a.text))))
  {
    match a
    case RawArg(t) => Ok(OrWith(s, CondClause(RawCondition(t))))
    case ClauseArg(c) => Ok(OrWith(s, c))
    case OtherArg => Err(TypeError)
  }

  /** `ConditionSet.__rand__`: only a string or a plain condition may stand on the left. */
  function SetRAnd(s: ConditionSet, a: Arg): (r: Result<ConditionSet>)
    ensures r.Ok? <==> a.RawArg? || (a.ClauseArg? && a.clause.CondClause?)
    ensures r.Ok? && a.ClauseArg? ==> r.value == RAndWith(s, a.clause.cond)
    ensures a.RawArg? ==> r == Ok(RAndWith(s, RawCondition(a.text)))
    ensures r.Err? ==> r.error == TypeError
  {
    match a
    case RawArg(t) => Ok(RAndWith(s, RawCondition(t)))
    case ClauseArg(CondClause(c)) => Ok(RAndWith(s, c))
    case _ => Err(TypeError)
  }

  /** `ConditionSet.__ror__`. */
  function SetROr(s: ConditionSet, a: Arg): (r: Result<ConditionSet>)
    ensures r.Ok? <==> a.RawArg? || (a.ClauseArg? && a.clause.CondClause?)
    ensures r.Ok? && a.ClauseArg? ==> r.value == ROrWith(s, a.clause.cond)
    ensures a.RawArg? ==> r == Ok(ROrWith(s, RawCondition(a.text)))
    ensures r.Err? ==> r.error == TypeError
  {
    match a
    case RawArg(t) => Ok(ROrWith(s, RawCondition(t)))
    case ClauseArg(CondClause(c)) => Ok(ROrWith(s, c))
    case _ => Err(TypeError)
  }

  /** `Condition.__and__`: a set on the right is handed to its `__rand__`. */
  function CondAnd(c: Condition, a: Arg): (r: Result<ConditionSet>)
    ensures r.Ok? <==> !a.OtherArg?
    ensures a.ClauseArg? && a.clause.SetClause? ==> r == SetRAnd(a.clause.conds, ClauseArg(CondClause(c)))
    ensures a.ClauseArg? && a.clause.CondClause? ==> r == SetAnd(Init(CondClause(c)), a)
    ensures a.RawArg? ==> r == SetAnd(Init(CondClause(c)), ClauseArg(CondClause(RawCondition(a.text))))
    ensures r.Err? ==> r.error == TypeError
  {
    match a
    case RawArg(t) => SetAnd(Init(CondClause(c)), ClauseArg(CondClause(RawCondition(t))))
    case ClauseArg(CondClause(d)) => SetAnd(Init(CondClause(c)), a)
    case ClauseArg(SetClause(s)) => SetRAnd(s, ClauseArg(CondClause(c)))
    case OtherArg => Err(TypeError)
  }

  /** `Condition.__or__`. */
  function CondOr(c: Condition, a: Arg): (r: Result<ConditionSet>)
    ensures r.Ok? <==> !a.OtherArg?
    ensures a.ClauseArg? && a.clause.SetClause? ==> r == SetROr(a.clause.conds, ClauseArg(CondClause(c)))
    ensures a.ClauseArg? && a.clause.CondClause? ==> r == SetOr(Init(CondClause(c)), a)
    ensures a.RawArg? ==> r == SetOr(Init(CondClause(c)), ClauseArg(CondClause(RawCondition(a.text))))
    ensures r.Err? ==> r.error == TypeError
  {
    match a
    case RawArg(t) => SetOr(Init(CondClause(c)), ClauseArg(CondClause(RawCondition(t))))
    case ClauseArg(CondClause(d)) => SetOr(Init(CondClause(c)), a)
    case ClauseArg(SetClause(s)) => SetROr(s, ClauseArg(CondClause(c)))
    case OtherArg => Err(TypeError)
  }

  /** Python's `x & y` for two clauses, dispatched as the interpreter does. */
  function PyAnd(x: Clause, y: Clause): (r: ConditionSet)
    ensures x.CondClause? ==> Ok(r) == CondAnd(x.cond, ClauseArg(y))
    ensures x.SetClause? ==> Ok(r) == SetAnd(x.conds, ClauseArg(y))
  {
    match x
    case CondClause(c) => if y.SetClause? then RAndWith(y.conds, c) else AndWith(Init(x), y)
    case SetClause(s) => AndWith(s, y)
  }

  /** Python's `x | y` for two clauses. */
  function PyOr(x: Clause, y: Clause): (r: ConditionSet)
    ensures x.CondClause? ==> Ok(r) == CondOr(x.cond, ClauseArg(y))
    ensures x.SetClause? ==> Ok(r) == SetOr(x.conds, ClauseArg(y))
  {
    match x
    case CondClause(c) => if y.SetClause? then ROrWith(y.conds, c) else OrWith(Init(x), y)
    case SetClause(s) => OrWith(s, y)
  }

  // ---------------------------------------------------------------------
  // Reference semantics: the boolean expression a caller writes with `&`
  // and `|`, printed with the fewest parentheses SQL precedence allows.

  datatype BoolExpr =
    | Leaf(cond: Condition)
    | AndNode(left: BoolExpr, right: BoolExpr)
    | OrNode(left: BoolExpr, right: BoolExpr)

  /** Text of a boolean expression: AND binds tighter than OR, both are
      associative, so only an OR operand of an AND needs parentheses. */
  function Text(e: BoolExpr): string
  {
    match e
    case Leaf(c) => c.sql
    case AndNode(l, r) => Wrap(Text(l), l.OrNode?) + " AND " + Wrap(Text(r), r.OrNode?)
    case OrNode(l, r) => Text(l) + " OR " + Text(r)
  }

  /** The bind values of an expression, in the order its text mentions them. */
  function Bind(e: BoolExpr): seq<Value>
  {
    match e
    case Leaf(c) => c.params
    case AndNode(l, r) => Bind(l) + Bind(r)
    case OrNode(l, r) => Bind(l) + Bind(r)
  }

  function RootOp(e: BoolExpr): LastOp
  {
    match e
    case Leaf(_) => NoOp
    case AndNode(_, _) => OpAnd
    case OrNode(_, _) => OpOr
  }

  /** What evaluating the expression with Python's `&` and `|` yields. */
  function Build(e: BoolExpr): (r: Clause)
    ensures e.Leaf? <==> r.CondClause?
    ensures r.SetClause? ==> r.conds.NonEmpty?
  {
    match e
    case Leaf(c) => CondClause(c)
    case AndNode(l, r) => SetClause(PyAnd(Build(l), Build(r)))
    case OrNode(l, r) => SetClause(PyOr(Build(l), Build(r)))
  }

  /** The builder's text is exactly the precedence-aware rendering of the
      expression written, and its last operator is the expression's root. */
  lemma {:induction false} BuildText(e: BoolExpr)
    ensures ClauseSql(Build(e)) == Text(e)
    ensures LastOpOf(Build(e)) == RootOp(e)
  {
    match e
    case Leaf(c) =>
    case AndNode(l, r) =>
      BuildText(l);
      BuildText(r);
    case OrNode(l, r) =>
      BuildText(l);
      BuildText(r);
  }

  /** Every leaf binds at most one value. */
  predicate SingleValued(e: BoolExpr)
  {
    match e
    case Leaf(c) => |c.params| <= 1
    case AndNode(l, r) => SingleValued(l) && SingleValued(r)
    case OrNode(l, r) => SingleValued(l) && SingleValued(r)
  }

  /** The builder binds every value of the expression, each exactly as often. */
  lemma {:induction false} BuildParamsPermuted(e: BoolExpr)
    ensures multiset(ClauseParams(Build(e))) == multiset(Bind(e))
  {
    match e
    case Leaf(c) =>
    case AndNode(l, r) =>
      BuildParamsPermuted(l);
      BuildParamsPermuted(r);
      ReverseMultiset(ClauseParams(Build(l)));
    case OrNode(l, r) =>
      BuildParamsPermuted(l);
      BuildParamsPermuted(r);
      ReverseMultiset(ClauseParams(Build(l)));
  }

  lemma ReverseMultiset<T>(xs: seq<T>)
    ensures multiset(Reverse(xs)) == multiset(xs)
  {
    if |xs| > 0 {
      assert xs == [xs[0]] + xs[1..];
      ReverseMultiset(xs[1..]);
    }
  }

  /** When no leaf binds more than one value, the values also come in the
      order the text mentions them. */
  lemma {:induction false} BuildParamsInOrder(e: BoolExpr)
    requires SingleValued(e)
    ensures ClauseParams(Build(e)) == Bind(e)
  {
    match e
    case Leaf(c) =>
    case AndNode(l, r) =>
      BuildParamsInOrder(l);
      BuildParamsInOrder(r);
      if l.Leaf? {
        assert Reverse(l.cond.params) == l.cond.params;
      }
    case OrNode(l, r) =>
      BuildParamsInOrder(l);
      BuildParamsInOrder(r);
      if l.Leaf? {
        assert Reverse(l.cond.params) == l.cond.params;
      }
  }

  /** A two-value condition put in front of a set with `&` has its values
      swapped relative to its text: `x IN (%s, %s)` with values 1, 2 anded
      with `y = %s` bound to 3 binds 2, 1, 3. */
  lemma RAndSwapsValues()
    ensures var c := Condition("x IN (%s, %s)", [IntValue(1), IntValue(2)]);
            var s := NonEmpty("y = %s", [IntValue(3)], NoOp);
            var e := AndNode(Leaf(c), Leaf(Condition("y = %s", [IntValue(3)])));
            && RAndWith(s, c).params == [IntValue(2), IntValue(1), IntValue(3)]
            && Bind(e) == [IntValue(1), IntValue(2), IntValue(3)]
  {
  }

  /** The placeholder invariant of a set. */
  predicate SetBalanced(s: ConditionSet)
  {
    Placeholders(SetSql(s)) == |SetParams(s)|
  }

  predicate ClauseBalanced(c: Clause)
  {
    Placeholders(ClauseSql(c)) == |ClauseParams(c)|
  }

  lemma WrapPlaceholders(s: string, paren: bool)
    ensures Placeholders(Wrap(s, paren)) == Placeholders(s)
  {
    if paren {
      Parenthesized(s);
    }
  }

  lemma KeywordGlue()
    ensures Glue(" AND ") && Glue(" OR ")
  {
    LiteralGlue(" AND ");
    LiteralGlue(" OR ");
  }

  /** Every combinator keeps one `%s` per bound value. */
  lemma CombinatorsBalanced(s: ConditionSet, c: Clause, d: Condition)
    requires SetBalanced(s) && ClauseBalanced(c) && Balanced(d)
    ensures SetBalanced(AndWith(s, c)) && SetBalanced(OrWith(s, c))
    ensures SetBalanced(RAndWith(s, d)) && SetBalanced(ROrWith(s, d))
  {
    KeywordGlue();
    if s.NonEmpty? {
      WrapPlaceholders(s.sql, s.lastOp == OpOr);
      WrapPlaceholders(ClauseSql(c), LastOpOf(c) == OpOr);
      Glued(Wrap(s.sql, s.lastOp == OpOr), " AND ", Wrap(ClauseSql(c), LastOpOf(c) == OpOr));
      Glued(s.sql, " OR ", ClauseSql(c));
      Glued(d.sql, " AND ", Wrap(s.sql, s.lastOp == OpOr));
      Glued(d.sql, " OR ", s.sql);
    }
  }

  predicate LeavesBalanced(e: BoolExpr)
  {
    match e
    case Leaf(c) => Balanced(c)
    case AndNode(l, r) => LeavesBalanced(l) && LeavesBalanced(r)
    case OrNode(l, r) => LeavesBalanced(l) && LeavesBalanced(r)
  }

  /** An expression of balanced conditions builds a balanced set. */
  lemma {:induction false} BuildBalanced(e: BoolExpr)
    requires LeavesBalanced(e)
    ensures ClauseBalanced(Build(e))
  {
    match e
    case Leaf(c) =>
    case AndNode(l, r) =>
      BuildBalanced(l);
      BuildBalanced(r);
      BuildBalancedStep(Build(l), Build(r));
    case OrNode(l, r) =>
      BuildBalanced(l);
      BuildBalanced(r);
      BuildBalancedStep(Build(l), Build(r));
  }

  lemma BuildBalancedStep(x: Clause, y: Clause)
    requires ClauseBalanced(x) && ClauseBalanced(y)
    ensures SetBalanced(PyAnd(x, y)) && SetBalanced(PyOr(x, y))
  {
    match x
    case CondClause(c) =>
      assert SetBalanced(Init(x));
      CombinatorsBalanced(Init(x), y, c);
      if y.SetClause? {
        CombinatorsBalanced(y.conds, y, c);
      }
    case SetClause(s) =>
      CombinatorsBalanced(s, y, Condition("", []));
  }
}

=== FILE: conditions.dfy ===
/**
  Fields, raw expressions and the conditions that `Field`'s comparison
  operators build (sqlbuilder/smartsql/__init__.py, `Field`, `Condition`,
  `Expr`). Every node is a pair of SQL text and the values bound to its
  `%s` placeholders.
 */
module Conditions {
  import opened Outcomes
  import opened SqlText
  import opened Identifiers

  /** A Python value passed as a bind parameter. `ListValue` is a list or a tuple. */
  datatype Value =
    | NullValue
    | IntValue(i: int)
    | StrValue(s: string)
    | ListValue(items: seq<Value>)

  /** `Expr(sql, *params)`: raw SQL text with its own bind values. */
  datatype Expr = Expr(sql: string, params: seq<Value>)

  /** `Condition(sql, params)`: one boolean SQL fragment. */
  datatype Condition = Condition(sql: string, params: seq<Value>)

  /** The right operand of a comparison: another field, a raw expression, or
      any other Python value (`None`, a scalar, a list or a tuple). */
  datatype Operand =
    | FieldOperand(field: Field)
    | ExprOperand(expr: Expr)
    | Plain(value: Value)

  /** The comparison operators `==`, `!=`, `>`, `<`, `>=`, `<=` and `%` (LIKE). */
  datatype CompareOp = Eq | Ne | Gt | Lt | Ge | Le | Like

  function Token(op: CompareOp): string
  {
    match op
    case Eq => "="
    case Ne => "<>"
    case Gt => ">"
    case Lt => "<"
    case Ge => ">="
    case Le => "<="
    case Like => "LIKE"
  }

  /** `prefix.name`, or `name` alone when there is no prefix. */
  function Qualified(f: Field): string
  {
    if f.prefix != "" then f.prefix + "." + f.name else f.name
  }

  /** `Field.__sqlrepr__(define)`. Outside a definition an aliased field
      introduces its alias; inside one (`define`) it is referred to by the
      alias alone. */
  function FieldSql(f: Field, define: bool): (r: string)
    ensures f.alias == "" ==> r == Qualified(f)
    ensures define && f.alias != "" ==> r == f.alias
  {
    var sql := Qualified(f);
    if define then (if f.alias != "" then f.alias else sql)
    else if f.alias != "" then sql + " AS " + f.alias
    else sql
  }

  /** The two renderings of an aliased field: the defining one is the plain
      rendering followed by ` AS ` and the referring one. */
  lemma FieldAliasForms(f: Field)
    requires f.alias != ""
    ensures FieldSql(f, false) == FieldSql(f.(alias := ""), false) + " AS " + FieldSql(f, true)
    ensures FieldSql(f, true) != FieldSql(f, false)
  {
    assert |FieldSql(f, false)| > |f.alias|;
  }

  /** No identifier of the field holds a `%s` token. */
  predicate PlainField(f: Field)
  {
    Placeholders(f.name) == 0 && Placeholders(f.prefix) == 0 && Placeholders(f.alias) == 0
  }

  lemma FieldSqlPlaceholders(f: Field, define: bool)
    requires PlainField(f)
    ensures Placeholders(FieldSql(f, define)) == 0
  {
    if f.prefix != "" {
      Glued(f.prefix, ".", f.name);
      assert f.prefix + "." + f.name == f.prefix + "." + f.name + "";
    }
    if f.alias != "" {
      Glued(Qualified(f), " AS ", f.alias);
    }
  }

  /** The placeholder invariant of a node: one `%s` per bound value. */
  predicate ExprBalanced(e: Expr)
  {
    Placeholders(e.sql) == |e.params|
  }

  predicate Balanced(c: Condition)
  {
    Placeholders(c.sql) == |c.params|
  }

  /** The IN-list text `%s, %s, ..., %s` for `n` values. */
  function InList(n: nat): (r: string)
    ensures Placeholders(r) == n
    ensures n == 0 ==> r == ""
    ensures n == 1 ==> r == "%s"
  {
    JoinPlaceholders(Markers(n), ", ");
    MarkersCount(n);
    Join(Markers(n), ", ")
  }

  /** Each further value adds `, %s` after the first marker. */
  lemma InListCons(n: nat)
    requires n >= 2
    ensures InList(n) == "%s, " + InList(n - 1)
  {
    assert Markers(n)[1..] == Markers(n - 1);
    assert Markers(n)[0] == "%s";
  }

  /** `"%s <op> %s" % (a, b)`. */
  function Infix(a: string, op: CompareOp, b: string): string
  {
    a + " " + Token(op) + " " + b
  }

  lemma InfixPlaceholders(a: string, op: CompareOp, b: string)
    ensures Placeholders(Infix(a, op, b)) == Placeholders(a) + Placeholders(b)
  {
    TokenGlue(op);
    assert Infix(a, op, b) == a + (" " + Token(op) + " ") + b;
    Glued(a, " " + Token(op) + " ", b);
  }

  /** A comparison of field `f` with `x`, as `Field.__eq__`, `__ne__`, `__gt__`,
      `__lt__`, `__ge__`, `__le__` and `__mod__` build it. Only `==` and `!=`
      treat `None` and lists specially; the other operators bind them as one
      value. An empty list is refused: `!=` raises the module's `Error`,
      `==` raises a bare string, which Python turns into a `TypeError`. */
  function Compare(f: Field, op: CompareOp, x: Operand): (r: Result<Condition>)
    ensures (op == Eq || op == Ne) && x == Plain(NullValue) ==> r.Ok? && r.value.params == []
    ensures x.FieldOperand? ==> r.Ok? && r.value.params == []
    ensures x.ExprOperand? ==> r.Ok? && r.value.params == x.expr.params
    ensures x.Plain? && x.value.ListValue? && (op == Eq || op == Ne) ==>
      (r.Ok? <==> |x.value.items| > 0) &&
      (r.Ok? ==> r.value.params == x.value.items) &&
      (r.Err? ==> r.error == (if op == Eq then TypeError else BuilderError))
    ensures x.Plain? && ((op != Eq && op != Ne) || (!x.value.ListValue? && !x.value.NullValue?)) ==>
      r.Ok? && r.value.params == [x.value]
    ensures op == Eq && x == Plain(NullValue) ==> r.value.sql == FieldSql(f, false) + " IS NULL"
    ensures op == Ne && x == Plain(NullValue) ==> r.value.sql == FieldSql(f, false) + " IS NOT NULL"
    ensures x.FieldOperand? ==> r.value.sql == Infix(FieldSql(f, false), op, FieldSql(x.field, false))
    ensures x.ExprOperand? ==> r.value.sql == Infix(FieldSql(f, false), op, x.expr.sql)
    ensures x.Plain? && x.value.ListValue? && op == Eq && r.Ok? ==>
      r.value.sql == FieldSql(f, false) + " IN (" + InList(|x.value.items|) + ")"
    ensures x.Plain? && x.value.ListValue? && op == Ne && r.Ok? ==>
      r.value.sql == FieldSql(f, false) + " NOT IN (" + InList(|x.value.items|) + ")"
    ensures x.Plain? && ((op != Eq && op != Ne) || (!x.value.ListValue? && !x.value.NullValue?)) ==>
      r.value.sql == FieldSql(f, false) + " " + Token(op) + " %s"
  {
    var lhs := FieldSql(f, false);
    if (op == Eq || op == Ne) && x == Plain(NullValue) then
      Ok(Condition(lhs + (if op == Eq then " IS NULL" else " IS NOT NULL"), []))
    else match x
      case FieldOperand(g) =>
        Ok(Condition(Infix(lhs, op, FieldSql(g, false)), []))
      case ExprOperand(e) =>
        Ok(Condition(Infix(lhs, op, e.sql), e.params))
      case Plain(v) =>
        if (op == Eq || op == Ne) && v.ListValue? then
          if |v.items| < 1 then
            Err(if op == Eq then TypeError else BuilderError)
          else
            var kw := if op == Eq then " IN (" else " NOT IN (";
            Ok(Condition(lhs + kw + InList(|v.items|) + ")", v.items))
        else
          Ok(Condition(lhs + " " + Token(op) + " %s", [v]))
  }

  lemma TokenGlue(op: CompareOp)
    ensures Glue(" " + Token(op) + " ")
  {
    LiteralGlue(" " + Token(op) + " ");
  }

  /** The tail ` <op> %s` adds exactly one placeholder. */
  lemma ScalarTail(lhs: string, op: CompareOp)
    ensures Placeholders(lhs + " " + Token(op) + " %s") == Placeholders(lhs) + 1
  {
    var g := " " + Token(op) + " ";
    TokenGlue(op);
    assert lhs + " " + Token(op) + " %s" == lhs + g + "%s";
    assert "%s"[1..] == "s";
    Glued(lhs, g, "%s");
  }

  /** The IN-list text adds one placeholder per listed value. */
  lemma InTail(lhs: string, kw: string, n: nat)
    requires kw == " IN (" || kw == " NOT IN ("
    ensures Placeholders(lhs + kw + InList(n) + ")") == Placeholders(lhs) + n
  {
    LiteralGlue(kw);
    Glued(lhs, kw, InList(n));
    NoPercentPlaceholders(")");
    PlaceholdersConcat(lhs + kw + InList(n), ")");
  }

  /** Every comparison keeps one `%s` per bound value, provided the field
      names and a raw expression operand keep it themselves. */
  lemma CompareBalanced(f: Field, op: CompareOp, x: Operand)
    requires PlainField(f)
    requires x.ExprOperand? ==> ExprBalanced(x.expr)
    requires x.FieldOperand? ==> PlainField(x.field)
    ensures Compare(f, op, x).Ok? ==> Balanced(Compare(f, op, x).value)
  {
    var lhs := FieldSql(f, false);
    FieldSqlPlaceholders(f, false);
    if (op == Eq || op == Ne) && x == Plain(NullValue) {
      var tail := if op == Eq then " IS NULL" else " IS NOT NULL";
      NoPercentPlaceholders(tail);
      PlaceholdersConcat(lhs, tail);
    } else if x.FieldOperand? {
      FieldSqlPlaceholders(x.field, false);
      InfixPlaceholders(lhs, op, FieldSql(x.field, false));
    } else if x.ExprOperand? {
      InfixPlaceholders(lhs, op, x.expr.sql);
    } else if (op == Eq || op == Ne) && x.value.ListValue? {
      InTail(lhs, if op == Eq then " IN (" else " NOT IN (", |x.value.items|);
    } else {
      ScalarTail(lhs, op);
    }
  }
}

=== FILE: dialects.dfy ===
/**
  The MySQL and Cassandra compile registries
  (sqlbuilder/smartsql/compilers/mysql.py, sqlbuilder/smartsql/compilers/cassandra.py).
  Both are children of a base registry whose rules are not part of this
  model: they enter as the `Env` parameters. A registry's compile appends
  fragments to the output; here it returns the fragments it appends.
 */
module Dialects {
  import opened Outcomes
  import opened SqlText
  import opened Conditions

  /** The expression nodes the dialect rules tell apart. `Other` stands for
      every node kind neither dialect overrides, with its child nodes. A
      `Concat` without a separator expression has `ws == None` (Python's
      falsy `_ws`). */
  datatype Node =
    | Name(name: string)
    | Val(value: Value)
    | Binary(left: Node, op: string, right: Node)
    | Concat(args: seq<Node>, ws: Option<Node>, sep: string)
    | FieldRef(prefix: string, name: string)
    | Other(kind: string, kids: seq<Node>)

  /** What a rule sees of a node besides its children: the kind and the
      node's own attributes. */
  datatype Head =
    | NameHead(name: string)
    | ValHead(value: Value)
    | BinaryHead(op: string)
    | ConcatHead(hasWs: bool, sep: string)
    | FieldHead(prefix: string, name: string)
    | OtherHead(kind: string)

  function HeadOf(n: Node): Head
  {
    match n
    case Name(s) => NameHead(s)
    case Val(v) => ValHead(v)
    case Binary(_, op, _) => BinaryHead(op)
    case Concat(_, ws, sep) => ConcatHead(ws.Some?, sep)
    case FieldRef(p, s) => FieldHead(p, s)
    case Other(k, _) => OtherHead(k)
  }

  /** The child nodes a rule hands back to `compile`, in order: the two
      operands, the separator expression and then the arguments, or the
      children of another node. */
  function Children(n: Node): (r: seq<Node>)
    ensures forall i :: 0 <= i < |r| ==> r[i] < n
  {
    match n
    case Binary(l, _, r) => [l, r]
    case Concat(args, ws, _) =>
      assert forall i :: 0 <= i < |args| ==> args[i] < n;
      if ws.Some? then [ws.value] + args else args
    case Other(_, kids) => kids
    case _ => []
  }

  datatype Registry = BaseRegistry | MySql | Cassandra

  /** The base package as the dialects see it: a base rule, which gets a
      node's head and the fragments its children compiled to under the
      CALLING registry (the `compile` every rule receives); the base
      `ValueCompiler` run with a given translation table; and the base
      table `ValueCompiler._translation_map`. */
  datatype Env = Env(
    base: (Head, seq<seq<string>>) -> seq<string>,
    valueCompiler: (seq<(string, string)>, Value) -> seq<string>,
    baseTable: seq<(string, string)>)

  /** The concatenation of the appended fragments. */
  function Flat(frags: seq<string>): string
  {
    if |frags| == 0 then "" else frags[0] + Flat(frags[1..])
  }

  lemma Flat3(a: string, b: string, c: string)
    ensures Flat([a, b, c]) == a + b + c
  {
    assert [c][1..] == [];
    assert Flat([c]) == c + "" == c;
    assert [b, c][1..] == [c];
    assert Flat([b, c]) == b + c;
    assert [a, b, c][1..] == [b, c];
  }

  lemma {:induction false} FlatAppend(a: seq<string>, b: seq<string>)
    ensures Flat(a + b) == Flat(a) + Flat(b)
    decreases |a|
  {
    if |a| == 0 {
      assert a + b == b;
    } else {
      assert (a + b)[1..] == a[1..] + b;
      FlatAppend(a[1..], b);
    }
  }

  // ---------------------------------------------------------------------
  // MySQL rules

  /** `TRANSLATION_MAP`. */
  const TranslationMap: map<string, string> := map["LIKE" := "LIKE BINARY", "ILIKE" := "LIKE"]

  /** `TRANSLATION_MAP.get(op, op)`. */
  function Translate(op: string): (r: string)
    ensures op == "LIKE" ==> r == "LIKE BINARY"
    ensures op == "ILIKE" ==> r == "LIKE"
    ensures op != "LIKE" && op != "ILIKE" ==> r == op
  {
    if op in TranslationMap then TranslationMap[op] else op
  }

  /** `ValueCompiler._translation_map` of the MySQL module: the quote entry
      `'` -> `\'` in place of the base table's first entry. */
  function MysqlTable(baseTable: seq<(string, string)>): (r: seq<(string, string)>)
    ensures |r| > 0 && r[0] == ("'", "\\'")
    ensures |baseTable| > 0 ==> |r| == |baseTable|
    ensures forall i :: 1 <= i < |r| ==> i < |baseTable| && r[i] == baseTable[i]
  {
    [("'", "\\'")] + (if |baseTable| > 0 then baseTable[1..] else [])
  }

  /** `compile_name`: the name between backticks, unescaped. */
  function QuotedName(s: string): seq<string>
  {
    ["`", s, "`"]
  }

  /** A Name under a registry: quoted by MySQL, the base rule otherwise. */
  function RenderName(reg: Registry, env: Env, s: string): seq<string>
  {
    if reg == MySql then QuotedName(s) else env.base(NameHead(s), [])
  }

  /** The compile function of a registry: MySQL overrides Name, Value, Binary
      and Concat; Cassandra overrides Field and takes MySQL's Value rule;
      every other node goes to the base rule, whose children are compiled
      by the same registry again. */
  function Render(reg: Registry, env: Env, n: Node): seq<string>
    decreases n, 1
  {
    match n
    case Name(s) => RenderName(reg, env, s)
    case Val(v) =>
      if reg == BaseRegistry then env.base(HeadOf(n), Kids(reg, env, n))
      else env.valueCompiler(MysqlTable(env.baseTable), v)
    case Binary(l, op, r) =>
      if reg == MySql then Render(reg, env, l) + [" ", Translate(op), " "] + Render(reg, env, r)
      else env.base(HeadOf(n), Kids(reg, env, n))
    case Concat(args, ws, sep) =>
      if reg != MySql then env.base(HeadOf(n), Kids(reg, env, n))
      else if ws.None? then ["CONCAT("] + CommaList(reg, env, n, args) + [")"]
      else ["CONCAT_WS("] + Render(reg, env, ws.value) + SepList(reg, env, n, args, sep) + [")"]
    case FieldRef(_, name) =>
      if reg != Cassandra then env.base(HeadOf(n), Kids(reg, env, n))
      else if name == "*" then [name]
      else RenderName(reg, env, name)
    case Other(_, _) => env.base(HeadOf(n), Kids(reg, env, n))
  }

  /** The fragments of each child of a node under a registry. */
  function Kids(reg: Registry, env: Env, n: Node): (r: seq<seq<string>>)
    ensures |r| == |Children(n)|
    ensures forall i :: 0 <= i < |r| ==> r[i] == Render(reg, env, Children(n)[i])
    decreases n, 0
  {
    var cs := Children(n);
    seq(|cs|, i requires 0 <= i < |cs| => Render(reg, env, cs[i]))
  }

  /** The arguments of `CONCAT(...)`, with `, ` between two neighbours. */
  function CommaList(reg: Registry, env: Env, parent: Node, args: seq<Node>): seq<string>
    requires forall i :: 0 <= i < |args| ==> args[i] < parent
    decreases parent, 0, |args|
  {
    if |args| == 0 then []
    else if |args| == 1 then Render(reg, env, args[0])
    else Render(reg, env, args[0]) + [", "] + CommaList(reg, env, parent, args[1..])
  }

  /** The arguments of `CONCAT_WS(...)`, each preceded by the separator text. */
  function SepList(reg: Registry, env: Env, parent: Node, args: seq<Node>, sep: string): seq<string>
    requires forall i :: 0 <= i < |args| ==> args[i] < parent
    decreases parent, 0, |args|
  {
    if |args| == 0 then [] else [sep] + Render(reg, env, args[0]) + SepList(reg, env, parent, args[1..], sep)
  }

  /** `compile_concat` as the Python loop writes it: a `first` flag decides
      whether `, ` goes before an argument; with a separator expression the
      separator text goes before every argument. */
  method CompileConcat(env: Env, n: Node) returns (out: seq<string>)
    requires n.Concat?
    ensures out == Render(MySql, env, n)
  {
    var args := n.args;
    if n.ws.None? {
      out := ["CONCAT("];
      var first := true;
      for i := 0 to |args|
        invariant first <==> i == 0
        invariant out == ["CONCAT("] + CommaList(MySql, env, n, args[..i])
      {
        assert args[..i + 1] == args[..i] + [args[i]];
        CommaListSnoc(MySql, env, n, args[..i], args[i]);
        if first {
          first := false;
        } else {
          out := out + [", "];
        }
        out := out + Render(MySql, env, args[i]);
      }
      assert args[..|args|] == args;
      out := out + [")"];
    } else {
      out := ["CONCAT_WS("] + Render(MySql, env, n.ws.value);
      for i := 0 to |args|
        invariant out == ["CONCAT_WS("] + Render(MySql, env, n.ws.value) + SepList(MySql, env, n, args[..i], n.sep)
      {
        assert args[..i + 1] == args[..i] + [args[i]];
        SepListSnoc(MySql, env, n, args[..i], args[i], n.sep);
        out := out + [n.sep];
        out := out + Render(MySql, env, args[i]);
      }
      assert args[..|args|] == args;
      out := out + [")"];
    }
  }

  lemma {:induction false} CommaListSnoc(reg: Registry, env: Env, parent: Node, xs: seq<Node>, x: Node)
    requires forall i :: 0 <= i < |xs| ==> xs[i] < parent
    requires x < parent
    ensures CommaList(reg, env, parent, xs + [x])
         == CommaList(reg, env, parent, xs) + (if |xs| == 0 then [] else [", "]) + Render(reg, env, x)
    decreases |xs|
  {
    if |xs| == 0 {
      assert xs + [x] == [x];
    } else if |xs| == 1 {
      assert xs + [x] == [xs[0], x];
      CommaListCons(reg, env, parent, [xs[0], x]);
      assert [xs[0], x][1..] == [x];
    } else {
      CommaListSnoc(reg, env, parent, xs[1..], x);
      CommaListSnocStep(reg, env, parent, xs, x);
    }
  }

  /** The inductive step of `CommaListSnoc`: appending to the tail. */
  lemma CommaListSnocStep(reg: Registry, env: Env, parent: Node, xs: seq<Node>, x: Node)
    requires forall i :: 0 <= i < |xs| ==> xs[i] < parent
    requires x < parent
    requires |xs| > 1
    requires CommaList(reg, env, parent, xs[1..] + [x]) == CommaList(reg, env, parent, xs[1..]) + [", "] + Render(reg, env, x)
    ensures CommaList(reg, env, parent, xs + [x]) == CommaList(reg, env, parent, xs) + [", "] + Render(reg, env, x)
  {
    var h, last, tail := Render(reg, env, xs[0]), Render(reg, env, x), CommaList(reg, env, parent, xs[1..]);
    assert (xs + [x])[1..] == xs[1..] + [x];
    CommaListCons(reg, env, parent, xs + [x]);
    CommaListCons(reg, env, parent, xs);
    assert h + [", "] + (tail + [", "] + last) == (h + [", "] + tail) + [", "] + last;
  }

  lemma CommaListCons(reg: Registry, env: Env, parent: Node, xs: seq<Node>)
    requires forall i :: 0 <= i < |xs| ==> xs[i] < parent
    requires |xs| > 1
    ensures CommaList(reg, env, parent, xs) == Render(reg, env, xs[0]) + [", "] + CommaList(reg, env, parent, xs[1..])
  {
  }

  lemma {:induction false} SepListSnoc(reg: Registry, env: Env, parent: Node, xs: seq<Node>, x: Node, sep: string)
    requires forall i :: 0 <= i < |xs| ==> xs[i] < parent
    requires x < parent
    ensures SepList(reg, env, parent, xs + [x], sep) == SepList(reg, env, parent, xs, sep) + [sep] + Render(reg, env, x)
    decreases |xs|
  {
    if |xs| == 0 {
      assert xs + [x] == [x];
      assert [x][1..] == [];
    } else {
      assert (xs + [x])[1..] == xs[1..] + [x];
      SepListSnoc(reg, env, parent, xs[1..], x, sep);
    }
  }

  // ---------------------------------------------------------------------
  // Properties of the MySQL registry

  /** A MySQL name is the name between backticks, with nothing escaped:
      dropping the first and last character gives the name back. */
  lemma MysqlNameQuoted(env: Env, s: string)
    ensures Render(MySql, env, Name(s)) == ["`", s, "`"]
    ensures Flat(Render(MySql, env, Name(s))) == "`" + s + "`"
    ensures var t := Flat(Render(MySql, env, Name(s))); t[1..|t| - 1] == s
  {
    Flat3("`", s, "`");
    var t := "`" + s + "`";
    assert t[1..|t| - 1] == s;
  }

  /** The translation changes exactly the operators the table lists. */
  lemma TranslateChanges(op: string)
    ensures Translate(op) != op <==> op in TranslationMap
    ensures op in TranslationMap <==> op == "LIKE" || op == "ILIKE"
  {
  }

  /** A MySQL binary node is the left text, a space, the translated
      operator, a space and the right text. */
  lemma MysqlBinaryText(env: Env, l: Node, op: string, r: Node)
    ensures Flat(Render(MySql, env, Binary(l, op, r)))
         == Flat(Render(MySql, env, l)) + " " + Translate(op) + " " + Flat(Render(MySql, env, r))
  {
    var a, b := Render(MySql, env, l), Render(MySql, env, r);
    var mid := [" ", Translate(op), " "];
    FlatAppend(a + mid, b);
    FlatAppend(a, mid);
    Flat3(" ", Translate(op), " ");
  }

  /** The texts of the arguments, one per argument. */
  function Texts(reg: Registry, env: Env, args: seq<Node>): (r: seq<string>)
    ensures |r| == |args|
    ensures forall i :: 0 <= i < |args| ==> r[i] == Flat(Render(reg, env, args[i]))
  {
    if |args| == 0 then [] else [Flat(Render(reg, env, args[0]))] + Texts(reg, env, args[1..])
  }

  lemma {:induction false} CommaListText(reg: Registry, env: Env, parent: Node, args: seq<Node>)
    requires forall i :: 0 <= i < |args| ==> args[i] < parent
    ensures Flat(CommaList(reg, env, parent, args)) == Join(Texts(reg, env, args), ", ")
    decreases |args|
  {
    if |args| == 1 {
      assert Texts(reg, env, args) == [Flat(Render(reg, env, args[0]))];
    } else if |args| > 1 {
      CommaListText(reg, env, parent, args[1..]);
      var a := Render(reg, env, args[0]);
      var rest := CommaList(reg, env, parent, args[1..]);
      FlatAppend(a + [", "], rest);
      FlatAppend(a, [", "]);
      assert [", "][1..] == [];
      assert Texts(reg, env, args)[1..] == Texts(reg, env, args[1..]);
    }
  }

  /** `CONCAT(...)` holds the arguments' texts joined by `, `: no leading or
      trailing comma, and `CONCAT()` for no arguments. */
  lemma MysqlConcatText(env: Env, args: seq<Node>, sep: string)
    ensures Flat(Render(MySql, env, Concat(args, None, sep)))
         == "CONCAT(" + Join(Texts(MySql, env, args), ", ") + ")"
  {
    var n := Concat(args, None, sep);
    var mid := CommaList(MySql, env, n, args);
    CommaListText(MySql, env, n, args);
    FlatAppend(["CONCAT("] + mid, [")"]);
    FlatAppend(["CONCAT("], mid);
    assert ["CONCAT("][1..] == [];
    assert [")"][1..] == [];
  }

  /** The separator text before each argument text. */
  function Prefixed(ts: seq<string>, sep: string): string
  {
    if |ts| == 0 then "" else sep + ts[0] + Prefixed(ts[1..], sep)
  }

  lemma {:induction false} SepListText(reg: Registry, env: Env, parent: Node, args: seq<Node>, sep: string)
    requires forall i :: 0 <= i < |args| ==> args[i] < parent
    ensures Flat(SepList(reg, env, parent, args, sep)) == Prefixed(Texts(reg, env, args), sep)
    decreases |args|
  {
    if |args| > 0 {
      SepListText(reg, env, parent, args[1..], sep);
      var a := Render(reg, env, args[0]);
      var rest := SepList(reg, env, parent, args[1..], sep);
      FlatAppend([sep] + a, rest);
      FlatAppend([sep], a);
      assert [sep][1..] == [];
      assert Texts(reg, env, args)[1..] == Texts(reg, env, args[1..]);
    }
  }

  /** `CONCAT_WS(...)` holds the separator expression's text, then the
      separator text and the text of each argument in order. */
  lemma MysqlConcatWsText(env: Env, args: seq<Node>, ws: Node, sep: string)
    ensures Flat(Render(MySql, env, Concat(args, Some(ws), sep)))
         == "CONCAT_WS(" + Flat(Render(MySql, env, ws)) + Prefixed(Texts(MySql, env, args), sep) + ")"
  {
    var n := Concat(args, Some(ws), sep);
    var w := Render(MySql, env, ws);
    var mid := SepList(MySql, env, n, args, sep);
    SepListText(MySql, env, n, args, sep);
    FlatAppend(["CONCAT_WS("] + w + mid, [")"]);
    FlatAppend(["CONCAT_WS("] + w, mid);
    FlatAppend(["CONCAT_WS("], w);
    assert ["CONCAT_WS("][1..] == [];
    assert [")"][1..] == [];
  }

  /** The MySQL table keeps every base entry after the first, in order. */
  lemma MysqlTableKeepsRest(baseTable: seq<(string, string)>)
    requires |baseTable| > 0
    ensures MysqlTable(baseTable)[1..] == baseTable[1..]
    ensures MysqlTable(baseTable) == [("'", "\\'")] + baseTable[1..]
  {
    var r := MysqlTable(baseTable);
    assert |r[1..]| == |baseTable[1..]|;
    forall i | 0 <= i < |r[1..]|
      ensures r[1..][i] == baseTable[1..][i]
    {
      assert r[1..][i] == r[i + 1];
    }
  }

  /** MySQL leaves the node kinds it does not override to the base rules,
      and those compile the node's children through MySQL again: a name
      inside such a node is written between backticks. */
  lemma MysqlInherits(env: Env, n: Node, k: string, s: string)
    requires n.Other?
    ensures Render(MySql, env, n) == env.base(HeadOf(n), Kids(MySql, env, n))
    ensures Render(MySql, env, Other(k, [Name(s)])) == env.base(OtherHead(k), [["`", s, "`"]])
  {
    var o := Other(k, [Name(s)]);
    assert Children(o) == [Name(s)];
    assert Kids(MySql, env, o) == [["`", s, "`"]];
  }

  /** A node made only of kinds MySQL does not override. */
  predicate NoMysqlRule(n: Node)
    decreases n
  {
    n.Other? && forall i :: 0 <= i < |Children(n)| ==> NoMysqlRule(Children(n)[i])
  }

  /** MySQL and the base registry agree on every node in which no rule of
      MySQL's own applies, at any depth. */
  lemma {:induction false} MysqlMatchesBase(env: Env, n: Node)
    requires NoMysqlRule(n)
    ensures Render(MySql, env, n) == Render(BaseRegistry, env, n)
    decreases n
  {
    var cs := Children(n);
    forall i | 0 <= i < |cs|
      ensures Render(MySql, env, cs[i]) == Render(BaseRegistry, env, cs[i])
    {
      MysqlMatchesBase(env, cs[i]);
    }
    assert Kids(MySql, env, n) == Kids(BaseRegistry, env, n);
  }

  /** MySQL's Name and Value rules do not consult the base rules. */
  lemma MysqlOverrides(b1: (Head, seq<seq<string>>) -> seq<string>, b2: (Head, seq<seq<string>>) -> seq<string>,
                       vc: (seq<(string, string)>, Value) -> seq<string>, t: seq<(string, string)>, s: string, v: Value)
    ensures Render(MySql, Env(b1, vc, t), Name(s)) == Render(MySql, Env(b2, vc, t), Name(s))
    ensures Render(MySql, Env(b1, vc, t), Val(v)) == Render(MySql, Env(b2, vc, t), Val(v)) == vc(MysqlTable(t), v)
  {
  }

  // ---------------------------------------------------------------------
  // Properties of the Cassandra registry

  /** A `*` field is passed through; any other field renders as the Name of
      its own name. */
  lemma CassandraField(env: Env, prefix: string, name: string)
    ensures name == "*" ==> Render(Cassandra, env, FieldRef(prefix, name)) == ["*"]
    ensures name != "*" ==> Render(Cassandra, env, FieldRef(prefix, name)) == Render(Cassandra, env, Name(name))
  {
  }

  /** The node with the prefix of every field in it removed. */
  function DropPrefixes(n: Node): (r: Node)
    decreases n
  {
    match n
    case Binary(l, op, r) => Binary(DropPrefixes(l), op, DropPrefixes(r))
    case Concat(args, ws, sep) =>
      Concat(seq(|args|, i requires 0 <= i < |args| => DropPrefixes(args[i])),
             if ws.Some? then Some(DropPrefixes(ws.value)) else None, sep)
    case FieldRef(_, name) => FieldRef("", name)
    case Other(k, kids) => Other(k, seq(|kids|, i requires 0 <= i < |kids| => DropPrefixes(kids[i])))
    case _ => n
  }

  lemma DropPrefixesShape(n: Node)
    ensures !n.FieldRef? ==> HeadOf(DropPrefixes(n)) == HeadOf(n)
    ensures |Children(DropPrefixes(n))| == |Children(n)|
    ensures forall i :: 0 <= i < |Children(n)| ==> Children(DropPrefixes(n))[i] == DropPrefixes(Children(n)[i])
  {
    if n.Concat? && n.ws.Some? {
      var m := DropPrefixes(n);
      assert Children(m) == [DropPrefixes(n.ws.value)] + m.args;
    }
  }

  /** Cassandra never shows a field's prefix, wherever the field stands:
      a node renders as the same node with every prefix removed. In
      particular two fields with the same name render alike. */
  lemma {:induction false} CassandraDropsPrefix(env: Env, n: Node, p1: string, p2: string, name: string)
    ensures Render(Cassandra, env, n) == Render(Cassandra, env, DropPrefixes(n))
    ensures Render(Cassandra, env, FieldRef(p1, name)) == Render(Cassandra, env, FieldRef(p2, name))
    decreases n
  {
    var m := DropPrefixes(n);
    if !n.FieldRef? && !n.Name? && !n.Val? {
      DropPrefixesShape(n);
      var cs := Children(n);
      forall i | 0 <= i < |cs|
        ensures Render(Cassandra, env, cs[i]) == Render(Cassandra, env, Children(m)[i])
      {
        CassandraDropsPrefix(env, cs[i], p1, p2, name);
      }
      assert Kids(Cassandra, env, n) == Kids(Cassandra, env, m);
    }
  }

  /** Cassandra renders values with the MySQL value rule. */
  lemma CassandraValueIsMysql(env: Env, v: Value)
    ensures Render(Cassandra, env, Val(v)) == Render(MySql, env, Val(v))
    ensures Render(Cassandra, env, Val(v)) == env.valueCompiler(MysqlTable(env.baseTable), v)
  {
  }

  /** Cassandra is a child of the base registry, not of MySQL: names, binary
      nodes and concatenations go to the base rules, with the operator
      untranslated, and their children come back through Cassandra. So
      `t.x = v` is the base binary rule applied to the bare name `x` and to
      `v` quoted with the MySQL table. */
  lemma CassandraInheritsBase(env: Env, n: Node, p: string, x: string, op: string, v: Value)
    requires n.Name? || n.Binary? || n.Concat? || n.Other?
    requires x != "*"
    ensures Render(Cassandra, env, n) == env.base(HeadOf(n), Kids(Cassandra, env, n))
    ensures Render(Cassandra, env, Binary(FieldRef(p, x), op, Val(v)))
         == env.base(BinaryHead(op), [env.base(NameHead(x), []), env.valueCompiler(MysqlTable(env.baseTable), v)])
  {
    if n.Name? {
      assert Kids(Cassandra, env, n) == [];
    }
    var b := Binary(FieldRef(p, x), op, Val(v));
    assert Children(b) == [FieldRef(p, x), Val(v)];
    assert Kids(Cassandra, env, b) == [env.base(NameHead(x), []), env.valueCompiler(MysqlTable(env.baseTable), v)];
  }

  /** A node in which neither a field nor a value occurs. */
  predicate NoCassandraRule(n: Node)
    decreases n
  {
    !n.FieldRef? && !n.Val? && forall i :: 0 <= i < |Children(n)| ==> NoCassandraRule(Children(n)[i])
  }

  /** Cassandra and the base registry agree on every node in which no rule
      of Cassandra's own applies, at any depth. */
  lemma {:induction false} CassandraMatchesBase(env: Env, n: Node)
    requires NoCassandraRule(n)
    ensures Render(Cassandra, env, n) == Render(BaseRegistry, env, n)
    decreases n
  {
    var cs := Children(n);
    forall i | 0 <= i < |cs|
      ensures Render(Cassandra, env, cs[i]) == Render(BaseRegistry, env, cs[i])
    {
      CassandraMatchesBase(env, cs[i]);
    }
    assert Kids(Cassandra, env, n) == Kids(BaseRegistry, env, n);
  }
}

=== FILE: identifiers.dfy ===
/**
  Attribute-name shorthand: `Table.user__u` names table `user` aliased `u`,
  and `Field.user__name__n` names field `name` of prefix `user` aliased `n`
  (sqlbuilder/smartsql/__init__.py, MetaTable and MetaField). Python's `None`
  for a missing prefix or alias is the empty string here: every use of them
  in the source is a truthiness test, for which `None` and `""` agree.
 */
module Identifiers {
  import opened Outcomes
  import opened SqlText

  /** A field reference: a column name, an optional table prefix, an optional alias. */
  datatype Field = Field(name: string, prefix: string, alias: string)

  /** A table name with an optional alias, as parsed from a key. */
  datatype TableKey = TableKey(name: string, alias: string)

  /** `s` holds the separator `__` at position `i`. */
  predicate SepAt(s: string, i: int)
  {
    0 <= i && i + 1 < |s| && s[i] == '_' && s[i + 1] == '_'
  }

  predicate NoSep(s: string)
  {
    forall i :: 0 <= i < |s| ==> !SepAt(s, i)
  }

  /** The leftmost separator at or after `from`, as Python's `str.split` finds it. */
  function FirstSepFrom(s: string, from: nat): (r: Option<nat>)
    ensures r.Some? ==> from <= r.value && SepAt(s, r.value)
    ensures r.Some? ==> forall j :: from <= j < r.value ==> !SepAt(s, j)
    ensures r.None? ==> forall j :: from <= j ==> !SepAt(s, j)
    decreases |s| - from
  {
    if from + 1 >= |s| then None
    else if s[from] == '_' && s[from + 1] == '_' then Some(from)
    else FirstSepFrom(s, from + 1)
  }

  function FirstSep(s: string): (r: Option<nat>)
    ensures r.Some? ==> SepAt(s, r.value) && forall j :: 0 <= j < r.value ==> !SepAt(s, j)
    ensures r.None? <==> NoSep(s)
  {
    FirstSepFrom(s, 0)
  }

  /** Python's `s.split("__", maxsplit)`. */
  function Split(s: string, maxsplit: nat): (r: seq<string>)
    ensures 1 <= |r| <= maxsplit + 1
    ensures |r| == 1 ==> r[0] == s
    decreases maxsplit
  {
    if maxsplit == 0 then [s]
    else match FirstSep(s)
      case None => [s]
      case Some(i) => [s[..i]] + Split(s[i + 2..], maxsplit - 1)
  }

  /** Splitting loses nothing: joining the pieces with `__` gives the key back. */
  lemma {:induction false} SplitJoin(s: string, maxsplit: nat)
    ensures Join(Split(s, maxsplit), "__") == s
    decreases maxsplit
  {
    if maxsplit > 0 && FirstSep(s).Some? {
      var i := FirstSep(s).value;
      var rest := Split(s[i + 2..], maxsplit - 1);
      SplitJoin(s[i + 2..], maxsplit - 1);
      SplitCons(s, maxsplit);
      JoinAtSep(s, i, rest);
    } else {
      assert Split(s, maxsplit) == [s];
    }
  }

  lemma JoinAtSep(s: string, i: nat, rest: seq<string>)
    requires SepAt(s, i) && |rest| > 0 && Join(rest, "__") == s[i + 2..]
    ensures Join([s[..i]] + rest, "__") == s
  {
    JoinCons(s[..i], rest, "__");
    assert s == s[..i] + "__" + s[i + 2..];
  }

  lemma PrefixBeforeFirstSep(s: string, i: nat)
    requires FirstSep(s) == Some(i)
    ensures NoSep(s[..i])
  {
    forall j | 0 <= j < i && SepAt(s[..i], j) ensures false {
      assert SepAt(s, j);
    }
  }

  /** Every piece but the last is free of the separator, and so is the last
      one when the split limit was not reached. */
  lemma {:induction false} SplitPieces(s: string, maxsplit: nat)
    ensures forall k :: 0 <= k < |Split(s, maxsplit)| - 1 ==> NoSep(Split(s, maxsplit)[k])
    ensures |Split(s, maxsplit)| <= maxsplit ==> NoSep(Split(s, maxsplit)[|Split(s, maxsplit)| - 1])
    decreases maxsplit
  {
    if maxsplit > 0 && FirstSep(s).Some? {
      var i := FirstSep(s).value;
      var rest := Split(s[i + 2..], maxsplit - 1);
      SplitPieces(s[i + 2..], maxsplit - 1);
      PrefixBeforeFirstSep(s, i);
      var r := Split(s, maxsplit);
      assert r == [s[..i]] + rest;
      forall k | 0 <= k < |r| - 1 ensures NoSep(r[k]) {
        if k > 0 {
          assert r[k] == rest[k - 1];
        }
      }
    }
  }

  /** Every piece but the last ends at the leftmost separator of the text
      that remains from it on. */
  predicate LeftmostPieces(r: seq<string>)
  {
    |r| <= 1 || (FirstSep(Join(r, "__")) == Some(|r[0]|) && LeftmostPieces(r[1..]))
  }

  lemma JoinCons(p: string, rest: seq<string>, sep: string)
    requires |rest| > 0
    ensures Join([p] + rest, sep) == p + sep + Join(rest, sep)
  {
    assert ([p] + rest)[1..] == rest;
  }

  lemma SplitCons(s: string, maxsplit: nat)
    requires maxsplit > 0 && FirstSep(s).Some?
    ensures Split(s, maxsplit) == [s[..FirstSep(s).value]] + Split(s[FirstSep(s).value + 2..], maxsplit - 1)
  {
  }

  lemma LeftmostStep(s: string, i: nat, rest: seq<string>)
    requires FirstSep(s) == Some(i)
    requires |rest| > 0 && Join(rest, "__") == s[i + 2..] && LeftmostPieces(rest)
    ensures LeftmostPieces([s[..i]] + rest)
  {
    JoinAtSep(s, i, rest);
    assert ([s[..i]] + rest)[1..] == rest;
  }

  /** Python's `split` cuts each piece at the leftmost separator. */
  lemma {:induction false} SplitLeftmost(s: string, maxsplit: nat)
    ensures LeftmostPieces(Split(s, maxsplit))
    decreases maxsplit
  {
    if maxsplit > 0 && FirstSep(s).Some? {
      var i := FirstSep(s).value;
      var rest := Split(s[i + 2..], maxsplit - 1);
      SplitLeftmost(s[i + 2..], maxsplit - 1);
      SplitJoin(s[i + 2..], maxsplit - 1);
      LeftmostStep(s, i, rest);
      SplitCons(s, maxsplit);
    } else {
      assert Split(s, maxsplit) == [s];
    }
  }

  /** The first piece, when there are several, ends at the leftmost separator. */
  lemma SplitFirstPiece(s: string, maxsplit: nat)
    ensures |Split(s, maxsplit)| > 1 ==> FirstSep(s) == Some(|Split(s, maxsplit)[0]|)
  {
    var r := Split(s, maxsplit);
    if |r| > 1 {
      SplitLeftmost(s, maxsplit);
      SplitJoin(s, maxsplit);
    }
  }

  /** Three underscores split after the first two: `"a___b".split("__", 1)`
      is `["a", "_b"]`. */
  lemma TripleUnderscore()
    ensures Split("a___b", 1) == ["a", "_b"]
  {
    assert SepAt("a___b", 1);
    assert !SepAt("a___b", 0);
    assert FirstSep("a___b") == Some(1);
    assert "a___b"[..1] == "a" && "a___b"[3..] == "_b";
  }

  /** A piece that can be followed by `__` without moving the split point:
      it holds no separator and does not end with `_`. */
  predicate Splittable(p: string)
  {
    NoSep(p) && (|p| == 0 || p[|p| - 1] != '_')
  }

  lemma FirstSepAfter(p: string, rest: string)
    requires Splittable(p)
    ensures FirstSep(p + "__" + rest) == Some(|p|)
  {
    var s := p + "__" + rest;
    assert SepAt(s, |p|);
    forall j | 0 <= j < |p| ensures !SepAt(s, j) {
      if j + 1 < |p| {
        assert !SepAt(p, j);
      }
    }
  }

  /** Validity shared by both metaclasses: the empty key raises `IndexError`,
      a key starting with `_` raises `AttributeError`. */
  function CheckKey(key: string): (r: Result<()>)
    ensures r.Ok? <==> |key| > 0 && key[0] != '_'
    ensures |key| == 0 ==> r == Err(IndexError)
    ensures |key| > 0 && key[0] == '_' ==> r == Err(AttributeError)
  {
    if |key| == 0 then Err(IndexError)
    else if key[0] == '_' then Err(AttributeError)
    else Ok(())
  }

  /** `MetaTable.__getattr__`: one split, giving the name and an optional alias. */
  function ParseTableKey(key: string): (r: Result<TableKey>)
    ensures r.Ok? <==> |key| > 0 && key[0] != '_'
    ensures |key| == 0 ==> r == Err(IndexError)
    ensures |key| > 0 && key[0] == '_' ==> r == Err(AttributeError)
    ensures r.Ok? ==> key == r.value.name || key == r.value.name + "__" + r.value.alias
    ensures r.Ok? ==> NoSep(r.value.name)
    ensures r.Ok? && FirstSep(key).None? ==> r.value == TableKey(key, "")
    ensures r.Ok? && FirstSep(key).Some? ==> r.value.name == key[..FirstSep(key).value]
  {
    var _ :- CheckKey(key);
    var pieces := Split(key, 1);
    SplitJoin(key, 1);
    SplitPieces(key, 1);
    if |pieces| > 1 then Ok(TableKey(pieces[0], pieces[1])) else Ok(TableKey(pieces[0], ""))
  }

  /** `MetaField.__getattr__`: at most two splits; one piece is a bare name,
      two are prefix and name, three are prefix, name and alias. */
  function ParseFieldKey(key: string): (r: Result<Field>)
    ensures r.Ok? <==> |key| > 0 && key[0] != '_'
    ensures |key| == 0 ==> r == Err(IndexError)
    ensures |key| > 0 && key[0] == '_' ==> r == Err(AttributeError)
    ensures r.Ok? ==> NoSep(r.value.name)
    ensures r.Ok? ==>
      || (key == r.value.name && r.value.prefix == "" && r.value.alias == "")
      || (key == r.value.prefix + "__" + r.value.name && r.value.alias == "")
      || key == r.value.prefix + "__" + r.value.name + "__" + r.value.alias
    ensures r.Ok? && FirstSep(key).None? ==> r.value == Field(key, "", "")
    ensures r.Ok? && FirstSep(key).Some? ==> r.value.prefix == key[..FirstSep(key).value]
    ensures r.Ok? && r.value.alias != "" ==> FirstSep(r.value.name + "__" + r.value.alias) == Some(|r.value.name|)
  {
    var _ :- CheckKey(key);
    var pieces := Split(key, 2);
    SplitJoin(key, 2);
    SplitPieces(key, 2);
    SecondPieceLeftmost(key);
    if |pieces| == 1 then Ok(Field(pieces[0], "", ""))
    else if |pieces| == 2 then Ok(Field(pieces[1], pieces[0], ""))
    else Ok(Field(pieces[1], pieces[0], pieces[2]))
  }

  /** With two splits, the middle piece ends at the leftmost separator
      after the first one. */
  lemma SecondPieceLeftmost(key: string)
    ensures var p := Split(key, 2);
            |p| == 3 ==> FirstSep(p[1] + "__" + p[2]) == Some(|p[1]|)
  {
    var p := Split(key, 2);
    SplitLeftmost(key, 2);
    if |p| == 3 {
      assert p[1..] == [p[1], p[2]];
      assert LeftmostPieces(p[1..]);
      JoinPair(p[1], p[2], "__");
    }
  }

  /** The key that names a table, the inverse of `ParseTableKey`. */
  function TableKeyOf(t: TableKey): string
  {
    if t.alias == "" then t.name else t.name + "__" + t.alias
  }

  lemma TableKeyRoundTrip(t: TableKey)
    requires |t.name| > 0 && t.name[0] != '_' && Splittable(t.name)
    ensures ParseTableKey(TableKeyOf(t)) == Ok(t)
  {
    if t.alias == "" {
      assert FirstSep(t.name).None?;
    } else {
      FirstSepAfter(t.name, t.alias);
      assert (t.name + "__" + t.alias)[..|t.name|] == t.name;
      assert (t.name + "__" + t.alias)[|t.name| + 2..] == t.alias;
    }
  }

  /** The key that names a field, the inverse of `ParseFieldKey`. An alias is
      only expressible together with a prefix. */
  function FieldKeyOf(f: Field): string
  {
    if f.prefix == "" then f.name
    else if f.alias == "" then f.prefix + "__" + f.name
    else f.prefix + "__" + f.name + "__" + f.alias
  }

  /** The fields a key can denote, with the pieces a key can delimit. */
  predicate KeyExpressible(f: Field)
  {
    && (f.prefix == "" ==> f.alias == "" && |f.name| > 0 && f.name[0] != '_' && NoSep(f.name))
    && (f.prefix != "" ==> f.prefix[0] != '_' && Splittable(f.prefix))
    && (f.prefix != "" && f.alias == "" ==> NoSep(f.name))
    && (f.prefix != "" && f.alias != "" ==> Splittable(f.name))
  }

  lemma FieldKeyRoundTrip(f: Field)
    requires KeyExpressible(f)
    ensures ParseFieldKey(FieldKeyOf(f)) == Ok(f)
  {
    var key := FieldKeyOf(f);
    if f.prefix == "" {
      assert FirstSep(key).None?;
    } else {
      var rest := if f.alias == "" then f.name else f.name + "__" + f.alias;
      assert key == f.prefix + "__" + rest;
      FirstSepAfter(f.prefix, rest);
      assert key[..|f.prefix|] == f.prefix;
      assert key[|f.prefix| + 2..] == rest;
      if f.alias == "" {
        PrefixedKeySplit(key, f);
      } else {
        AliasedKeySplit(key, rest, f);
      }
    }
  }

  lemma PrefixedKeySplit(key: string, f: Field)
    requires KeyExpressible(f) && f.prefix != "" && f.alias == ""
    requires FirstSep(key) == Some(|f.prefix|) && key[..|f.prefix|] == f.prefix && key[|f.prefix| + 2..] == f.name
    ensures ParseFieldKey(key) == Ok(f)
  {
    assert FirstSep(f.name).None?;
    assert Split(key, 2) == [f.prefix, f.name];
  }

  lemma AliasedKeySplit(key: string, rest: string, f: Field)
    requires KeyExpressible(f) && f.prefix != "" && f.alias != "" && rest == f.name + "__" + f.alias
    requires FirstSep(key) == Some(|f.prefix|) && key[..|f.prefix|] == f.prefix && key[|f.prefix| + 2..] == rest
    ensures ParseFieldKey(key) == Ok(f)
  {
    FirstSepAfter(f.name, f.alias);
    assert rest[..|f.name|] == f.name;
    assert rest[|f.name| + 2..] == f.alias;
    assert Split(key, 2) == [f.prefix, f.name, f.alias];
  }

  /** `Table.__getattr__`: a field of a table is prefixed with the table's
      alias when it has one, else with its name. */
  function TableField(t: TableKey, name: string): (r: Result<Field>)
    ensures |t.name| > 0 && t.name[0] != '_' && Splittable(t.name) && t.alias == "" && NoSep(name) ==>
      r == Ok(Field(name, t.name, ""))
    ensures |t.alias| > 0 && t.alias[0] != '_' && Splittable(t.alias) && NoSep(name) ==>
      r == Ok(Field(name, t.alias, ""))
  {
    var a := if t.alias != "" then t.alias else t.name;
    if |a| > 0 && a[0] != '_' && Splittable(a) && NoSep(name) then
      FieldKeyRoundTrip(Field(name, a, ""));
      ParseFieldKey(a + "__" + name)
    else
      ParseFieldKey(a + "__" + name)
  }
}

=== FILE: keywords.dfy ===
/**
  The fixed keywords the `QuerySet` and `UnionQuerySet` statements write
  around user text.
 */
module Keywords {
  import opened SqlText

  datatype Keyword =
    | SelectKw | DistinctKw | FromKw | WhereKw | HavingKw | LimitOneKw | ForUpdateKw
    | InsertKw | IgnoreKw | IntoKw | OnDuplicateKw | UpdateKw | SetKw | DeleteKw
    | UnionDistinctKw | UnionAllKw

  function KeywordText(k: Keyword): string
  {
    match k
    case SelectKw => "SELECT"
    case DistinctKw => "DISTINCT"
    case FromKw => "FROM"
    case WhereKw => "WHERE"
    case HavingKw => "HAVING"
    case LimitOneKw => "LIMIT 0, 1"
    case ForUpdateKw => "FOR UPDATE"
    case InsertKw => "INSERT"
    case IgnoreKw => "IGNORE"
    case IntoKw => "INTO"
    case OnDuplicateKw => "ON DUPLICATE KEY UPDATE"
    case UpdateKw => "UPDATE"
    case SetKw => "SET"
    case DeleteKw => "DELETE"
    case UnionDistinctKw => "UNION DISTINCT"
    case UnionAllKw => "UNION ALL"
  }

  /** No keyword holds a `%`, so none holds a placeholder. */
  lemma KeywordPlain(k: Keyword)
    ensures NoPercent(KeywordText(k))
    ensures Placeholders(KeywordText(k)) == 0
  {
    NoPercentPlaceholders(KeywordText(k));
  }
}

=== FILE: options.dfy ===
/**
  Keyword options of the builder methods and the `opt_checker` decorator
  (sqlbuilder/smartsql/__init__.py) that refuses unknown ones. Python's
  `**opt` dictionary is a sequence of (key, value) pairs in iteration order.
 */
module Options {
  import opened Outcomes

  /** `opt_checker(k_list)`: the first key, in iteration order, that is not
      in `allowed` is reported; otherwise the call proceeds. */
  function CheckOptions<V>(opts: seq<(string, V)>, allowed: seq<string>): (r: Result<()>)
    ensures r.Ok? <==> forall i :: 0 <= i < |opts| ==> opts[i].0 in allowed
    ensures r.Err? ==> r.error.UnsupportedOption? && r.error.key !in allowed
    ensures r.Err? ==>
      exists i :: 0 <= i < |opts| && opts[i].0 == r.error.key && (forall j :: 0 <= j < i ==> opts[j].0 in allowed)
  {
    if |opts| == 0 then Ok(())
    else if opts[0].0 !in allowed then Err(UnsupportedOption(opts[0].0))
    else
      var r := CheckOptions(opts[1..], allowed);
      assert forall i :: 1 <= i < |opts| ==> opts[i] == opts[1..][i - 1];
      r
  }

  /** `opt.get(key)`: the value of the first pair with that key. */
  function Get<V>(opts: seq<(string, V)>, key: string): (r: Option<V>)
    ensures r.None? <==> forall i :: 0 <= i < |opts| ==> opts[i].0 != key
    ensures r.Some? ==> exists i :: 0 <= i < |opts| && opts[i] == (key, r.value)
  {
    if |opts| == 0 then None
    else if opts[0].0 == key then Some(opts[0].1)
    else
      var r := Get(opts[1..], key);
      assert forall i :: 1 <= i < |opts| ==> opts[i] == opts[1..][i - 1];
      r
  }
}

=== FILE: outcomes.dfy ===
/** The exceptions the builders raise, and a result type that carries them. */
module Outcomes {

  /** The Python exception a builder call raises. */
  datatype Error =
    | IndexError          // `key[0]` on an empty attribute name
    | AttributeError      // an attribute name starting with `_`
    | TypeError           // an operand of the wrong kind
    | BuilderError        // the module's own `Error` class
    | UnsupportedOption(key: string)  // the TypeError raised for an unknown keyword option

  datatype Option<+T> = None | Some(value: T)

  datatype Result<+T> = Ok(value: T) | Err(error: Error) {
    predicate IsFailure() {
      Err?
    }

    function PropagateFailure<U>(): Result<U>
      requires Err?
    {
      Err(error)
    }

    function Extract(): T
      requires Ok?
    {
      value
    }
  }
}

=== FILE: queries.dfy ===
/**
  `QuerySet` (sqlbuilder/smartsql/__init__.py): statement assembly in a
  fixed clause order from tables, conditions, grouping, ordering and a limit. The Python builder methods mutate the
  query and return it; here they return the updated query.
 */
module Queries {
  import opened Outcomes
  import opened SqlText
  import opened Identifiers
  import opened Conditions
  import opened ConditionSets
  import opened Options
  import opened Tables
  import opened Keywords

  /** An entry of a field list: a `Field`, or any other value (a raw string). */
  datatype FieldItem = FieldItem(field: Field) | RawItem(text: string)

  /** The value of an update assignment: a raw expression inlined with its
      own values, or a plain value bound to one `%s`. */
  datatype FvValue = ExprValue(expr: Expr) | PlainValue(value: Value)

  /** One `column = value` pair of an update dictionary, in iteration order. */
  datatype Assignment = Assignment(column: string, value: FvValue)

  /** The value of a keyword option: a flag, or an update dictionary. */
  datatype OptValue = Flag(on: bool) | Assignments(pairs: seq<Assignment>)

  /** A rendered statement: its text and its bind values. */
  datatype Statement = Statement(sql: string, params: seq<Value>)

  /** Python truthiness of an option value. */
  predicate Truthy(v: OptValue)
  {
    match v
    case Flag(b) => b
    case Assignments(ps) => |ps| > 0
  }

  /** `opt.get(key)` used as a condition. */
  predicate OptOn(opts: seq<(string, OptValue)>, key: string)
  {
    var v := Get(opts, key);
    v.Some? && Truthy(v.value)
  }

  // ---------------------------------------------------------------------
  // The `_gen_*` helpers

  function ItemSql(x: FieldItem): string
  {
    match x
    case FieldItem(f) => FieldSql(f, false)
    case RawItem(t) => t
  }

  function ItemsSql(xs: seq<FieldItem>): (r: seq<string>)
    ensures |r| == |xs|
    ensures forall i :: 0 <= i < |xs| ==> r[i] == ItemSql(xs[i])
  {
    if |xs| == 0 then [] else [ItemSql(xs[0])] + ItemsSql(xs[1..])
  }

  /** `_gen_f_list`: the items' texts separated by `, `. */
  function GenFList(xs: seq<FieldItem>): string
  {
    Join(ItemsSql(xs), ", ")
  }

  function OrderItems(xs: seq<FieldItem>, direct: string): (r: seq<string>)
    ensures |r| == |xs|
    ensures forall i :: 0 <= i < |xs| ==> r[i] == ItemSql(xs[i]) + " " + direct
  {
    if |xs| == 0 then [] else [ItemSql(xs[0]) + " " + direct] + OrderItems(xs[1..], direct)
  }

  /** `_gen_order_by_list`: each item followed by its direction. */
  function GenOrderByList(xs: seq<FieldItem>, direct: string): string
  {
    Join(OrderItems(xs, direct), ", ")
  }

  /** `_gen_v_list`: one `%s` per value of a row, in parentheses. */
  function GenVList(row: seq<Value>): (r: string)
    ensures Placeholders(r) == |row|
  {
    Parenthesized(InList(|row|));
    "(" + InList(|row|) + ")"
  }

  function VListSql(rows: seq<seq<Value>>): (r: seq<string>)
    ensures |r| == |rows|
  {
    if |rows| == 0 then [] else [GenVList(rows[0])] + VListSql(rows[1..])
  }

  /** The `(<columns>) VALUES <rows>` text of `insert_many`. */
  function ValuesText(xs: seq<FieldItem>, rows: seq<seq<Value>>): string
  {
    "(" + GenFList(xs) + ") VALUES " + GenVListSet(rows)
  }

  function Flatten(rows: seq<seq<Value>>): seq<Value>
  {
    if |rows| == 0 then [] else rows[0] + Flatten(rows[1..])
  }

  lemma FlattenOne(row: seq<Value>)
    ensures Flatten([row]) == row
  {
    assert [row][1..] == [];
    assert row + [] == row;
  }

  /** `_gen_v_list_set`: the rows' value lists separated by `, `. */
  function GenVListSet(rows: seq<seq<Value>>): string
  {
    Join(VListSql(rows), ", ")
  }

  function AssignSql(a: Assignment): string
  {
    match a.value
    case ExprValue(e) => a.column + " = " + e.sql
    case PlainValue(_) => a.column + " = %s"
  }

  function AssignParams(a: Assignment): seq<Value>
  {
    match a.value
    case ExprValue(e) => e.params
    case PlainValue(v) => [v]
  }

  function AssignsSql(ps: seq<Assignment>): (r: seq<string>)
    ensures |r| == |ps|
  {
    if |ps| == 0 then [] else [AssignSql(ps[0])] + AssignsSql(ps[1..])
  }

  function AssignsParams(ps: seq<Assignment>): seq<Value>
  {
    if |ps| == 0 then [] else AssignParams(ps[0]) + AssignsParams(ps[1..])
  }

  /** `_gen_fv_dict`: the assignments separated by `, `. */
  function GenFvDict(ps: seq<Assignment>): string
  {
    Join(AssignsSql(ps), ", ")
  }

  // ---------------------------------------------------------------------
  // The query and its builder methods

  /** A `QuerySet`. Empty strings stand for the `None` of an unset clause. */
  datatype QuerySet = QuerySet(
    tables: Option<TableRef>,
    fields: seq<FieldItem>,
    wheres: Option<Clause>,
    havings: Option<Clause>,
    groupBy: string,
    orderBy: string,
    limit: string,
    countFields: seq<FieldItem>,
    countDistinct: bool)

  /** `QuerySet(t)`. */
  function NewQuerySet(t: Option<TableRef>): (q: QuerySet)
    ensures q.tables == t && q.fields == [] && q.wheres.None? && q.havings.None?
    ensures q.groupBy == "" && q.orderBy == "" && q.limit == ""
    ensures q.countFields == [RawItem("*")] && !q.countDistinct
  {
    QuerySet(t, [], None, None, "", "", "", [RawItem("*")], false)
  }

  /** A set operand with nothing in it. */
  predicate EmptyClause(c: Clause)
  {
    c.SetClause? && c.conds.EmptySet?
  }

  /** The values of a stored clause, none when nothing is stored. */
  function StoredParams(o: Option<Clause>): seq<Value>
  {
    if o.Some? then ClauseParams(o.value) else []
  }

  /** `where` / `having`: the first clause is stored as given; a later one is
      combined with Python's `&` on the stored one. That gives
      `<stored> AND <new>`, a side parenthesized when its last operator is
      OR, with the stored values first, except that a stored plain
      condition meeting a set puts its values in front in reverse. An empty
      stored set just takes the new clause; an empty new set leaves a
      stored condition's text as it is. */
  function AndInto(stored: Option<Clause>, c: Clause): (r: Option<Clause>)
    ensures r.Some?
    ensures stored.None? ==> r == Some(c)
    ensures stored.Some? ==> r.value.SetClause? && r.value.conds.NonEmpty?
    ensures stored.Some? && EmptyClause(stored.value) ==>
      ClauseSql(r.value) == ClauseSql(c) && ClauseParams(r.value) == ClauseParams(c) && LastOpOf(r.value) == LastOpOf(c)
    ensures stored.Some? && stored.value.CondClause? && EmptyClause(c) ==>
      ClauseSql(r.value) == ClauseSql(stored.value) && ClauseParams(r.value) == ClauseParams(stored.value)
      && LastOpOf(r.value) == NoOp
    ensures stored.Some? && !EmptyClause(stored.value) && !(stored.value.CondClause? && EmptyClause(c)) ==>
      && ClauseSql(r.value)
         == Wrap(ClauseSql(stored.value), LastOpOf(stored.value) == OpOr) + " AND " + Wrap(ClauseSql(c), LastOpOf(c) == OpOr)
      && LastOpOf(r.value) == OpAnd
      && ClauseParams(r.value)
         == (if stored.value.CondClause? && c.SetClause? then Reverse(ClauseParams(stored.value)) else ClauseParams(stored.value))
            + ClauseParams(c)
    ensures multiset(ClauseParams(r.value)) == multiset(StoredParams(stored)) + multiset(ClauseParams(c))
  {
    ReverseMultiset(StoredParams(stored));
    if stored.None? then Some(c) else Some(SetClause(PyAnd(stored.value, c)))
  }

  /** `or_where` / `or_having`: as `AndInto`, with `|`, which gives
      `<stored> OR <new>` and never parenthesizes. */
  function OrInto(stored: Option<Clause>, c: Clause): (r: Option<Clause>)
    ensures r.Some?
    ensures stored.None? ==> r == Some(c)
    ensures stored.Some? ==> r.value.SetClause? && r.value.conds.NonEmpty?
    ensures stored.Some? && EmptyClause(stored.value) ==>
      ClauseSql(r.value) == ClauseSql(c) && ClauseParams(r.value) == ClauseParams(c) && LastOpOf(r.value) == LastOpOf(c)
    ensures stored.Some? && stored.value.CondClause? && EmptyClause(c) ==>
      ClauseSql(r.value) == ClauseSql(stored.value) && ClauseParams(r.value) == ClauseParams(stored.value)
      && LastOpOf(r.value) == NoOp
    ensures stored.Some? && !EmptyClause(stored.value) && !(stored.value.CondClause? && EmptyClause(c)) ==>
      && ClauseSql(r.value) == ClauseSql(stored.value) + " OR " + ClauseSql(c)
      && LastOpOf(r.value) == OpOr
      && ClauseParams(r.value)
         == (if stored.value.CondClause? && c.SetClause? then Reverse(ClauseParams(stored.value)) else ClauseParams(stored.value))
            + ClauseParams(c)
    ensures multiset(ClauseParams(r.value)) == multiset(StoredParams(stored)) + multiset(ClauseParams(c))
  {
    ReverseMultiset(StoredParams(stored));
    if stored.None? then Some(c) else Some(SetClause(PyOr(stored.value, c)))
  }

  /** `where(c)`: only the WHERE clause changes, and it binds the stored
      values and the new clause's values. */
  function Where(q: QuerySet, c: Clause): (r: QuerySet)
    ensures r.(wheres := q.wheres) == q
    ensures r.wheres == AndInto(q.wheres, c)
    ensures multiset(StoredParams(r.wheres)) == multiset(StoredParams(q.wheres)) + multiset(ClauseParams(c))
  {
    q.(wheres := AndInto(q.wheres, c))
  }

  /** `or_where(c)`. */
  function OrWhere(q: QuerySet, c: Clause): (r: QuerySet)
    ensures r.(wheres := q.wheres) == q
    ensures r.wheres == OrInto(q.wheres, c)
    ensures multiset(StoredParams(r.wheres)) == multiset(StoredParams(q.wheres)) + multiset(ClauseParams(c))
  {
    q.(wheres := OrInto(q.wheres, c))
  }

  /** `having(c)`: only the HAVING clause changes. */
  function Having(q: QuerySet, c: Clause): (r: QuerySet)
    ensures r.(havings := q.havings) == q
    ensures r.havings == AndInto(q.havings, c)
    ensures multiset(StoredParams(r.havings)) == multiset(StoredParams(q.havings)) + multiset(ClauseParams(c))
  {
    q.(havings := AndInto(q.havings, c))
  }

  /** `or_having(c)`. */
  function OrHaving(q: QuerySet, c: Clause): (r: QuerySet)
    ensures r.(havings := q.havings) == q
    ensures r.havings == OrInto(q.havings, c)
    ensures multiset(StoredParams(r.havings)) == multiset(StoredParams(q.havings)) + multiset(ClauseParams(c))
  {
    q.(havings := OrInto(q.havings, c))
  }

  /** `group_by`: also makes a later `count()` count the distinct groups. */
  function GroupBy(q: QuerySet, xs: seq<FieldItem>): (r: QuerySet)
    ensures r.countFields == xs && r.countDistinct
    ensures r.groupBy == "GROUP BY " + GenFList(xs)
    ensures r.(groupBy := q.groupBy, countFields := q.countFields, countDistinct := q.countDistinct) == q
  {
    q.(groupBy := "GROUP BY " + GenFList(xs), countFields := xs, countDistinct := true)
  }

  /** The ORDER BY text after adding items in one direction: the first call
      opens the clause, later calls keep the text so far and add the new
      items after it. */
  function AppendOrder(current: string, xs: seq<FieldItem>, direct: string): (r: string)
    ensures current == "" ==> r == "ORDER BY " + GenOrderByList(xs, direct)
    ensures current != "" ==> |r| > |current| && r[..|current|] == current
    ensures |r| >= |GenOrderByList(xs, direct)| && r[|r| - |GenOrderByList(xs, direct)|..] == GenOrderByList(xs, direct)
  {
    if current == "" then "ORDER BY " + GenOrderByList(xs, direct)
    else current + ", " + GenOrderByList(xs, direct)
  }

  lemma {:induction false} OrderItemsAppend(xs: seq<FieldItem>, ys: seq<FieldItem>, direct: string)
    ensures OrderItems(xs + ys, direct) == OrderItems(xs, direct) + OrderItems(ys, direct)
  {
    var l, r := OrderItems(xs + ys, direct), OrderItems(xs, direct) + OrderItems(ys, direct);
    assert |l| == |r|;
    forall i | 0 <= i < |l| ensures l[i] == r[i] {
      if i < |xs| {
        assert (xs + ys)[i] == xs[i];
      } else {
        assert (xs + ys)[i] == ys[i - |xs|];
      }
    }
  }

  /** Ordering twice in one direction is ordering once by both lists. */
  lemma OrderTwice(current: string, xs: seq<FieldItem>, ys: seq<FieldItem>, direct: string)
    requires |xs| > 0 && |ys| > 0
    ensures AppendOrder(AppendOrder(current, xs, direct), ys, direct) == AppendOrder(current, xs + ys, direct)
  {
    var gx, gy := GenOrderByList(xs, direct), GenOrderByList(ys, direct);
    GenOrderAppend(xs, ys, direct);
    if current == "" {
      assert "ORDER BY " + gx + ", " + gy == "ORDER BY " + (gx + ", " + gy);
    } else {
      assert current + ", " + gx + ", " + gy == current + ", " + (gx + ", " + gy);
    }
  }

  lemma GenOrderAppend(xs: seq<FieldItem>, ys: seq<FieldItem>, direct: string)
    requires |xs| > 0 && |ys| > 0
    ensures GenOrderByList(xs + ys, direct) == GenOrderByList(xs, direct) + ", " + GenOrderByList(ys, direct)
  {
    OrderItemsAppend(xs, ys, direct);
    JoinAppend(OrderItems(xs, direct), OrderItems(ys, direct), ", ");
  }

  /** `order_by(*f_list, desc=...)`: only the `desc` option is accepted. */
  function OrderBy(q: QuerySet, xs: seq<FieldItem>, opts: seq<(string, OptValue)>): (r: Result<QuerySet>)
    ensures r.Ok? <==> CheckOptions(opts, ["desc"]).Ok?
    ensures r.Err? ==> r == Err(CheckOptions(opts, ["desc"]).error)
    ensures r.Ok? ==> r.value == q.(orderBy := AppendOrder(q.orderBy, xs, if OptOn(opts, "desc") then "DESC" else "ASC"))
  {
    var _ :- CheckOptions(opts, ["desc"]);
    var direct := if OptOn(opts, "desc") then "DESC" else "ASC";
    Ok(q.(orderBy := AppendOrder(q.orderBy, xs, direct)))
  }

  /** `"LIMIT %u, %u" % (offset, limit)`: `LIMIT `, the offset's numeral,
      `, ` and the limit's numeral; each numeral reads back as its number. */
  function LimitText(offset: int, limit: int): (r: string)
    ensures var a, b := IntToString(offset), IntToString(limit);
            && r == "LIMIT " + a + ", " + b
            && IntOf(a) == offset && IntOf(b) == limit
  {
    IntOfIntToString(offset);
    IntOfIntToString(limit);
    "LIMIT " + IntToString(offset) + ", " + IntToString(limit)
  }

  /** `limit(offset, limit)`: only the stored LIMIT text changes. */
  function Limit(q: QuerySet, offset: int, limit: int): (r: QuerySet)
    ensures r.(limit := q.limit) == q
    ensures r.limit == LimitText(offset, limit)
  {
    q.(limit := LimitText(offset, limit))
  }

  /** `QuerySet.on(c)`: only a join chain can take an ON clause. */
  function QueryOn(q: QuerySet, c: Clause): (r: Result<QuerySet>)
    ensures r.Ok? <==> q.tables.Some? && q.tables.value.TableSet? && |q.tables.value.items| > 0
    ensures r.Ok? ==> r.value == q.(tables := Some(On(q.tables.value, c)))
    ensures q.tables.None? || q.tables.value.Table? ==> r == Err(BuilderError)
  {
    if q.tables.Some? && q.tables.value.TableSet? && |q.tables.value.items| > 0 then
      Ok(q.(tables := Some(On(q.tables.value, c))))
    else if q.tables.Some? && q.tables.value.TableSet? then
      Err(IndexError)
    else
      Err(BuilderError)
  }

  // ---------------------------------------------------------------------
  // Statement assembly

  /** A word of a statement: a keyword, a stored or generated text, or a
      table reference or a clause whose text is rendered when the statement
      is finished. */
  datatype Word = Kw(keyword: Keyword) | Text(text: string) | TableText(table: TableRef) | ClauseText(clause: Clause)

  function WordSql(w: Word): string
  {
    match w
    case Kw(k) => KeywordText(k)
    case Text(s) => s
    case TableText(t) => Sql(t)
    case ClauseText(c) => ClauseSql(c)
  }

  function WordsSql(ws: seq<Word>): (r: seq<string>)
    ensures |r| == |ws|
    ensures forall i :: 0 <= i < |ws| ==> r[i] == WordSql(ws[i])
  {
    if |ws| == 0 then [] else [WordSql(ws[0])] + WordsSql(ws[1..])
  }

  /** Words still to be joined by spaces, with their values. */
  datatype Piece = Piece(words: seq<Word>, params: seq<Value>)

  function Cat(a: Piece, b: Piece): (r: Piece)
    ensures r.words == a.words + b.words && r.params == a.params + b.params
  {
    Piece(a.words + b.words, a.params + b.params)
  }

  function When(cond: bool, p: Piece): (r: Piece)
    ensures r.params == (if cond then p.params else [])
    ensures r.words == (if cond then p.words else [])
  {
    if cond then p else Piece([], [])
  }

  /** The clauses `_join_sql_part` is asked for: its `join_list`, one flag per
      name it recognises. */
  datatype Parts = Parts(tables: bool, from: bool, where: bool, group: bool, having: bool, order: bool, limit: bool)

  function TablesParams(q: QuerySet): seq<Value>
  {
    if q.tables.Some? then Params(q.tables.value) else []
  }

  function WhereParams(q: QuerySet): seq<Value>
  {
    if q.wheres.Some? then ClauseParams(q.wheres.value) else []
  }

  function HavingParams(q: QuerySet): seq<Value>
  {
    if q.havings.Some? then ClauseParams(q.havings.value) else []
  }

  function TablesPiece(q: QuerySet, keyword: seq<Word>): (r: Piece)
    ensures r.params == TablesParams(q)
  {
    if q.tables.Some? then Piece(keyword + [TableText(q.tables.value)], Params(q.tables.value)) else Piece([], [])
  }

  function WherePiece(q: QuerySet): (r: Piece)
    ensures r.params == WhereParams(q)
  {
    if q.wheres.Some? then Piece([Kw(WhereKw), ClauseText(q.wheres.value)], ClauseParams(q.wheres.value)) else Piece([], [])
  }

  function HavingPiece(q: QuerySet): (r: Piece)
    ensures r.params == HavingParams(q)
  {
    if q.havings.Some? then Piece([Kw(HavingKw), ClauseText(q.havings.value)], ClauseParams(q.havings.value)) else Piece([], [])
  }

  /** A clause that binds no values: present when requested and set. */
  function TextPiece(requested: bool, text: string): (r: Piece)
    ensures r.params == []
  {
    if requested && text != "" then Piece([Text(text)], []) else Piece([], [])
  }

  /** The clauses of `_join_sql_part` that bind values: tables, FROM, WHERE. */
  function FrontPart(q: QuerySet, parts: Parts): (r: Piece)
  {
    var t := When(parts.tables, TablesPiece(q, []));
    var f := When(parts.from, TablesPiece(q, [Kw(FromKw)]));
    var w := When(parts.where, WherePiece(q));
    Cat(t, Cat(f, w))
  }

  /** The clauses of `_join_sql_part` from GROUP BY on; only HAVING binds values. */
  function BackPart(q: QuerySet, parts: Parts): (r: Piece)
  {
    var g := TextPiece(parts.group, q.groupBy);
    var h := When(parts.having, HavingPiece(q));
    var o := TextPiece(parts.order, q.orderBy);
    var l := TextPiece(parts.limit, q.limit);
    Cat(g, Cat(h, Cat(o, l)))
  }

  /** `_join_sql_part(sql, params, join_list)`: the requested clauses that are
      set, always in the order tables, FROM, WHERE, GROUP BY, HAVING,
      ORDER BY, LIMIT. Table values use `Params`, which includes the ON
      clause of a nested chain. */
  function JoinSqlPart(q: QuerySet, parts: Parts): (r: Piece)
  {
    Cat(FrontPart(q, parts), BackPart(q, parts))
  }

  /** The values of each clause list the statements ask for, in clause order. */
  lemma TablesOnlyParams(q: QuerySet)
    ensures JoinSqlPart(q, TablesOnly).params == TablesParams(q)
  {
    assert JoinSqlPart(q, TablesOnly).params == TablesParams(q) + ([] + [] + ([] + ([] + ([] + []))));
  }

  lemma WhereLimitParams(q: QuerySet)
    ensures JoinSqlPart(q, WhereLimit).params == WhereParams(q)
  {
    assert JoinSqlPart(q, WhereLimit).params == [] + ([] + WhereParams(q)) + ([] + ([] + ([] + [])));
  }

  lemma CountPartsParams(q: QuerySet)
    ensures JoinSqlPart(q, CountParts).params == TablesParams(q) + WhereParams(q)
  {
    assert JoinSqlPart(q, CountParts).params == [] + (TablesParams(q) + WhereParams(q)) + ([] + ([] + ([] + [])));
  }

  lemma SelectPartsParams(q: QuerySet)
    ensures JoinSqlPart(q, SelectParts).params == TablesParams(q) + WhereParams(q) + HavingParams(q)
    ensures JoinSqlPart(q, SelectOneParts).params == TablesParams(q) + WhereParams(q) + HavingParams(q)
  {
    assert JoinSqlPart(q, SelectParts).params == [] + (TablesParams(q) + WhereParams(q)) + ([] + (HavingParams(q) + ([] + [])));
    assert JoinSqlPart(q, SelectOneParts).params == [] + (TablesParams(q) + WhereParams(q)) + ([] + (HavingParams(q) + ([] + [])));
  }

  function Finish(p: Piece): (r: Statement)
    ensures r.params == p.params
  {
    Statement(Join(WordsSql(p.words), " "), p.params)
  }

  const SelectOptions: seq<string> := ["distinct", "for_update"]

  /** The head `SELECT [DISTINCT] <fields>` of `select` and `select_one`. */
  function SelectHead(q: QuerySet, xs: seq<FieldItem>, distinct: bool): (r: Piece)
    ensures r.params == []
  {
    Cat(Piece([Kw(SelectKw)], []),
    Cat(When(distinct, Piece([Kw(DistinctKw)], [])),
        Piece([Text(GenFList(xs + q.fields))], [])))
  }

  function ForUpdate(forUpdate: bool): (r: Piece)
    ensures r.params == []
  {
    When(forUpdate, Piece([Kw(ForUpdateKw)], []))
  }

  const SelectParts := Parts(false, true, true, true, true, true, true)
  const SelectOneParts := Parts(false, true, true, true, true, true, false)

  function SelectPiece(q: QuerySet, xs: seq<FieldItem>, distinct: bool, forUpdate: bool): (r: Piece)
    ensures r.params == TablesParams(q) + WhereParams(q) + HavingParams(q)
  {
    SelectPartsParams(q);
    var body := JoinSqlPart(q, SelectParts);
    var p := Cat(Cat(SelectHead(q, xs, distinct), body), ForUpdate(forUpdate));
    assert p.params == ([] + body.params) + [];
    p
  }

  /** `select(*f_list, distinct=..., for_update=...)`: the given fields then the
      query's own, followed by FROM, WHERE, GROUP BY, HAVING, ORDER BY, LIMIT
      and FOR UPDATE. Values come from the tables, then WHERE, then HAVING. */
  function Select(q: QuerySet, xs: seq<FieldItem>, opts: seq<(string, OptValue)>): (r: Result<Statement>)
    ensures r.Ok? <==> CheckOptions(opts, SelectOptions).Ok?
    ensures r.Err? ==> r == Err(CheckOptions(opts, SelectOptions).error)
    ensures r.Ok? ==> r.value.params == TablesParams(q) + WhereParams(q) + HavingParams(q)
  {
    var _ :- CheckOptions(opts, SelectOptions);
    Ok(Finish(SelectPiece(q, xs, OptOn(opts, "distinct"), OptOn(opts, "for_update"))))
  }

  function SelectOnePiece(q: QuerySet, xs: seq<FieldItem>, distinct: bool, forUpdate: bool): (r: Piece)
    ensures r.params == TablesParams(q) + WhereParams(q) + HavingParams(q)
  {
    SelectPartsParams(q);
    var body := JoinSqlPart(q, SelectOneParts);
    var p := Cat(Cat(Cat(SelectHead(q, xs, distinct), body), Piece([Kw(LimitOneKw)], [])), ForUpdate(forUpdate));
    assert p.params == (([] + body.params) + []) + [];
    p
  }

  /** `select_one`: as `select`, with `LIMIT 0, 1` in place of the stored limit. */
  function SelectOne(q: QuerySet, xs: seq<FieldItem>, opts: seq<(string, OptValue)>): (r: Result<Statement>)
    ensures r.Ok? <==> CheckOptions(opts, SelectOptions).Ok?
    ensures r.Err? ==> r == Err(CheckOptions(opts, SelectOptions).error)
    ensures r.Ok? ==> r.value.params == TablesParams(q) + WhereParams(q) + HavingParams(q)
  {
    var _ :- CheckOptions(opts, SelectOptions);
    Ok(Finish(SelectOnePiece(q, xs, OptOn(opts, "distinct"), OptOn(opts, "for_update"))))
  }

  /** `COUNT(...)` or `COUNT(DISTINCT ...)` over a field list. */
  function Counted(fl: seq<FieldItem>, distinct: bool): string
  {
    if distinct then "COUNT(DISTINCT " + GenFList(fl) + ")" else "COUNT(" + GenFList(fl) + ")"
  }

  const CountParts := Parts(false, true, true, false, false, false, false)

  function CountPiece(q: QuerySet, fl: seq<FieldItem>, distinct: bool, forUpdate: bool): (r: Piece)
    ensures r.params == TablesParams(q) + WhereParams(q)
  {
    CountPartsParams(q);
    var body := JoinSqlPart(q, CountParts);
    var p := Cat(Piece([Kw(SelectKw), Text(Counted(fl, distinct))], []), Cat(body, ForUpdate(forUpdate)));
    assert p.params == [] + (body.params + []);
    p
  }

  /** Whether `count` counts distinct rows: the `distinct` option when given,
      otherwise whether the query is grouped. */
  function CountDistinct(q: QuerySet, opts: seq<(string, OptValue)>): (r: bool)
    ensures Get(opts, "distinct").None? ==> r == q.countDistinct
    ensures Get(opts, "distinct").Some? ==> r == Truthy(Get(opts, "distinct").value)
  {
    var d := Get(opts, "distinct");
    if d.Some? then Truthy(d.value) else q.countDistinct
  }

  /** `count(*f_list, distinct=..., for_update=...)`: without fields it counts
      the grouping fields (or `*`). Only FROM and WHERE follow. */
  function Count(q: QuerySet, xs: seq<FieldItem>, opts: seq<(string, OptValue)>): (r: Result<Statement>)
    ensures r.Ok? <==> CheckOptions(opts, SelectOptions).Ok?
    ensures r.Err? ==> r == Err(CheckOptions(opts, SelectOptions).error)
    ensures r.Ok? ==> r.value.params == TablesParams(q) + WhereParams(q)
  {
    var _ :- CheckOptions(opts, SelectOptions);
    var fl := if |xs| == 0 then q.countFields else xs;
    Ok(Finish(CountPiece(q, fl, CountDistinct(q, opts), OptOn(opts, "for_update"))))
  }

  const InsertOptions: seq<string> := ["ignore", "on_duplicate_key_update"]
  const TablesOnly := Parts(true, false, false, false, false, false, false)

  function InsertPiece(q: QuerySet, xs: seq<FieldItem>, rows: seq<seq<Value>>, ignore: bool, update: seq<Assignment>)
    : (r: Piece)
    ensures r.params == TablesParams(q) + Flatten(rows) + AssignsParams(update)
  {
    TablesOnlyParams(q);
    var head := Cat(Piece([Kw(InsertKw)], []),
                Cat(When(ignore, Piece([Kw(IgnoreKw)], [])), Piece([Kw(IntoKw)], [])));
    assert head.params == [];
    var tp := JoinSqlPart(q, TablesOnly);
    var values := Piece([Text(ValuesText(xs, rows))], Flatten(rows));
    var odku := When(|update| > 0, Piece([Kw(OnDuplicateKw), Text(GenFvDict(update))], AssignsParams(update)));
    assert |update| == 0 ==> AssignsParams(update) == [];
    assert odku.params == AssignsParams(update);
    var front := Cat(head, tp);
    assert front.params == TablesParams(q);
    Cat(Cat(front, values), odku)
  }

  /** `insert_many(f_list, v_list_set, ignore=..., on_duplicate_key_update=...)`.
      Every row value is bound to a `%s`; the update dictionary follows. A
      truthy option value that is not a dictionary has no `items()`. */
  function InsertMany(q: QuerySet, xs: seq<FieldItem>, rows: seq<seq<Value>>, opts: seq<(string, OptValue)>)
    : (r: Result<Statement>)
    ensures r.Ok? <==> CheckOptions(opts, InsertOptions).Ok? && Get(opts, "on_duplicate_key_update") != Some(Flag(true))
    ensures CheckOptions(opts, InsertOptions).Err? ==> r == Err(CheckOptions(opts, InsertOptions).error)
    ensures CheckOptions(opts, InsertOptions).Ok? && Get(opts, "on_duplicate_key_update") == Some(Flag(true)) ==>
      r == Err(AttributeError)
    ensures r.Ok? && Get(opts, "on_duplicate_key_update").None? ==>
      r.value.params == TablesParams(q) + Flatten(rows)
    ensures r.Ok? && Get(opts, "on_duplicate_key_update").Some? && Get(opts, "on_duplicate_key_update").value.Assignments? ==>
      r.value.params == TablesParams(q) + Flatten(rows) + AssignsParams(Get(opts, "on_duplicate_key_update").value.pairs)
    ensures r.Ok? && Get(opts, "on_duplicate_key_update") == Some(Flag(false)) ==>
      r.value.params == TablesParams(q) + Flatten(rows)
  {
    var _ :- CheckOptions(opts, InsertOptions);
    var odku := Get(opts, "on_duplicate_key_update");
    if odku == Some(Flag(true)) then Err(AttributeError)
    else
      var update := if odku.Some? && odku.value.Assignments? then odku.value.pairs else [];
      assert AssignsParams([]) == [];
      Ok(Finish(InsertPiece(q, xs, rows, OptOn(opts, "ignore"), update)))
  }

  function Keys(pairs: seq<(string, Value)>): (r: seq<FieldItem>)
    ensures |r| == |pairs|
    ensures forall i :: 0 <= i < |pairs| ==> r[i] == RawItem(pairs[i].0)
  {
    if |pairs| == 0 then [] else [RawItem(pairs[0].0)] + Keys(pairs[1..])
  }

  function Values(pairs: seq<(string, Value)>): (r: seq<Value>)
    ensures |r| == |pairs|
    ensures forall i :: 0 <= i < |pairs| ==> r[i] == pairs[i].1
  {
    if |pairs| == 0 then [] else [pairs[0].1] + Values(pairs[1..])
  }

  /** `insert(fv_dict)`: a single row whose columns and values come from the
      dictionary in the same order. */
  function Insert(q: QuerySet, pairs: seq<(string, Value)>, opts: seq<(string, OptValue)>): (r: Result<Statement>)
    ensures r.Ok? <==> CheckOptions(opts, InsertOptions).Ok? && Get(opts, "on_duplicate_key_update") != Some(Flag(true))
    ensures CheckOptions(opts, InsertOptions).Err? ==> r == Err(CheckOptions(opts, InsertOptions).error)
    ensures CheckOptions(opts, InsertOptions).Ok? && Get(opts, "on_duplicate_key_update") == Some(Flag(true)) ==>
      r == Err(AttributeError)
    ensures r.Ok? && Get(opts, "on_duplicate_key_update").None? ==>
      r.value.params == TablesParams(q) + Values(pairs)
    ensures r.Ok? && Get(opts, "on_duplicate_key_update") == Some(Flag(false)) ==>
      r.value.params == TablesParams(q) + Values(pairs)
  {
    FlattenOne(Values(pairs));
    InsertMany(q, Keys(pairs), [Values(pairs)], opts)
  }

  const WhereLimit := Parts(false, false, true, false, false, false, true)

  function UpdatePiece(q: QuerySet, ps: seq<Assignment>, ignore: bool): (r: Piece)
    ensures r.params == TablesParams(q) + AssignsParams(ps) + WhereParams(q)
  {
    TablesOnlyParams(q);
    WhereLimitParams(q);
    var head := Cat(Piece([Kw(UpdateKw)], []), When(ignore, Piece([Kw(IgnoreKw)], [])));
    assert head.params == [];
    var tp := JoinSqlPart(q, TablesOnly);
    var setPart := Piece([Kw(SetKw), Text(GenFvDict(ps))], AssignsParams(ps));
    var wp := JoinSqlPart(q, WhereLimit);
    var front := Cat(head, tp);
    assert front.params == TablesParams(q);
    Cat(Cat(front, setPart), wp)
  }

  /** `update(fv_dict, ignore=...)`: tables, SET assignments, WHERE, LIMIT. */
  function Update(q: QuerySet, ps: seq<Assignment>, opts: seq<(string, OptValue)>): (r: Result<Statement>)
    ensures r.Ok? <==> CheckOptions(opts, ["ignore"]).Ok?
    ensures r.Err? ==> r == Err(CheckOptions(opts, ["ignore"]).error)
    ensures r.Ok? ==> r.value.params == TablesParams(q) + AssignsParams(ps) + WhereParams(q)
  {
    var _ :- CheckOptions(opts, ["ignore"]);
    Ok(Finish(UpdatePiece(q, ps, OptOn(opts, "ignore"))))
  }

  /** `delete()`: FROM and WHERE only. */
  function Delete(q: QuerySet): (r: Statement)
    ensures r.params == TablesParams(q) + WhereParams(q)
  {
    CountPartsParams(q);
    var body := JoinSqlPart(q, CountParts);
    Finish(Cat(Piece([Kw(DeleteKw)], []), body))
  }
}

=== FILE: query_properties.dfy ===
/**
  Properties of the `QuerySet` statements: every statement binds exactly one
  value per `%s` placeholder of its text, the builder methods keep the query
  in a state where that holds, and the statements relate to each other as
  `select_one`, `count` and `group_by` promise.
 */
module QueryProperties {
  import opened Outcomes
  import opened SqlText
  import opened Conditions
  import opened ConditionSets
  import opened Options
  import opened Tables
  import opened Queries
  import opened Keywords

  // ---------------------------------------------------------------------
  // What a placeholder-free input looks like

  /** A field-list entry whose text holds no `%s`. */
  predicate ItemPlain(x: FieldItem)
  {
    match x
    case FieldItem(f) => PlainField(f)
    case RawItem(t) => Placeholders(t) == 0
  }

  predicate ItemsPlain(xs: seq<FieldItem>)
  {
    forall i :: 0 <= i < |xs| ==> ItemPlain(xs[i])
  }

  /** An assignment whose column holds no `%s` and whose raw expression, if
      any, binds one value per `%s`. */
  predicate AssignPlain(a: Assignment)
  {
    Placeholders(a.column) == 0 && (a.value.ExprValue? ==> ExprBalanced(a.value.expr))
  }

  predicate AssignsPlain(ps: seq<Assignment>)
  {
    forall i :: 0 <= i < |ps| ==> AssignPlain(ps[i])
  }

  /** The query invariant: every stored clause binds one value per `%s` and
      the stored texts and field lists hold none of their own. */
  predicate QueryPlain(q: QuerySet)
  {
    && (q.tables.Some? ==> Tables.Plain(q.tables.value))
    && (q.wheres.Some? ==> ClauseBalanced(q.wheres.value))
    && (q.havings.Some? ==> ClauseBalanced(q.havings.value))
    && Placeholders(q.groupBy) == 0
    && Placeholders(q.orderBy) == 0
    && Placeholders(q.limit) == 0
    && ItemsPlain(q.fields)
    && ItemsPlain(q.countFields)
  }

  // ---------------------------------------------------------------------
  // Text helpers

  lemma CommaGlue()
    ensures Glue(", ")
  {
    LiteralGlue(", ");
  }

  /** Literal text around a fragment adds no placeholder. */
  lemma Enclosed(open: string, x: string, close: string)
    requires NoPercent(open) && NoPercent(close) && |close| > 0 && close[0] != 's'
    ensures Placeholders(open + x + close) == Placeholders(x)
  {
    NoPercentPlaceholders(open);
    NoPercentPlaceholders(close);
    PlaceholdersConcat(open, x);
    if |open| > 0 {
      assert open[|open| - 1] != '%';
    }
    PlaceholdersConcat(open + x, close);
  }

  lemma PrefixedPlain(open: string, x: string)
    requires NoPercent(open)
    ensures Placeholders(open + x) == Placeholders(x)
  {
    NoPercentPlaceholders(open);
    PlaceholdersConcat(open, x);
    if |open| > 0 {
      assert open[|open| - 1] != '%';
    }
  }

  lemma {:induction false} ItemsSqlPlain(xs: seq<FieldItem>)
    requires ItemsPlain(xs)
    ensures SumPlaceholders(ItemsSql(xs)) == 0
    decreases |xs|
  {
    if |xs| > 0 {
      assert ItemPlain(xs[0]);
      assert ItemsPlain(xs[1..]) by {
        forall i | 0 <= i < |xs| - 1
          ensures ItemPlain(xs[1..][i])
        {
          assert xs[1..][i] == xs[i + 1];
        }
      }
      ItemsSqlPlain(xs[1..]);
      if xs[0].FieldItem? {
        FieldSqlPlaceholders(xs[0].field, false);
      }
      assert ItemsSql(xs)[1..] == ItemsSql(xs[1..]);
    }
  }

  /** `_gen_f_list` of placeholder-free items holds no placeholder. */
  lemma GenFListPlain(xs: seq<FieldItem>)
    requires ItemsPlain(xs)
    ensures Placeholders(GenFList(xs)) == 0
  {
    ItemsSqlPlain(xs);
    CommaGlue();
    JoinPlaceholders(ItemsSql(xs), ", ");
  }

  lemma {:induction false} OrderItemsPlain(xs: seq<FieldItem>, direct: string)
    requires ItemsPlain(xs) && Placeholders(direct) == 0
    ensures SumPlaceholders(OrderItems(xs, direct)) == 0
    decreases |xs|
  {
    if |xs| > 0 {
      assert ItemPlain(xs[0]);
      assert ItemsPlain(xs[1..]) by {
        forall i | 0 <= i < |xs| - 1
          ensures ItemPlain(xs[1..][i])
        {
          assert xs[1..][i] == xs[i + 1];
        }
      }
      OrderItemsPlain(xs[1..], direct);
      if xs[0].FieldItem? {
        FieldSqlPlaceholders(xs[0].field, false);
      }
      LiteralGlue(" ");
      Glued(ItemSql(xs[0]), " ", direct);
      assert OrderItems(xs, direct)[1..] == OrderItems(xs[1..], direct);
    }
  }

  /** `_gen_order_by_list` of placeholder-free items holds no placeholder. */
  lemma GenOrderByPlain(xs: seq<FieldItem>, direct: string)
    requires ItemsPlain(xs) && (direct == "ASC" || direct == "DESC")
    ensures Placeholders(GenOrderByList(xs, direct)) == 0
  {
    NoPercentPlaceholders(direct);
    OrderItemsPlain(xs, direct);
    CommaGlue();
    JoinPlaceholders(OrderItems(xs, direct), ", ");
  }

  lemma {:induction false} VListSum(rows: seq<seq<Value>>)
    ensures SumPlaceholders(VListSql(rows)) == |Flatten(rows)|
    decreases |rows|
  {
    if |rows| > 0 {
      VListSum(rows[1..]);
      assert VListSql(rows)[0] == GenVList(rows[0]);
      assert VListSql(rows)[1..] == VListSql(rows[1..]);
    }
  }

  /** `_gen_v_list_set` writes one `%s` per value of every row. */
  lemma GenVListSetCount(rows: seq<seq<Value>>)
    ensures Placeholders(GenVListSet(rows)) == |Flatten(rows)|
  {
    VListSum(rows);
    CommaGlue();
    JoinPlaceholders(VListSql(rows), ", ");
  }

  lemma AssignBalanced(a: Assignment)
    requires AssignPlain(a)
    ensures Placeholders(AssignSql(a)) == |AssignParams(a)|
  {
    LiteralGlue(" = ");
    match a.value
    case ExprValue(e) =>
      Glued(a.column, " = ", e.sql);
    case PlainValue(_) =>
      assert a.column + " = %s" == a.column + " = " + "%s";
      assert "%s"[1..] == "s";
      Glued(a.column, " = ", "%s");
  }

  lemma {:induction false} AssignsSum(ps: seq<Assignment>)
    requires AssignsPlain(ps)
    ensures SumPlaceholders(AssignsSql(ps)) == |AssignsParams(ps)|
    decreases |ps|
  {
    if |ps| > 0 {
      assert AssignPlain(ps[0]);
      assert AssignsPlain(ps[1..]) by {
        forall i | 0 <= i < |ps| - 1
          ensures AssignPlain(ps[1..][i])
        {
          assert ps[1..][i] == ps[i + 1];
        }
      }
      AssignsSum(ps[1..]);
      AssignBalanced(ps[0]);
      assert AssignsSql(ps)[0] == AssignSql(ps[0]);
      assert AssignsSql(ps)[1..] == AssignsSql(ps[1..]);
    }
  }

  /** `_gen_fv_dict` writes one `%s` per value it binds. */
  lemma GenFvDictBalanced(ps: seq<Assignment>)
    requires AssignsPlain(ps)
    ensures Placeholders(GenFvDict(ps)) == |AssignsParams(ps)|
  {
    AssignsSum(ps);
    CommaGlue();
    JoinPlaceholders(AssignsSql(ps), ", ");
  }

  // ---------------------------------------------------------------------
  // Pieces

  /** The `%s` count of a word. A keyword has none by definition;
      `WordPlaceholdersSql` shows this is the count of its text. */
  function WordPlaceholders(w: Word): nat
  {
    match w
    case Kw(_) => 0
    case Text(s) => Placeholders(s)
    case TableText(t) => Placeholders(Sql(t))
    case ClauseText(c) => Placeholders(ClauseSql(c))
  }

  lemma WordPlaceholdersSql(w: Word)
    ensures WordPlaceholders(w) == Placeholders(WordSql(w))
  {
    if w.Kw? {
      KeywordPlain(w.keyword);
    }
  }

  function WordsPlaceholders(ws: seq<Word>): nat
  {
    if |ws| == 0 then 0 else WordPlaceholders(ws[0]) + WordsPlaceholders(ws[1..])
  }

  lemma {:induction false} WordsPlaceholdersAppend(a: seq<Word>, b: seq<Word>)
    ensures WordsPlaceholders(a + b) == WordsPlaceholders(a) + WordsPlaceholders(b)
    decreases |a|
  {
    if |a| == 0 {
      assert a + b == b;
    } else {
      assert (a + b)[1..] == a[1..] + b;
      WordsPlaceholdersAppend(a[1..], b);
    }
  }

  /** Counting word by word gives the count of the rendered words. */
  lemma {:induction false} WordsPlaceholdersSql(ws: seq<Word>)
    ensures WordsPlaceholders(ws) == SumPlaceholders(WordsSql(ws))
    decreases |ws|
  {
    if |ws| > 0 {
      WordPlaceholdersSql(ws[0]);
      WordsPlaceholdersSql(ws[1..]);
      assert WordsSql(ws)[1..] == WordsSql(ws[1..]);
    }
  }

  /** A piece binds one value per `%s` of its words. */
  predicate PieceBalanced(p: Piece)
  {
    WordsPlaceholders(p.words) == |p.params|
  }

  lemma CatBalanced(a: Piece, b: Piece)
    requires PieceBalanced(a) && PieceBalanced(b)
    ensures PieceBalanced(Cat(a, b))
  {
    WordsPlaceholdersAppend(a.words, b.words);
  }

  lemma WhenBalanced(c: bool, p: Piece)
    requires PieceBalanced(p)
    ensures PieceBalanced(When(c, p))
  {
  }

  lemma OneWord(w: Word, ps: seq<Value>)
    requires WordPlaceholders(w) == |ps|
    ensures PieceBalanced(Piece([w], ps))
  {
    assert [w][1..] == [];
  }

  lemma TwoWords(w: Word, v: Word, ps: seq<Value>)
    requires WordPlaceholders(w) + WordPlaceholders(v) == |ps|
    ensures PieceBalanced(Piece([w, v], ps))
  {
    assert [v][1..] == [];
    assert WordsPlaceholders([v]) == WordPlaceholders(v);
    assert [w, v][1..] == [v];
  }

  lemma KwBalanced(k: Keyword)
    ensures PieceBalanced(Piece([Kw(k)], []))
  {
    OneWord(Kw(k), []);
  }

  /** Joining a balanced piece's words by spaces gives balanced text. */
  lemma FinishBalanced(p: Piece)
    requires PieceBalanced(p)
    ensures Placeholders(Finish(p).sql) == |Finish(p).params|
  {
    WordsPlaceholdersSql(p.words);
    LiteralGlue(" ");
    JoinPlaceholders(WordsSql(p.words), " ");
  }

  // ---------------------------------------------------------------------
  // `_join_sql_part`

  lemma TablesPieceBalanced(q: QuerySet, keyword: seq<Word>)
    requires QueryPlain(q) && (keyword == [] || keyword == [Kw(FromKw)])
    ensures PieceBalanced(TablesPiece(q, keyword))
  {
    if q.tables.Some? {
      var t := q.tables.value;
      TableBalanced(t);
      if keyword == [] {
        OneWord(TableText(t), Params(t));
      } else {
        TwoWords(Kw(FromKw), TableText(t), Params(t));
      }
    }
  }

  lemma ConditionPiecesBalanced(q: QuerySet)
    requires QueryPlain(q)
    ensures PieceBalanced(WherePiece(q)) && PieceBalanced(HavingPiece(q))
  {
    if q.wheres.Some? {
      TwoWords(Kw(WhereKw), ClauseText(q.wheres.value), ClauseParams(q.wheres.value));
    }
    if q.havings.Some? {
      TwoWords(Kw(HavingKw), ClauseText(q.havings.value), ClauseParams(q.havings.value));
    }
  }

  lemma TextPieceBalanced(requested: bool, text: string)
    requires Placeholders(text) == 0
    ensures PieceBalanced(TextPiece(requested, text))
  {
    if requested && text != "" {
      OneWord(Text(text), []);
    }
  }

  lemma FrontPartBalanced(q: QuerySet, parts: Parts)
    requires QueryPlain(q)
    ensures PieceBalanced(FrontPart(q, parts))
  {
    TablesPieceBalanced(q, []);
    TablesPieceBalanced(q, [Kw(FromKw)]);
    ConditionPiecesBalanced(q);
    var t := When(parts.tables, TablesPiece(q, []));
    var f := When(parts.from, TablesPiece(q, [Kw(FromKw)]));
    var w := When(parts.where, WherePiece(q));
    WhenBalanced(parts.tables, TablesPiece(q, []));
    WhenBalanced(parts.from, TablesPiece(q, [Kw(FromKw)]));
    WhenBalanced(parts.where, WherePiece(q));
    CatBalanced(f, w);
    CatBalanced(t, Cat(f, w));
  }

  lemma BackPartBalanced(q: QuerySet, parts: Parts)
    requires QueryPlain(q)
    ensures PieceBalanced(BackPart(q, parts))
  {
    ConditionPiecesBalanced(q);
    var g := TextPiece(parts.group, q.groupBy);
    var h := When(parts.having, HavingPiece(q));
    var o := TextPiece(parts.order, q.orderBy);
    var l := TextPiece(parts.limit, q.limit);
    TextPieceBalanced(parts.group, q.groupBy);
    WhenBalanced(parts.having, HavingPiece(q));
    TextPieceBalanced(parts.order, q.orderBy);
    TextPieceBalanced(parts.limit, q.limit);
    CatBalanced(o, l);
    CatBalanced(h, Cat(o, l));
    CatBalanced(g, Cat(h, Cat(o, l)));
  }

  /** Whatever clauses are asked for, `_join_sql_part` of a query that keeps
      the invariant binds one value per `%s` it writes. */
  lemma JoinSqlPartBalanced(q: QuerySet, parts: Parts)
    requires QueryPlain(q)
    ensures PieceBalanced(JoinSqlPart(q, parts))
  {
    FrontPartBalanced(q, parts);
    BackPartBalanced(q, parts);
    CatBalanced(FrontPart(q, parts), BackPart(q, parts));
  }

  // ---------------------------------------------------------------------
  // Statements

  lemma ItemsPlainAppend(xs: seq<FieldItem>, ys: seq<FieldItem>)
    requires ItemsPlain(xs) && ItemsPlain(ys)
    ensures ItemsPlain(xs + ys)
  {
    forall i | 0 <= i < |xs + ys|
      ensures ItemPlain((xs + ys)[i])
    {
      if i < |xs| {
        assert (xs + ys)[i] == xs[i];
      } else {
        assert (xs + ys)[i] == ys[i - |xs|];
      }
    }
  }

  lemma SelectHeadBalanced(q: QuerySet, xs: seq<FieldItem>, distinct: bool)
    requires QueryPlain(q) && ItemsPlain(xs)
    ensures PieceBalanced(SelectHead(q, xs, distinct))
  {
    ItemsPlainAppend(xs, q.fields);
    GenFListPlain(xs + q.fields);
    OneWord(Text(GenFList(xs + q.fields)), []);
    KwBalanced(SelectKw);
    KwBalanced(DistinctKw);
    WhenBalanced(distinct, Piece([Kw(DistinctKw)], []));
    CatBalanced(When(distinct, Piece([Kw(DistinctKw)], [])), Piece([Text(GenFList(xs + q.fields))], []));
    CatBalanced(Piece([Kw(SelectKw)], []),
                Cat(When(distinct, Piece([Kw(DistinctKw)], [])), Piece([Text(GenFList(xs + q.fields))], [])));
  }

  lemma ForUpdateBalanced(forUpdate: bool)
    ensures PieceBalanced(ForUpdate(forUpdate))
  {
    KwBalanced(ForUpdateKw);
  }

  /** `select` of a query that keeps the invariant binds one value per `%s`. */
  lemma SelectBalanced(q: QuerySet, xs: seq<FieldItem>, opts: seq<(string, OptValue)>)
    requires QueryPlain(q) && ItemsPlain(xs)
    ensures Select(q, xs, opts).Ok? ==>
      Placeholders(Select(q, xs, opts).value.sql) == |Select(q, xs, opts).value.params|
  {
    if CheckOptions(opts, SelectOptions).Ok? {
      var d, f := OptOn(opts, "distinct"), OptOn(opts, "for_update");
      SelectHeadBalanced(q, xs, d);
      JoinSqlPartBalanced(q, SelectParts);
      ForUpdateBalanced(f);
      CatBalanced(SelectHead(q, xs, d), JoinSqlPart(q, SelectParts));
      CatBalanced(Cat(SelectHead(q, xs, d), JoinSqlPart(q, SelectParts)), ForUpdate(f));
      FinishBalanced(SelectPiece(q, xs, d, f));
    }
  }

  /** `select_one` of a query that keeps the invariant binds one value per `%s`. */
  lemma SelectOneBalanced(q: QuerySet, xs: seq<FieldItem>, opts: seq<(string, OptValue)>)
    requires QueryPlain(q) && ItemsPlain(xs)
    ensures SelectOne(q, xs, opts).Ok? ==>
      Placeholders(SelectOne(q, xs, opts).value.sql) == |SelectOne(q, xs, opts).value.params|
  {
    if CheckOptions(opts, SelectOptions).Ok? {
      var d, f := OptOn(opts, "distinct"), OptOn(opts, "for_update");
      var body := JoinSqlPart(q, SelectOneParts);
      var one := Piece([Kw(LimitOneKw)], []);
      SelectHeadBalanced(q, xs, d);
      JoinSqlPartBalanced(q, SelectOneParts);
      KwBalanced(LimitOneKw);
      ForUpdateBalanced(f);
      CatBalanced(SelectHead(q, xs, d), body);
      CatBalanced(Cat(SelectHead(q, xs, d), body), one);
      CatBalanced(Cat(Cat(SelectHead(q, xs, d), body), one), ForUpdate(f));
      FinishBalanced(SelectOnePiece(q, xs, d, f));
    }
  }

  lemma CountedPlain(fl: seq<FieldItem>, distinct: bool)
    requires ItemsPlain(fl)
    ensures Placeholders(Counted(fl, distinct)) == 0
  {
    GenFListPlain(fl);
    Enclosed("COUNT(DISTINCT ", GenFList(fl), ")");
    Enclosed("COUNT(", GenFList(fl), ")");
  }

  /** `count` of a query that keeps the invariant binds one value per `%s`. */
  lemma CountBalanced(q: QuerySet, xs: seq<FieldItem>, opts: seq<(string, OptValue)>)
    requires QueryPlain(q) && ItemsPlain(xs)
    ensures Count(q, xs, opts).Ok? ==>
      Placeholders(Count(q, xs, opts).value.sql) == |Count(q, xs, opts).value.params|
  {
    if CheckOptions(opts, SelectOptions).Ok? {
      var fl := if |xs| == 0 then q.countFields else xs;
      var d, f := CountDistinct(q, opts), OptOn(opts, "for_update");
      CountedPlain(fl, d);
      TwoWords(Kw(SelectKw), Text(Counted(fl, d)), []);
      JoinSqlPartBalanced(q, CountParts);
      ForUpdateBalanced(f);
      CatBalanced(JoinSqlPart(q, CountParts), ForUpdate(f));
      CatBalanced(Piece([Kw(SelectKw), Text(Counted(fl, d))], []), Cat(JoinSqlPart(q, CountParts), ForUpdate(f)));
      FinishBalanced(CountPiece(q, fl, d, f));
    }
  }

  /** `delete` of a query that keeps the invariant binds one value per `%s`. */
  lemma DeleteBalanced(q: QuerySet)
    requires QueryPlain(q)
    ensures Placeholders(Delete(q).sql) == |Delete(q).params|
  {
    KwBalanced(DeleteKw);
    JoinSqlPartBalanced(q, CountParts);
    CatBalanced(Piece([Kw(DeleteKw)], []), JoinSqlPart(q, CountParts));
    FinishBalanced(Cat(Piece([Kw(DeleteKw)], []), JoinSqlPart(q, CountParts)));
  }

  lemma UpdateHeadBalanced(q: QuerySet, ignore: bool)
    requires QueryPlain(q)
    ensures PieceBalanced(Cat(Cat(Piece([Kw(UpdateKw)], []), When(ignore, Piece([Kw(IgnoreKw)], []))),
                              JoinSqlPart(q, TablesOnly)))
  {
    KwBalanced(UpdateKw);
    KwBalanced(IgnoreKw);
    CatBalanced(Piece([Kw(UpdateKw)], []), When(ignore, Piece([Kw(IgnoreKw)], [])));
    JoinSqlPartBalanced(q, TablesOnly);
    CatBalanced(Cat(Piece([Kw(UpdateKw)], []), When(ignore, Piece([Kw(IgnoreKw)], []))), JoinSqlPart(q, TablesOnly));
  }

  lemma UpdatePieceBalanced(q: QuerySet, ps: seq<Assignment>, ignore: bool)
    requires QueryPlain(q) && AssignsPlain(ps)
    ensures PieceBalanced(UpdatePiece(q, ps, ignore))
  {
    var front := Cat(Cat(Piece([Kw(UpdateKw)], []), When(ignore, Piece([Kw(IgnoreKw)], []))),
                     JoinSqlPart(q, TablesOnly));
    var setPart := Piece([Kw(SetKw), Text(GenFvDict(ps))], AssignsParams(ps));
    UpdateHeadBalanced(q, ignore);
    JoinSqlPartBalanced(q, WhereLimit);
    GenFvDictBalanced(ps);
    TwoWords(Kw(SetKw), Text(GenFvDict(ps)), AssignsParams(ps));
    CatBalanced(front, setPart);
    CatBalanced(Cat(front, setPart), JoinSqlPart(q, WhereLimit));
  }

  /** `update` binds one value per `%s` when the query keeps the invariant
      and the assignments are placeholder-free. */
  lemma UpdateBalanced(q: QuerySet, ps: seq<Assignment>, opts: seq<(string, OptValue)>)
    requires QueryPlain(q) && AssignsPlain(ps)
    ensures Update(q, ps, opts).Ok? ==>
      Placeholders(Update(q, ps, opts).value.sql) == |Update(q, ps, opts).value.params|
  {
    if CheckOptions(opts, ["ignore"]).Ok? {
      UpdatePieceBalanced(q, ps, OptOn(opts, "ignore"));
      FinishBalanced(UpdatePiece(q, ps, OptOn(opts, "ignore")));
    }
  }

  lemma ValuesTextBalanced(xs: seq<FieldItem>, rows: seq<seq<Value>>)
    requires ItemsPlain(xs)
    ensures Placeholders(ValuesText(xs, rows)) == |Flatten(rows)|
  {
    GenFListPlain(xs);
    LiteralGlue(") VALUES ");
    PrefixedPlain("(", GenFList(xs));
    GenVListSetCount(rows);
    Glued("(" + GenFList(xs), ") VALUES ", GenVListSet(rows));
  }

  /** The update dictionary given to `on_duplicate_key_update`, if any, is
      placeholder-free. */
  predicate UpdateOptionPlain(opts: seq<(string, OptValue)>)
  {
    var v := Get(opts, "on_duplicate_key_update");
    v.Some? && v.value.Assignments? ==> AssignsPlain(v.value.pairs)
  }

  lemma InsertHeadBalanced(q: QuerySet, ignore: bool)
    requires QueryPlain(q)
    ensures PieceBalanced(Cat(Cat(Piece([Kw(InsertKw)], []),
                                  Cat(When(ignore, Piece([Kw(IgnoreKw)], [])), Piece([Kw(IntoKw)], []))),
                              JoinSqlPart(q, TablesOnly)))
  {
    var kw := Cat(When(ignore, Piece([Kw(IgnoreKw)], [])), Piece([Kw(IntoKw)], []));
    KwBalanced(InsertKw);
    KwBalanced(IgnoreKw);
    KwBalanced(IntoKw);
    CatBalanced(When(ignore, Piece([Kw(IgnoreKw)], [])), Piece([Kw(IntoKw)], []));
    CatBalanced(Piece([Kw(InsertKw)], []), kw);
    JoinSqlPartBalanced(q, TablesOnly);
    CatBalanced(Cat(Piece([Kw(InsertKw)], []), kw), JoinSqlPart(q, TablesOnly));
  }

  lemma UpdateClauseBalanced(update: seq<Assignment>)
    requires AssignsPlain(update)
    ensures PieceBalanced(When(|update| > 0, Piece([Kw(OnDuplicateKw), Text(GenFvDict(update))], AssignsParams(update))))
  {
    GenFvDictBalanced(update);
    TwoWords(Kw(OnDuplicateKw), Text(GenFvDict(update)), AssignsParams(update));
  }

  lemma InsertPieceBalanced(q: QuerySet, xs: seq<FieldItem>, rows: seq<seq<Value>>, ignore: bool, update: seq<Assignment>)
    requires QueryPlain(q) && ItemsPlain(xs) && AssignsPlain(update)
    ensures PieceBalanced(InsertPiece(q, xs, rows, ignore, update))
  {
    var front := Cat(Cat(Piece([Kw(InsertKw)], []),
                         Cat(When(ignore, Piece([Kw(IgnoreKw)], [])), Piece([Kw(IntoKw)], []))),
                     JoinSqlPart(q, TablesOnly));
    var values := Piece([Text(ValuesText(xs, rows))], Flatten(rows));
    var odku := When(|update| > 0, Piece([Kw(OnDuplicateKw), Text(GenFvDict(update))], AssignsParams(update)));
    InsertHeadBalanced(q, ignore);
    ValuesTextBalanced(xs, rows);
    OneWord(Text(ValuesText(xs, rows)), Flatten(rows));
    UpdateClauseBalanced(update);
    CatBalanced(front, values);
    CatBalanced(Cat(front, values), odku);
  }

  /** `insert_many` binds one value per `%s` when the query keeps the
      invariant and the column names and update dictionary are
      placeholder-free. */
  lemma InsertManyBalanced(q: QuerySet, xs: seq<FieldItem>, rows: seq<seq<Value>>, opts: seq<(string, OptValue)>)
    requires QueryPlain(q) && ItemsPlain(xs) && UpdateOptionPlain(opts)
    ensures InsertMany(q, xs, rows, opts).Ok? ==>
      Placeholders(InsertMany(q, xs, rows, opts).value.sql) == |InsertMany(q, xs, rows, opts).value.params|
  {
    var odku := Get(opts, "on_duplicate_key_update");
    if CheckOptions(opts, InsertOptions).Ok? && odku != Some(Flag(true)) {
      var update := if odku.Some? && odku.value.Assignments? then odku.value.pairs else [];
      InsertPieceBalanced(q, xs, rows, OptOn(opts, "ignore"), update);
      FinishBalanced(InsertPiece(q, xs, rows, OptOn(opts, "ignore"), update));
    }
  }

  /** `insert` binds one value per `%s` when the query keeps the invariant
      and the column names and update dictionary are placeholder-free. */
  lemma InsertBalanced(q: QuerySet, pairs: seq<(string, Value)>, opts: seq<(string, OptValue)>)
    requires QueryPlain(q) && UpdateOptionPlain(opts)
    requires forall i :: 0 <= i < |pairs| ==> Placeholders(pairs[i].0) == 0
    ensures Insert(q, pairs, opts).Ok? ==>
      Placeholders(Insert(q, pairs, opts).value.sql) == |Insert(q, pairs, opts).value.params|
  {
    assert ItemsPlain(Keys(pairs)) by {
      forall i | 0 <= i < |pairs|
        ensures ItemPlain(Keys(pairs)[i])
      {
        assert Keys(pairs)[i] == RawItem(pairs[i].0);
      }
    }
    InsertManyBalanced(q, Keys(pairs), [Values(pairs)], opts);
  }

  // ---------------------------------------------------------------------
  // The builder methods keep the invariant

  /** A new query over a well-formed table reference keeps the invariant. */
  lemma NewQueryPlain(t: Option<TableRef>)
    requires t.Some? ==> Tables.Plain(t.value)
    ensures QueryPlain(NewQuerySet(t))
  {
    assert ItemPlain(RawItem("*"));
  }

  /** Storing a balanced clause, alone or combined with `&` / `|` with a
      balanced stored one, leaves a balanced clause. */
  lemma StoredClauseBalanced(stored: Option<Clause>, c: Clause)
    requires stored.Some? ==> ClauseBalanced(stored.value)
    requires ClauseBalanced(c)
    ensures ClauseBalanced(AndInto(stored, c).value)
    ensures ClauseBalanced(OrInto(stored, c).value)
  {
    if stored.Some? {
      BuildBalancedStep(stored.value, c);
    }
  }

  /** `where`, `or_where`, `having` and `or_having` with a balanced clause
      keep the invariant. */
  lemma ConditionsKeepPlain(q: QuerySet, c: Clause)
    requires QueryPlain(q) && ClauseBalanced(c)
    ensures QueryPlain(Where(q, c)) && QueryPlain(OrWhere(q, c))
    ensures QueryPlain(Having(q, c)) && QueryPlain(OrHaving(q, c))
  {
    StoredClauseBalanced(q.wheres, c);
    StoredClauseBalanced(q.havings, c);
  }

  /** `group_by` with placeholder-free fields keeps the invariant. */
  lemma GroupByKeepsPlain(q: QuerySet, xs: seq<FieldItem>)
    requires QueryPlain(q) && ItemsPlain(xs)
    ensures QueryPlain(GroupBy(q, xs))
  {
    GenFListPlain(xs);
    PrefixedPlain("GROUP BY ", GenFList(xs));
  }

  /** Opening or extending an ORDER BY text with placeholder-free items
      leaves it placeholder-free. */
  lemma AppendOrderPlain(current: string, xs: seq<FieldItem>, direct: string)
    requires Placeholders(current) == 0 && ItemsPlain(xs) && (direct == "ASC" || direct == "DESC")
    ensures Placeholders(AppendOrder(current, xs, direct)) == 0
  {
    GenOrderByPlain(xs, direct);
    if current == "" {
      PrefixedPlain("ORDER BY ", GenOrderByList(xs, direct));
    } else {
      CommaGlue();
      Glued(current, ", ", GenOrderByList(xs, direct));
    }
  }

  /** `order_by` with placeholder-free fields keeps the invariant. */
  lemma OrderByKeepsPlain(q: QuerySet, xs: seq<FieldItem>, opts: seq<(string, OptValue)>)
    requires QueryPlain(q) && ItemsPlain(xs)
    ensures OrderBy(q, xs, opts).Ok? ==> QueryPlain(OrderBy(q, xs, opts).value)
  {
    AppendOrderPlain(q.orderBy, xs, if OptOn(opts, "desc") then "DESC" else "ASC");
  }

  /** `limit` keeps the invariant: its text is digits and signs only. */
  lemma LimitKeepsPlain(q: QuerySet, offset: int, limit: int)
    requires QueryPlain(q)
    ensures QueryPlain(Limit(q, offset, limit))
  {
    LimitTextPlain(offset, limit);
  }

  /** `"LIMIT %u, %u"` holds digits and signs only. */
  lemma LimitTextPlain(offset: int, limit: int)
    ensures Placeholders(LimitText(offset, limit)) == 0
  {
    IntToStringPlaceholders(offset);
    IntToStringPlaceholders(limit);
    PrefixedPlain("LIMIT ", IntToString(offset));
    CommaGlue();
    Glued("LIMIT " + IntToString(offset), ", ", IntToString(limit));
  }

  /** `on` with a balanced clause keeps the invariant. */
  lemma QueryOnKeepsPlain(q: QuerySet, c: Clause)
    requires QueryPlain(q) && ClauseBalanced(c)
    ensures QueryOn(q, c).Ok? ==> QueryPlain(QueryOn(q, c).value)
  {
    if QueryOn(q, c).Ok? {
      OnKeepsPlain(q.tables.value, c);
    }
  }
}

=== FILE: query_relations.dfy ===
/**
  How the `QuerySet` statements relate to each other: `select_one` is
  `select` with the first row as its limit, a grouped `count` counts the
  distinct groups, and each statement writes its clauses in one fixed order.
 */
module QueryRelations {
  import opened Outcomes
  import opened SqlText
  import opened Conditions
  import opened ConditionSets
  import opened Options
  import opened Tables
  import opened Keywords
  import opened Queries

  lemma {:induction false} WordsSqlAppend(a: seq<Word>, b: seq<Word>)
    ensures WordsSql(a + b) == WordsSql(a) + WordsSql(b)
    decreases |a|
  {
    if |a| == 0 {
      assert a + b == b;
    } else {
      assert (a + b)[1..] == a[1..] + b;
      WordsSqlAppend(a[1..], b);
    }
  }

  /** Two word lists that differ in one word with the same text render alike. */
  lemma SameTextSwap(a: seq<Word>, x: Word, y: Word, b: seq<Word>)
    requires WordSql(x) == WordSql(y)
    ensures WordsSql(a + [x] + b) == WordsSql(a + [y] + b)
  {
    WordsSqlAppend(a + [x], b);
    WordsSqlAppend(a, [x]);
    WordsSqlAppend(a + [y], b);
    WordsSqlAppend(a, [y]);
  }

  /** Asking `_join_sql_part` for the limit of a query whose limit is
      `LIMIT 0, 1` appends that text to the clauses before it. */
  lemma FirstRowBack(q: QuerySet)
    ensures BackPart(q.(limit := "LIMIT 0, 1"), SelectParts).words
         == BackPart(q, SelectOneParts).words + [Text("LIMIT 0, 1")]
    ensures BackPart(q.(limit := "LIMIT 0, 1"), SelectParts).params
         == BackPart(q, SelectOneParts).params
  {
    var g := TextPiece(true, q.groupBy);
    var h := When(true, HavingPiece(q));
    var o := TextPiece(true, q.orderBy);
    var t := [Text("LIMIT 0, 1")];
    assert BackPart(q, SelectOneParts).words == g.words + (h.words + (o.words + []));
    assert BackPart(q.(limit := "LIMIT 0, 1"), SelectParts).words == g.words + (h.words + (o.words + t));
    assert g.words + (h.words + (o.words + t)) == g.words + (h.words + (o.words + [])) + t;
  }

  lemma FirstRowPart(q: QuerySet)
    ensures JoinSqlPart(q.(limit := "LIMIT 0, 1"), SelectParts).words
         == JoinSqlPart(q, SelectOneParts).words + [Text("LIMIT 0, 1")]
    ensures JoinSqlPart(q.(limit := "LIMIT 0, 1"), SelectParts).params
         == JoinSqlPart(q, SelectOneParts).params
  {
    var front := FrontPart(q, SelectOneParts);
    assert FrontPart(q.(limit := "LIMIT 0, 1"), SelectParts) == front;
    FirstRowBack(q);
    var back := BackPart(q, SelectOneParts);
    assert front.words + (back.words + [Text("LIMIT 0, 1")]) == front.words + back.words + [Text("LIMIT 0, 1")];
  }

  /** The words of `select_one`: the head and clauses, `LIMIT 0, 1`, then
      FOR UPDATE if asked. */
  lemma SelectOneWords(q: QuerySet, xs: seq<FieldItem>, d: bool, f: bool)
    ensures SelectOnePiece(q, xs, d, f).words
         == SelectHead(q, xs, d).words + JoinSqlPart(q, SelectOneParts).words + [Kw(LimitOneKw)] + ForUpdate(f).words
  {
  }

  /** The words of `select` on the query with limit `LIMIT 0, 1`. */
  lemma FirstRowWords(q: QuerySet, xs: seq<FieldItem>, d: bool, f: bool)
    ensures SelectPiece(q.(limit := "LIMIT 0, 1"), xs, d, f).words
         == SelectHead(q, xs, d).words + JoinSqlPart(q, SelectOneParts).words + [Text("LIMIT 0, 1")] + ForUpdate(f).words
    ensures SelectPiece(q.(limit := "LIMIT 0, 1"), xs, d, f).params == SelectOnePiece(q, xs, d, f).params
  {
    var q1 := q.(limit := "LIMIT 0, 1");
    assert SelectHead(q1, xs, d) == SelectHead(q, xs, d);
    FirstRowPart(q);
    var h, b := SelectHead(q, xs, d).words, JoinSqlPart(q, SelectOneParts).words;
    assert h + (b + [Text("LIMIT 0, 1")]) == h + b + [Text("LIMIT 0, 1")];
  }

  /** The pieces of `select_one` and of `select` with limit `LIMIT 0, 1`
      render to the same words and bind the same values. */
  lemma FirstRowPiece(q: QuerySet, xs: seq<FieldItem>, d: bool, f: bool)
    ensures WordsSql(SelectOnePiece(q, xs, d, f).words)
         == WordsSql(SelectPiece(q.(limit := "LIMIT 0, 1"), xs, d, f).words)
    ensures SelectOnePiece(q, xs, d, f).params == SelectPiece(q.(limit := "LIMIT 0, 1"), xs, d, f).params
  {
    SelectOneWords(q, xs, d, f);
    FirstRowWords(q, xs, d, f);
    SameTextSwap(SelectHead(q, xs, d).words + JoinSqlPart(q, SelectOneParts).words,
                 Kw(LimitOneKw), Text("LIMIT 0, 1"), ForUpdate(f).words);
  }

  /** `select_one` is `select` with its limit replaced by `LIMIT 0, 1`. */
  lemma SelectOneIsFirstRow(q: QuerySet, xs: seq<FieldItem>, opts: seq<(string, OptValue)>)
    ensures SelectOne(q, xs, opts) == Select(q.(limit := "LIMIT 0, 1"), xs, opts)
  {
    if CheckOptions(opts, SelectOptions).Ok? {
      FirstRowPiece(q, xs, OptOn(opts, "distinct"), OptOn(opts, "for_update"));
    }
  }

  /** After `group_by(g)` with fields, `count()` is `count(*g, distinct=True)`
      on the ungrouped query: GROUP BY itself is not part of the count. */
  lemma GroupedCountIsDistinct(q: QuerySet, g: seq<FieldItem>)
    requires |g| > 0
    ensures Count(GroupBy(q, g), [], []) == Count(q, g, [("distinct", Flag(true))])
  {
    var q1 := GroupBy(q, g);
    var opts := [("distinct", Flag(true))];
    assert CheckOptions(opts, SelectOptions).Ok?;
    assert CountDistinct(q, opts);
    assert !OptOn(opts, "for_update");
    assert JoinSqlPart(q1, CountParts) == JoinSqlPart(q, CountParts);
  }

  /** Words present only when `cond` holds. */
  function Opt(cond: bool, words: seq<string>): seq<string>
  {
    if cond then words else []
  }

  /** A clause that prints only when its text is set. */
  function IfSet(text: string): seq<string>
  {
    if text != "" then [text] else []
  }

  function FromWords(q: QuerySet): seq<string>
  {
    if q.tables.Some? then ["FROM", Sql(q.tables.value)] else []
  }

  function WhereWords(q: QuerySet): seq<string>
  {
    if q.wheres.Some? then ["WHERE", ClauseSql(q.wheres.value)] else []
  }

  function HavingWords(q: QuerySet): seq<string>
  {
    if q.havings.Some? then ["HAVING", ClauseSql(q.havings.value)] else []
  }

  lemma HeadWords(q: QuerySet, xs: seq<FieldItem>, d: bool)
    ensures WordsSql(SelectHead(q, xs, d).words) == ["SELECT"] + Opt(d, ["DISTINCT"]) + [GenFList(xs + q.fields)]
  {
    var dw := When(d, Piece([Kw(DistinctKw)], [])).words;
    WordsSqlAppend([Kw(SelectKw)], dw + [Text(GenFList(xs + q.fields))]);
    WordsSqlAppend(dw, [Text(GenFList(xs + q.fields))]);
  }

  lemma FrontPieceWords(q: QuerySet)
    ensures WordsSql(TablesPiece(q, [Kw(FromKw)]).words) == FromWords(q)
    ensures WordsSql(WherePiece(q).words) == WhereWords(q)
  {
  }

  lemma FrontWords(q: QuerySet)
    ensures WordsSql(FrontPart(q, SelectParts).words) == FromWords(q) + WhereWords(q)
  {
    var f := TablesPiece(q, [Kw(FromKw)]).words;
    var w := WherePiece(q).words;
    assert FrontPart(q, SelectParts).words == f + w;
    WordsSqlAppend(f, w);
    FrontPieceWords(q);
  }

  lemma TextWords(requested: bool, text: string)
    ensures WordsSql(TextPiece(requested, text).words) == Opt(requested, IfSet(text))
  {
  }

  lemma HavingPieceWords(q: QuerySet)
    ensures WordsSql(HavingPiece(q).words) == HavingWords(q)
  {
  }

  lemma BackWords(q: QuerySet)
    ensures WordsSql(BackPart(q, SelectParts).words)
         == IfSet(q.groupBy) + (HavingWords(q) + (IfSet(q.orderBy) + IfSet(q.limit)))
  {
    var g := TextPiece(true, q.groupBy).words;
    var h := HavingPiece(q).words;
    var o := TextPiece(true, q.orderBy).words;
    var l := TextPiece(true, q.limit).words;
    assert BackPart(q, SelectParts).words == g + (h + (o + l));
    WordsSqlAppend(g, h + (o + l));
    WordsSqlAppend(h, o + l);
    WordsSqlAppend(o, l);
    TextWords(true, q.groupBy);
    TextWords(true, q.orderBy);
    TextWords(true, q.limit);
    HavingPieceWords(q);
  }

  /** The words of `select`, clause by clause: SELECT, DISTINCT when asked,
      the fields, then FROM, WHERE, GROUP BY, HAVING, ORDER BY and LIMIT in
      that order, each only when set, and FOR UPDATE last when asked. */
  function SelectWords(q: QuerySet, xs: seq<FieldItem>, distinct: bool, forUpdate: bool): seq<string>
  {
    ["SELECT"] + Opt(distinct, ["DISTINCT"]) + [GenFList(xs + q.fields)]
    + FromWords(q) + WhereWords(q)
    + IfSet(q.groupBy) + HavingWords(q) + IfSet(q.orderBy) + IfSet(q.limit)
    + Opt(forUpdate, ["FOR UPDATE"])
  }

  lemma Regroup(a1: seq<string>, a2: seq<string>, a3: seq<string>, b1: seq<string>, b2: seq<string>,
                c1: seq<string>, c2: seq<string>, c3: seq<string>, c4: seq<string>, d: seq<string>)
    ensures a1 + a2 + a3 + b1 + b2 + c1 + c2 + c3 + c4 + d
         == (a1 + a2 + a3) + ((b1 + b2) + (c1 + (c2 + (c3 + c4)))) + d
  {
  }

  lemma SelectPieceShape(q: QuerySet, xs: seq<FieldItem>, d: bool, f: bool)
    ensures SelectPiece(q, xs, d, f).words
         == SelectHead(q, xs, d).words + (FrontPart(q, SelectParts).words + BackPart(q, SelectParts).words)
            + ForUpdate(f).words
  {
  }

  lemma SelectWordsFrom(head: seq<Word>, front: seq<Word>, back: seq<Word>, tail: seq<Word>,
                        q: QuerySet, xs: seq<FieldItem>, d: bool, f: bool)
    requires WordsSql(head) == ["SELECT"] + Opt(d, ["DISTINCT"]) + [GenFList(xs + q.fields)]
    requires WordsSql(front) == FromWords(q) + WhereWords(q)
    requires WordsSql(back) == IfSet(q.groupBy) + (HavingWords(q) + (IfSet(q.orderBy) + IfSet(q.limit)))
    requires WordsSql(tail) == Opt(f, ["FOR UPDATE"])
    ensures WordsSql(head + (front + back) + tail) == SelectWords(q, xs, d, f)
  {
    WordsSqlAppend(head + (front + back), tail);
    WordsSqlAppend(head, front + back);
    WordsSqlAppend(front, back);
    Regroup(["SELECT"], Opt(d, ["DISTINCT"]), [GenFList(xs + q.fields)], FromWords(q), WhereWords(q),
            IfSet(q.groupBy), HavingWords(q), IfSet(q.orderBy), IfSet(q.limit), Opt(f, ["FOR UPDATE"]));
  }

  lemma SelectPieceWords(q: QuerySet, xs: seq<FieldItem>, d: bool, f: bool)
    ensures WordsSql(SelectPiece(q, xs, d, f).words) == SelectWords(q, xs, d, f)
  {
    SelectPieceShape(q, xs, d, f);
    HeadWords(q, xs, d);
    FrontWords(q);
    BackWords(q);
    ForUpdateWords(f);
    SelectWordsFrom(SelectHead(q, xs, d).words, FrontPart(q, SelectParts).words, BackPart(q, SelectParts).words,
                    ForUpdate(f).words, q, xs, d, f);
  }

  /** `select` renders exactly the words of `SelectWords`, joined by spaces. */
  lemma SelectClauseOrder(q: QuerySet, xs: seq<FieldItem>, opts: seq<(string, OptValue)>)
    requires CheckOptions(opts, SelectOptions).Ok?
    ensures Select(q, xs, opts).Ok?
    ensures Select(q, xs, opts).value.sql
         == Join(SelectWords(q, xs, OptOn(opts, "distinct"), OptOn(opts, "for_update")), " ")
  {
    SelectPieceWords(q, xs, OptOn(opts, "distinct"), OptOn(opts, "for_update"));
  }

  /** The table reference on its own, as `insert_many` and `update` print it. */
  function TableWords(q: QuerySet): seq<string>
  {
    if q.tables.Some? then [Sql(q.tables.value)] else []
  }

  lemma CountFront(q: QuerySet)
    ensures WordsSql(JoinSqlPart(q, CountParts).words) == FromWords(q) + WhereWords(q)
  {
    assert FrontPart(q, CountParts) == FrontPart(q, SelectParts);
    assert BackPart(q, CountParts).words == [];
    assert JoinSqlPart(q, CountParts).words == FrontPart(q, SelectParts).words;
    FrontWords(q);
  }

  lemma TablesOnlyWords(q: QuerySet)
    ensures WordsSql(JoinSqlPart(q, TablesOnly).words) == TableWords(q)
  {
    assert JoinSqlPart(q, TablesOnly).words == TablesPiece(q, []).words;
  }

  lemma WhereLimitWords(q: QuerySet)
    ensures WordsSql(JoinSqlPart(q, WhereLimit).words) == WhereWords(q) + IfSet(q.limit)
  {
    var w := WherePiece(q).words;
    var l := TextPiece(true, q.limit).words;
    assert JoinSqlPart(q, WhereLimit).words == w + l;
    WordsSqlAppend(w, l);
    FrontPieceWords(q);
    TextWords(true, q.limit);
  }

  /** The words of `count`: SELECT and the counted fields, FROM and WHERE
      when set, FOR UPDATE when asked; never GROUP BY, HAVING, ORDER BY or
      LIMIT. */
  function CountWords(q: QuerySet, fl: seq<FieldItem>, distinct: bool, forUpdate: bool): seq<string>
  {
    ["SELECT", Counted(fl, distinct)] + FromWords(q) + WhereWords(q) + Opt(forUpdate, ["FOR UPDATE"])
  }

  /** Concatenation is associative; stated over abstract sequences so that
      callers need not prove it among the facts about rendering. */
  lemma Assoc(x: seq<string>, y: seq<string>, z: seq<string>)
    ensures x + (y + z) == (x + y) + z
  {
  }

  /** Rendering distributes over a three-way or four-way concatenation. */
  lemma WordsSql3(a: seq<Word>, b: seq<Word>, c: seq<Word>, sa: seq<string>, sb: seq<string>, sc: seq<string>)
    requires WordsSql(a) == sa && WordsSql(b) == sb && WordsSql(c) == sc
    ensures WordsSql(a + (b + c)) == sa + sb + sc
  {
    WordsSqlAppend(a, b + c);
    WordsSqlAppend(b, c);
    Assoc(sa, sb, sc);
  }

  lemma WordsSql3Left(a: seq<Word>, b: seq<Word>, c: seq<Word>, sa: seq<string>, sb: seq<string>, sc: seq<string>)
    requires WordsSql(a) == sa && WordsSql(b) == sb && WordsSql(c) == sc
    ensures WordsSql((a + b) + c) == sa + sb + sc
  {
    WordsSqlAppend(a + b, c);
    WordsSqlAppend(a, b);
  }

  lemma WordsSql4(a: seq<Word>, b: seq<Word>, c: seq<Word>, d: seq<Word>,
                  sa: seq<string>, sb: seq<string>, sc: seq<string>, sd: seq<string>)
    requires WordsSql(a) == sa && WordsSql(b) == sb && WordsSql(c) == sc && WordsSql(d) == sd
    ensures WordsSql(((a + b) + c) + d) == sa + sb + sc + sd
  {
    WordsSqlAppend((a + b) + c, d);
    WordsSql3Left(a, b, c, sa, sb, sc);
  }

  lemma PairWords(x: Word, y: Word)
    ensures WordsSql([x, y]) == [WordSql(x), WordSql(y)]
  {
    assert [x, y][1..] == [y];
  }

  /** A keyword followed by a text renders as the keyword's text and the text. */
  lemma KeywordTextWords(k: Keyword, t: string)
    ensures WordsSql([Kw(k), Text(t)]) == [KeywordText(k), t]
  {
    PairWords(Kw(k), Text(t));
  }

  lemma ForUpdateWords(f: bool)
    ensures WordsSql(ForUpdate(f).words) == Opt(f, ["FOR UPDATE"])
  {
  }

  lemma IgnoreWords(ignore: bool)
    ensures WordsSql(When(ignore, Piece([Kw(IgnoreKw)], [])).words) == Opt(ignore, ["IGNORE"])
  {
  }

  lemma CountPieceShape(q: QuerySet, fl: seq<FieldItem>, d: bool, f: bool)
    ensures CountPiece(q, fl, d, f).words
         == [Kw(SelectKw), Text(Counted(fl, d))] + (JoinSqlPart(q, CountParts).words + ForUpdate(f).words)
  {
  }

  lemma CountShapeWords(q: QuerySet, fl: seq<FieldItem>, d: bool, f: bool)
    ensures WordsSql([Kw(SelectKw), Text(Counted(fl, d))] + (JoinSqlPart(q, CountParts).words + ForUpdate(f).words))
         == CountWords(q, fl, d, f)
  {
    KeywordTextWords(SelectKw, Counted(fl, d));
    CountFront(q);
    ForUpdateWords(f);
    WordsSql3([Kw(SelectKw), Text(Counted(fl, d))], JoinSqlPart(q, CountParts).words, ForUpdate(f).words,
              ["SELECT", Counted(fl, d)], FromWords(q) + WhereWords(q), Opt(f, ["FOR UPDATE"]));
    Assoc(["SELECT", Counted(fl, d)], FromWords(q), WhereWords(q));
  }

  lemma CountPieceWords(q: QuerySet, fl: seq<FieldItem>, d: bool, f: bool)
    ensures WordsSql(CountPiece(q, fl, d, f).words) == CountWords(q, fl, d, f)
  {
    CountPieceShape(q, fl, d, f);
    CountShapeWords(q, fl, d, f);
  }

  /** `count` renders exactly the words of `CountWords`: the given fields, or
      the query's count fields when none are given, counted distinct as
      `CountDistinct` decides. */
  lemma CountClauseOrder(q: QuerySet, xs: seq<FieldItem>, opts: seq<(string, OptValue)>)
    requires CheckOptions(opts, SelectOptions).Ok?
    ensures Count(q, xs, opts).Ok?
    ensures Count(q, xs, opts).value.sql
         == Join(CountWords(q, if |xs| == 0 then q.countFields else xs, CountDistinct(q, opts), OptOn(opts, "for_update")), " ")
  {
    CountPieceWords(q, if |xs| == 0 then q.countFields else xs, CountDistinct(q, opts), OptOn(opts, "for_update"));
  }

  /** The words of `delete`: DELETE, then FROM and WHERE when set. */
  function DeleteWords(q: QuerySet): seq<string>
  {
    ["DELETE"] + FromWords(q) + WhereWords(q)
  }

  lemma DeleteClauseOrder(q: QuerySet)
    ensures Delete(q).sql == Join(DeleteWords(q), " ")
  {
    var body := JoinSqlPart(q, CountParts).words;
    assert Delete(q).sql == Join(WordsSql([Kw(DeleteKw)] + body), " ");
    WordsSqlAppend([Kw(DeleteKw)], body);
    CountFront(q);
    Assoc(["DELETE"], FromWords(q), WhereWords(q));
  }

  /** The words of `insert_many`: INSERT, IGNORE when asked, INTO, the table
      reference, `(<fields>) VALUES <rows>`, and the ON DUPLICATE KEY UPDATE
      assignments when there are any. */
  function InsertWords(q: QuerySet, xs: seq<FieldItem>, rows: seq<seq<Value>>, ignore: bool, update: seq<Assignment>)
    : seq<string>
  {
    ["INSERT"] + Opt(ignore, ["IGNORE"]) + ["INTO"] + TableWords(q)
    + ["(" + GenFList(xs) + ") VALUES " + GenVListSet(rows)]
    + Opt(|update| > 0, ["ON DUPLICATE KEY UPDATE", GenFvDict(update)])
  }

  lemma InsertHeadWords(ignore: bool)
    ensures WordsSql([Kw(InsertKw)] + (When(ignore, Piece([Kw(IgnoreKw)], [])).words + [Kw(IntoKw)]))
         == ["INSERT"] + Opt(ignore, ["IGNORE"]) + ["INTO"]
  {
    IgnoreWords(ignore);
    WordsSql3([Kw(InsertKw)], When(ignore, Piece([Kw(IgnoreKw)], [])).words, [Kw(IntoKw)],
              ["INSERT"], Opt(ignore, ["IGNORE"]), ["INTO"]);
  }

  /** A piece kept only when a condition holds renders only when it holds. */
  lemma WhenWords(c: bool, p: Piece, words: seq<string>)
    requires WordsSql(p.words) == words
    ensures WordsSql(When(c, p).words) == Opt(c, words)
  {
  }

  lemma OnDuplicateWords(update: seq<Assignment>)
    ensures WordsSql(When(|update| > 0, Piece([Kw(OnDuplicateKw), Text(GenFvDict(update))], AssignsParams(update))).words)
         == Opt(|update| > 0, ["ON DUPLICATE KEY UPDATE", GenFvDict(update)])
  {
    var text := GenFvDict(update);
    KeywordTextWords(OnDuplicateKw, text);
    WhenWords(|update| > 0, Piece([Kw(OnDuplicateKw), Text(text)], AssignsParams(update)), ["ON DUPLICATE KEY UPDATE", text]);
  }

  lemma InsertPieceWords(q: QuerySet, xs: seq<FieldItem>, rows: seq<seq<Value>>, ignore: bool, update: seq<Assignment>)
    ensures WordsSql(InsertPiece(q, xs, rows, ignore, update).words) == InsertWords(q, xs, rows, ignore, update)
  {
    var head := [Kw(InsertKw)] + (When(ignore, Piece([Kw(IgnoreKw)], [])).words + [Kw(IntoKw)]);
    var tp := JoinSqlPart(q, TablesOnly).words;
    var values := [Text(ValuesText(xs, rows))];
    var odku := When(|update| > 0, Piece([Kw(OnDuplicateKw), Text(GenFvDict(update))], AssignsParams(update))).words;
    assert InsertPiece(q, xs, rows, ignore, update).words == ((head + tp) + values) + odku;
    InsertHeadWords(ignore);
    TablesOnlyWords(q);
    OnDuplicateWords(update);
    assert WordsSql(values) == ["(" + GenFList(xs) + ") VALUES " + GenVListSet(rows)];
    WordsSql4(head, tp, values, odku, ["INSERT"] + Opt(ignore, ["IGNORE"]) + ["INTO"], TableWords(q),
              ["(" + GenFList(xs) + ") VALUES " + GenVListSet(rows)],
              Opt(|update| > 0, ["ON DUPLICATE KEY UPDATE", GenFvDict(update)]));
  }

  /** The assignments `insert_many` appends: those of a dictionary option,
      none when the option is absent or false. */
  function UpdateDict(o: Option<OptValue>): seq<Assignment>
  {
    if o.Some? && o.value.Assignments? then o.value.pairs else []
  }

  /** `insert_many` renders exactly the words of `InsertWords`. */
  lemma InsertManyClauseOrder(q: QuerySet, xs: seq<FieldItem>, rows: seq<seq<Value>>, opts: seq<(string, OptValue)>)
    requires CheckOptions(opts, InsertOptions).Ok?
    requires Get(opts, "on_duplicate_key_update") != Some(Flag(true))
    ensures InsertMany(q, xs, rows, opts).Ok?
    ensures InsertMany(q, xs, rows, opts).value.sql
         == Join(InsertWords(q, xs, rows, OptOn(opts, "ignore"), UpdateDict(Get(opts, "on_duplicate_key_update"))), " ")
  {
    InsertPieceWords(q, xs, rows, OptOn(opts, "ignore"), UpdateDict(Get(opts, "on_duplicate_key_update")));
  }

  /** `insert` renders the words of `insert_many` with the dictionary's keys
      as the fields and its values as the one row. */
  lemma InsertClauseOrder(q: QuerySet, pairs: seq<(string, Value)>, opts: seq<(string, OptValue)>)
    requires CheckOptions(opts, InsertOptions).Ok?
    requires Get(opts, "on_duplicate_key_update") != Some(Flag(true))
    ensures Insert(q, pairs, opts).Ok?
    ensures Insert(q, pairs, opts).value.sql
         == Join(InsertWords(q, Keys(pairs), [Values(pairs)], OptOn(opts, "ignore"),
                             UpdateDict(Get(opts, "on_duplicate_key_update"))), " ")
  {
    InsertManyClauseOrder(q, Keys(pairs), [Values(pairs)], opts);
  }

  /** The words of `update`: UPDATE, IGNORE when asked, the table reference,
      SET and the assignments, then WHERE and LIMIT when set. */
  function UpdateWords(q: QuerySet, ps: seq<Assignment>, ignore: bool): seq<string>
  {
    ["UPDATE"] + Opt(ignore, ["IGNORE"]) + TableWords(q) + ["SET", GenFvDict(ps)] + WhereWords(q) + IfSet(q.limit)
  }

  lemma UpdateHeadWords(ignore: bool)
    ensures WordsSql([Kw(UpdateKw)] + When(ignore, Piece([Kw(IgnoreKw)], [])).words) == ["UPDATE"] + Opt(ignore, ["IGNORE"])
  {
    IgnoreWords(ignore);
    WordsSqlAppend([Kw(UpdateKw)], When(ignore, Piece([Kw(IgnoreKw)], [])).words);
  }

  lemma UpdatePieceShape(q: QuerySet, ps: seq<Assignment>, ignore: bool)
    ensures UpdatePiece(q, ps, ignore).words
         == (([Kw(UpdateKw)] + When(ignore, Piece([Kw(IgnoreKw)], [])).words + JoinSqlPart(q, TablesOnly).words)
             + [Kw(SetKw), Text(GenFvDict(ps))]) + JoinSqlPart(q, WhereLimit).words
  {
  }

  lemma UpdatePieceWords(q: QuerySet, ps: seq<Assignment>, ignore: bool)
    ensures WordsSql(UpdatePiece(q, ps, ignore).words) == UpdateWords(q, ps, ignore)
  {
    UpdatePieceShape(q, ps, ignore);
    UpdateShapeWords(q, ps, ignore);
  }

  lemma SetWords(ps: seq<Assignment>)
    ensures WordsSql([Kw(SetKw), Text(GenFvDict(ps))]) == ["SET", GenFvDict(ps)]
  {
    KeywordTextWords(SetKw, GenFvDict(ps));
  }

  lemma UpdateShapeWords(q: QuerySet, ps: seq<Assignment>, ignore: bool)
    ensures WordsSql((([Kw(UpdateKw)] + When(ignore, Piece([Kw(IgnoreKw)], [])).words + JoinSqlPart(q, TablesOnly).words)
                      + [Kw(SetKw), Text(GenFvDict(ps))]) + JoinSqlPart(q, WhereLimit).words)
         == UpdateWords(q, ps, ignore)
  {
    var head := [Kw(UpdateKw)] + When(ignore, Piece([Kw(IgnoreKw)], [])).words;
    var setWords := [Kw(SetKw), Text(GenFvDict(ps))];
    UpdateHeadWords(ignore);
    TablesOnlyWords(q);
    WhereLimitWords(q);
    SetWords(ps);
    UpdateWordsFrom(head, JoinSqlPart(q, TablesOnly).words, setWords, JoinSqlPart(q, WhereLimit).words, q, ps, ignore);
  }

  lemma UpdateWordsFrom(head: seq<Word>, tp: seq<Word>, setWords: seq<Word>, wp: seq<Word>,
                        q: QuerySet, ps: seq<Assignment>, ignore: bool)
    requires WordsSql(head) == ["UPDATE"] + Opt(ignore, ["IGNORE"])
    requires WordsSql(tp) == TableWords(q)
    requires WordsSql(setWords) == ["SET", GenFvDict(ps)]
    requires WordsSql(wp) == WhereWords(q) + IfSet(q.limit)
    ensures WordsSql(((head + tp) + setWords) + wp) == UpdateWords(q, ps, ignore)
  {
    var front := ["UPDATE"] + Opt(ignore, ["IGNORE"]) + TableWords(q) + ["SET", GenFvDict(ps)];
    WordsSql4(head, tp, setWords, wp, ["UPDATE"] + Opt(ignore, ["IGNORE"]), TableWords(q), ["SET", GenFvDict(ps)],
              WhereWords(q) + IfSet(q.limit));
    Assoc(front, WhereWords(q), IfSet(q.limit));
  }

  /** `update` renders exactly the words of `UpdateWords`. */
  lemma UpdateClauseOrder(q: QuerySet, ps: seq<Assignment>, opts: seq<(string, OptValue)>)
    requires CheckOptions(opts, ["ignore"]).Ok?
    ensures Update(q, ps, opts).Ok?
    ensures Update(q, ps, opts).value.sql == Join(UpdateWords(q, ps, OptOn(opts, "ignore")), " ")
  {
    UpdatePieceWords(q, ps, OptOn(opts, "ignore"));
  }
}

=== FILE: sql_text.dfy ===
/**
  Text-level helpers shared by every SQL builder: counting `%s` placeholders,
  Python's `sep.join(items)`, and decimal rendering of integers.
 */
module SqlText {

  /** The number of `%s` placeholder tokens in `s`. Two occurrences of `%s`
      can never overlap, so counting start positions is exact. */
  function Placeholders(s: string): nat
    decreases |s|
  {
    if |s| < 2 then 0
    else (if s[0] == '%' && s[1] == 's' then 1 else 0) + Placeholders(s[1..])
  }

  /** A placeholder can straddle the seam of `a + b` only when `a` ends with
      `%` and `b` starts with `s`. */
  function Seam(a: string, b: string): nat
  {
    if |a| > 0 && |b| > 0 && a[|a| - 1] == '%' && b[0] == 's' then 1 else 0
  }

  /** Counting placeholders distributes over concatenation, up to the seam. */
  lemma {:induction false} PlaceholdersConcat(a: string, b: string)
    ensures Placeholders(a + b) == Placeholders(a) + Placeholders(b) + Seam(a, b)
    decreases |a|
  {
    if |a| == 0 {
      assert a + b == b;
    } else if |a| == 1 {
      if |b| == 0 {
        assert a + b == a;
      } else {
        assert (a + b)[1..] == b;
      }
    } else {
      assert (a + b)[1..] == a[1..] + b;
      PlaceholdersConcat(a[1..], b);
      assert Seam(a[1..], b) == Seam(a, b);
    }
  }

  /** A literal fragment the builders place between user fragments: it holds
      no placeholder and cannot complete one with either neighbour. */
  predicate Glue(g: string)
  {
    |g| > 0 && g[0] != 's' && g[|g| - 1] != '%' && Placeholders(g) == 0
  }

  /** Gluing two fragments together adds no placeholder. */
  lemma Glued(a: string, g: string, b: string)
    requires Glue(g)
    ensures Placeholders(a + g + b) == Placeholders(a) + Placeholders(b)
  {
    PlaceholdersConcat(a, g);
    PlaceholdersConcat(a + g, b);
  }

  /** Wrapping in parentheses adds no placeholder. */
  lemma Parenthesized(a: string)
    ensures Placeholders("(" + a + ")") == Placeholders(a)
  {
    PlaceholdersConcat("(", a);
    PlaceholdersConcat("(" + a, ")");
  }

  /** Python's `sep.join(items)`. */
  function Join(items: seq<string>, sep: string): string
  {
    if |items| == 0 then ""
    else if |items| == 1 then items[0]
    else items[0] + sep + Join(items[1..], sep)
  }

  lemma JoinPair(x: string, y: string, sep: string)
    ensures Join([x, y], sep) == x + sep + y
  {
    assert [x, y][1..] == [y];
  }

  lemma JoinFour(w: string, x: string, y: string, z: string, sep: string)
    ensures Join([w, x, y, z], sep) == w + sep + x + sep + y + sep + z
  {
    assert [w, x, y, z] == [w, x] + [y, z];
    JoinAppend([w, x], [y, z], sep);
    JoinPair(w, x, sep);
    JoinPair(y, z, sep);
  }

  /** Joining two non-empty lists one after the other puts one separator
      between them. */
  lemma {:induction false} JoinAppend(a: seq<string>, b: seq<string>, sep: string)
    requires |a| > 0 && |b| > 0
    ensures Join(a + b, sep) == Join(a, sep) + sep + Join(b, sep)
    decreases |a|
  {
    assert (a + b)[0] == a[0];
    if |a| > 1 {
      assert (a + b)[1..] == a[1..] + b;
      JoinAppend(a[1..], b, sep);
    } else {
      assert (a + b)[1..] == b;
    }
  }

  /** Sum of the placeholder counts of a list of fragments. */
  function SumPlaceholders(items: seq<string>): nat
  {
    if |items| == 0 then 0 else Placeholders(items[0]) + SumPlaceholders(items[1..])
  }

  lemma SumPlaceholdersAppend(xs: seq<string>, ys: seq<string>)
    ensures SumPlaceholders(xs + ys) == SumPlaceholders(xs) + SumPlaceholders(ys)
  {
    if |xs| == 0 {
      assert xs + ys == ys;
    } else {
      assert (xs + ys)[1..] == xs[1..] + ys;
      SumPlaceholdersAppend(xs[1..], ys);
    }
  }

  lemma SumPlaceholdersPair(x: string, y: string)
    ensures SumPlaceholders([x]) == Placeholders(x)
    ensures SumPlaceholders([x, y]) == Placeholders(x) + Placeholders(y)
  {
    assert [x][1..] == [];
    assert [x, y][1..] == [y];
    assert [y][1..] == [];
  }

  /** Joining with a glue separator contributes exactly the items' placeholders. */
  lemma {:induction false} JoinPlaceholders(items: seq<string>, sep: string)
    requires Glue(sep)
    ensures Placeholders(Join(items, sep)) == SumPlaceholders(items)
    decreases |items|
  {
    if |items| == 0 {
    } else if |items| == 1 {
      assert SumPlaceholders(items[1..]) == 0;
    } else {
      JoinPlaceholders(items[1..], sep);
      Glued(items[0], sep, Join(items[1..], sep));
    }
  }

  /** The list `["%s", ..., "%s"]` of length `n`. */
  function Markers(n: nat): (r: seq<string>)
    ensures |r| == n
    ensures forall i :: 0 <= i < n ==> r[i] == "%s"
  {
    if n == 0 then [] else ["%s"] + Markers(n - 1)
  }

  lemma MarkersCount(n: nat)
    ensures SumPlaceholders(Markers(n)) == n
  {
    if n > 0 {
      assert Markers(n)[1..] == Markers(n - 1);
    }
  }

  /** Decimal digits of a natural number, most significant first. */
  function NatToString(n: nat): (r: string)
    ensures |r| > 0
    ensures forall i :: 0 <= i < |r| ==> '0' <= r[i] <= '9'
    decreases n
  {
    var d := ['0' + (n % 10) as char];
    if n < 10 then d else NatToString(n / 10) + d
  }

  /** Python's `"%u" % n` for an integer `n` (a minus sign for negatives). */
  function IntToString(n: int): (r: string)
    ensures |r| > 0
    ensures n >= 0 <==> r[0] != '-'
  {
    if n >= 0 then NatToString(n) else "-" + NatToString(-n)
  }

  /** The number a string of decimal digits denotes, read left to right. */
  function DigitsValue(s: string): nat
  {
    if |s| == 0 then 0
    else
      var d := s[|s| - 1] as int - '0' as int;
      10 * DigitsValue(s[..|s| - 1]) + (if 0 <= d then d else 0)
  }

  /** The integer a numeral with an optional leading minus denotes. */
  function IntOf(s: string): int
  {
    if |s| > 0 && s[0] == '-' then -(DigitsValue(s[1..]) as int) else DigitsValue(s)
  }

  /** Reading the digits of `n` back gives `n`. */
  lemma {:induction false} DigitsValueNatToString(n: nat)
    ensures DigitsValue(NatToString(n)) == n
    decreases n
  {
    var d := ['0' + (n % 10) as char];
    if n >= 10 {
      DigitsValueNatToString(n / 10);
      var t := NatToString(n / 10) + d;
      assert t[..|t| - 1] == NatToString(n / 10);
    }
  }

  /** `IntOf` inverts `IntToString`. */
  lemma IntOfIntToString(n: int)
    ensures IntOf(IntToString(n)) == n
  {
    if n >= 0 {
      DigitsValueNatToString(n);
    } else {
      DigitsValueNatToString(-n);
      assert IntToString(n)[1..] == NatToString(-n);
    }
  }

  /** Text without a `%` character. */
  predicate NoPercent(s: string)
  {
    '%' !in s
  }

  /** Text without a `%` holds no placeholder. */
  lemma {:induction false} NoPercentPlaceholders(s: string)
    requires NoPercent(s)
    ensures Placeholders(s) == 0
    decreases |s|
  {
    if |s| >= 2 {
      NoPercentPlaceholders(s[1..]);
    }
  }

  /** A literal without `%` that does not start with `s` is glue. */
  lemma LiteralGlue(g: string)
    requires |g| > 0 && g[0] != 's' && NoPercent(g)
    ensures Glue(g)
  {
    NoPercentPlaceholders(g);
  }

  /** Digits and a minus sign hold no placeholder. */
  lemma IntToStringPlaceholders(n: int)
    ensures Placeholders(IntToString(n)) == 0
  {
    var r := IntToString(n);
    if n < 0 {
      assert r[1..] == NatToString(-n);
      assert forall i :: 1 <= i < |r| ==> r[i] == r[1..][i - 1];
    }
    NoPercentPlaceholders(r);
  }
}

=== FILE: tables.dfy ===
/**
  `Table` and `TableSet` (sqlbuilder/smartsql/__init__.py): a table with an
  optional alias, and a flat chain of joined tables. A joined element carries
  its join keyword (`JOIN` for `*`, `LEFT JOIN` for `+`) and an optional ON
  clause; a chain joined into another chain is rendered in parentheses.
  The Python builders mutate the joined objects in place; here they return
  the updated value.
 */
module Tables {
  import opened Outcomes
  import opened SqlText
  import opened Identifiers
  import opened Conditions
  import opened ConditionSets

  /** A table reference. `join` is `""` for the head of a chain. */
  datatype TableRef =
    | Table(name: string, alias: string, join: string, on: Option<Clause>)
    | TableSet(items: seq<TableRef>, join: string, on: Option<Clause>)

  /** `MetaTable.__getattr__` followed by `Table(name, alias)`. */
  function TableNamed(key: string): (r: Result<TableRef>)
    ensures r.Ok? <==> |key| > 0 && key[0] != '_'
    ensures r.Ok? ==> r.value.Table? && r.value.join == "" && r.value.on.None?
    ensures r.Ok? ==> key == r.value.name || key == r.value.name + "__" + r.value.alias
    ensures r.Ok? ==> NoSep(r.value.name)
  {
    var k :- ParseTableKey(key);
    Ok(Table(k.name, k.alias, "", None))
  }

  /** The ` ON (...)` tail of a joined element. */
  function OnParts(on: Option<Clause>): seq<string>
  {
    if on.Some? then ["ON", "(" + ClauseSql(on.value) + ")"] else []
  }

  function OnParams(on: Option<Clause>): seq<Value>
  {
    if on.Some? then ClauseParams(on.value) else []
  }

  /** `Table.__sqlrepr__` and `TableSet.__sqlrepr__`. */
  function Sql(t: TableRef): string
    decreases t, 1
  {
    match t
    case Table(name, alias, join, on) =>
      Join((if join != "" then [join] else []) + [name]
           + (if alias != "" then ["AS", alias] else []) + OnParts(on), " ")
    case TableSet(items, join, on) =>
      var inner := Join(SqlList(items), " ");
      Join((if join != "" then [join, "(" + inner + ")"] else [inner]) + OnParts(on), " ")
  }

  function SqlList(ts: seq<TableRef>): (r: seq<string>)
    ensures |r| == |ts|
    decreases ts, 0
  {
    if |ts| == 0 then [] else [Sql(ts[0])] + SqlList(ts[1..])
  }

  /** `Table.__params__` and `TableSet.__params__` as written: a chain collects
      the values of its elements but not those of its own ON clause. */
  function ParamsAsWritten(t: TableRef): seq<Value>
    decreases t, 1
  {
    match t
    case Table(_, _, _, on) => OnParams(on)
    case TableSet(items, _, _) => ParamsListAsWritten(items)
  }

  function ParamsListAsWritten(ts: seq<TableRef>): seq<Value>
    decreases ts, 0
  {
    if |ts| == 0 then [] else ParamsAsWritten(ts[0]) + ParamsListAsWritten(ts[1..])
  }

  /** The values of a table reference in the order of its text, including the
      ON clause of a nested chain. */
  function Params(t: TableRef): seq<Value>
    decreases t, 1
  {
    match t
    case Table(_, _, _, on) => OnParams(on)
    case TableSet(items, _, on) => ParamsList(items) + OnParams(on)
  }

  function ParamsList(ts: seq<TableRef>): seq<Value>
    decreases ts, 0
  {
    if |ts| == 0 then [] else Params(ts[0]) + ParamsList(ts[1..])
  }

  /** The elements a reference contributes to a chain it starts. */
  function Head(t: TableRef): seq<TableRef>
  {
    if t.TableSet? then t.items else [t]
  }

  /** `_add_join(join_type, obj)`: a table starts a new chain (`TableSet(self)`);
      a chain is extended in place. */
  function AddJoin(left: TableRef, joinType: string, obj: TableRef): (r: TableRef)
    ensures r.TableSet? && r.items == Head(left) + [obj.(join := joinType)]
    ensures left.TableSet? ==> r.join == left.join && r.on == left.on
    ensures left.Table? ==> r.join == "" && r.on.None?
  {
    if left.TableSet? then left.(items := left.items + [obj.(join := joinType)])
    else TableSet([left, obj.(join := joinType)], "", None)
  }

  /** `*`: an inner join. */
  function InnerJoin(left: TableRef, obj: TableRef): (r: TableRef)
    ensures r.TableSet? && |r.items| == |Head(left)| + 1
    ensures r.items[|r.items| - 1].join == "JOIN"
    ensures r.items == Head(left) + [obj.(join := "JOIN")]
    ensures left.TableSet? ==> r.join == left.join && r.on == left.on
  {
    AddJoin(left, "JOIN", obj)
  }

  /** `+`: a left join. */
  function LeftJoin(left: TableRef, obj: TableRef): (r: TableRef)
    ensures r.TableSet? && |r.items| == |Head(left)| + 1
    ensures r.items[|r.items| - 1].join == "LEFT JOIN"
    ensures r.items == Head(left) + [obj.(join := "LEFT JOIN")]
    ensures left.TableSet? ==> r.join == left.join && r.on == left.on
  {
    AddJoin(left, "LEFT JOIN", obj)
  }

  /** `TableSet.on(c)`: the ON clause goes to the most recently joined element,
      replacing any it had; nothing else changes. */
  function On(ts: TableRef, c: Clause): (r: TableRef)
    requires ts.TableSet? && |ts.items| > 0
    ensures r.TableSet? && |r.items| == |ts.items| && r.join == ts.join && r.on == ts.on
    ensures r.items[|r.items| - 1] == ts.items[|ts.items| - 1].(on := Some(c))
    ensures forall i :: 0 <= i < |ts.items| - 1 ==> r.items[i] == ts.items[i]
  {
    var last := |ts.items| - 1;
    ts.(items := ts.items[last := ts.items[last].(on := Some(c))])
  }

  /** `(T.a * T.b).on(c)` renders `a JOIN b ON (<c>)` and binds the values of
      `c`; `+` writes `LEFT JOIN` in the same place. */
  lemma JoinOnText(a: string, b: string, left: bool, c: Clause)
    ensures var t := On(if left then LeftJoin(Table(a, "", "", None), Table(b, "", "", None))
                        else InnerJoin(Table(a, "", "", None), Table(b, "", "", None)), c);
            && Sql(t) == a + " " + (if left then "LEFT JOIN" else "JOIN") + " " + b + " ON (" + ClauseSql(c) + ")"
            && Params(t) == ClauseParams(c)
  {
    var join := if left then "LEFT JOIN" else "JOIN";
    var x, y := Table(a, "", "", None), Table(b, "", join, Some(c));
    var built := if left then LeftJoin(Table(a, "", "", None), Table(b, "", "", None))
                 else InnerJoin(Table(a, "", "", None), Table(b, "", "", None));
    assert built == TableSet([x, Table(b, "", join, None)], "", None);
    assert On(built, c) == TableSet([x, y], "", None);
    SingleWordJoin(a);
    JoinedOnSql(b, join, c);
    ChainOfTwo(x, y);
  }

  lemma SingleWordJoin(a: string)
    ensures Join([a], " ") == a
  {
  }

  /** A joined table without alias: `<join> <name> ON (<c>)`. */
  lemma JoinedOnSql(b: string, join: string, c: Clause)
    requires join != ""
    ensures Sql(Table(b, "", join, Some(c))) == join + " " + b + " ON (" + ClauseSql(c) + ")"
    ensures Params(Table(b, "", join, Some(c))) == ClauseParams(c)
  {
    var on := "(" + ClauseSql(c) + ")";
    assert [join] + [b] + [] + ["ON", on] == [join, b, "ON", on];
    JoinFour(join, b, "ON", on, " ");
  }

  /** A chain of two elements: their texts joined by a space, their values in order. */
  lemma ChainOfTwo(x: TableRef, y: TableRef)
    ensures Sql(TableSet([x, y], "", None)) == Sql(x) + " " + Sql(y)
    ensures Params(TableSet([x, y], "", None)) == Params(x) + Params(y)
  {
    assert [x, y][1..] == [y] && [y][1..] == [];
    assert SqlList([x, y]) == [Sql(x), Sql(y)];
    JoinPair(Sql(x), Sql(y), " ");
    var inner := Sql(x) + " " + Sql(y);
    assert [inner] + [] == [inner];
    SingleWordJoin(inner);
    assert ParamsList([y]) == Params(y) + ParamsList([]);
    assert ParamsList([x, y]) == Params(x) + ParamsList([y]);
  }

  /** Well-formed chains: built by the join operators from tables whose
      names hold no `%s`, with balanced ON clauses. */
  predicate Plain(t: TableRef)
    decreases t, 1
  {
    && (t.join == "" || t.join == "JOIN" || t.join == "LEFT JOIN")
    && (t.on.Some? ==> ClauseBalanced(t.on.value))
    && match t
       case Table(name, alias, _, _) => Placeholders(name) == 0 && Placeholders(alias) == 0
       case TableSet(items, _, _) => PlainList(items)
  }

  predicate PlainList(ts: seq<TableRef>)
    decreases ts, 0
  {
    |ts| == 0 || (Plain(ts[0]) && PlainList(ts[1..]))
  }

  lemma SpaceGlue()
    ensures Glue(" ")
  {
    LiteralGlue(" ");
  }

  lemma KeywordsPlain()
    ensures Placeholders("JOIN") == 0 && Placeholders("LEFT JOIN") == 0
    ensures Placeholders("AS") == 0 && Placeholders("ON") == 0
  {
    NoPercentPlaceholders("JOIN");
    NoPercentPlaceholders("LEFT JOIN");
    NoPercentPlaceholders("AS");
    NoPercentPlaceholders("ON");
  }

  lemma OnPartsBalanced(on: Option<Clause>)
    requires on.Some? ==> ClauseBalanced(on.value)
    ensures SumPlaceholders(OnParts(on)) == |OnParams(on)|
  {
    KeywordsPlain();
    if on.Some? {
      Parenthesized(ClauseSql(on.value));
      SumPlaceholdersPair("ON", "(" + ClauseSql(on.value) + ")");
    }
  }

  lemma JoinPrefixPlain(join: string)
    requires join == "" || join == "JOIN" || join == "LEFT JOIN"
    ensures SumPlaceholders(if join != "" then [join] else []) == 0
  {
    KeywordsPlain();
    if join != "" {
      SumPlaceholdersPair(join, join);
    }
  }

  lemma AliasPlain(alias: string)
    requires Placeholders(alias) == 0
    ensures SumPlaceholders(if alias != "" then ["AS", alias] else []) == 0
  {
    KeywordsPlain();
    SumPlaceholdersPair("AS", alias);
  }

  /** With the values of nested ON clauses counted, a chain keeps one `%s`
      per bound value. */
  lemma {:induction false} TableBalanced(t: TableRef)
    requires Plain(t)
    ensures Placeholders(Sql(t)) == |Params(t)|
    decreases t, 1
  {
    match t
    case Table(name, alias, join, on) =>
      SingleTableBalanced(t);
    case TableSet(items, join, on) =>
      ListBalanced(items);
      ChainBalanced(t);
  }

  lemma SingleTableBalanced(t: TableRef)
    requires t.Table? && Plain(t)
    ensures Placeholders(Sql(t)) == |Params(t)|
  {
    SpaceGlue();
    OnPartsBalanced(t.on);
    var a := if t.join != "" then [t.join] else [];
    var b := if t.alias != "" then ["AS", t.alias] else [];
    JoinPrefixPlain(t.join);
    AliasPlain(t.alias);
    SumPlaceholdersPair(t.name, t.name);
    SumPlaceholdersAppend(a, [t.name]);
    SumPlaceholdersAppend(a + [t.name], b);
    SumPlaceholdersAppend(a + [t.name] + b, OnParts(t.on));
    JoinPlaceholders(a + [t.name] + b + OnParts(t.on), " ");
  }

  lemma ChainBalanced(t: TableRef)
    requires t.TableSet? && Plain(t)
    requires SumPlaceholders(SqlList(t.items)) == |ParamsList(t.items)|
    ensures Placeholders(Sql(t)) == |Params(t)|
  {
    SpaceGlue();
    JoinPrefixPlain(t.join);
    OnPartsBalanced(t.on);
    var inner := Join(SqlList(t.items), " ");
    JoinPlaceholders(SqlList(t.items), " ");
    Parenthesized(inner);
    var head := if t.join != "" then [t.join, "(" + inner + ")"] else [inner];
    SumPlaceholdersPair(t.join, "(" + inner + ")");
    SumPlaceholdersPair(inner, inner);
    assert SumPlaceholders(head) == Placeholders(inner);
    SumPlaceholdersAppend(head, OnParts(t.on));
    JoinPlaceholders(head + OnParts(t.on), " ");
  }

  lemma {:induction false} ListBalanced(ts: seq<TableRef>)
    requires PlainList(ts)
    ensures SumPlaceholders(SqlList(ts)) == |ParamsList(ts)|
    decreases ts, 0
  {
    if |ts| > 0 {
      TableBalanced(ts[0]);
      ListBalanced(ts[1..]);
      assert SqlList(ts)[1..] == SqlList(ts[1..]);
    }
  }

  /** The join operators and `on` keep a chain well formed. */
  lemma JoinKeepsPlain(left: TableRef, joinType: string, obj: TableRef)
    requires Plain(left) && Plain(obj)
    requires joinType == "JOIN" || joinType == "LEFT JOIN"
    ensures Plain(AddJoin(left, joinType, obj))
  {
    var o := obj.(join := joinType);
    assert Plain(o);
    assert PlainList([o]) by {
      assert [o][1..] == [];
    }
    if left.TableSet? {
      PlainListAppend(left.items, [o]);
    } else {
      assert [left, o][1..] == [o];
    }
  }

  lemma OnKeepsPlain(ts: TableRef, c: Clause)
    requires ts.TableSet? && |ts.items| > 0 && Plain(ts) && ClauseBalanced(c)
    ensures Plain(On(ts, c))
  {
    var last := |ts.items| - 1;
    PlainListSplit(ts.items, last);
    var x := ts.items[last].(on := Some(c));
    assert Plain(x);
    var r := On(ts, c);
    assert r.items == ts.items[..last] + [x];
    assert PlainList([x]) by {
      assert [x][1..] == [];
    }
    PlainListAppend(ts.items[..last], [x]);
  }

  lemma PlainListAppend(xs: seq<TableRef>, ys: seq<TableRef>)
    requires PlainList(xs) && PlainList(ys)
    ensures PlainList(xs + ys)
  {
    if |xs| > 0 {
      assert (xs + ys)[1..] == xs[1..] + ys;
      PlainListAppend(xs[1..], ys);
    } else {
      assert xs + ys == ys;
    }
  }

  lemma PlainListSplit(xs: seq<TableRef>, k: nat)
    requires PlainList(xs) && k < |xs|
    ensures PlainList(xs[..k]) && Plain(xs[k])
  {
    if k > 0 {
      PlainListSplit(xs[1..], k - 1);
      assert xs[..k][1..] == xs[1..][..k - 1];
    }
  }

  /** `a * (b * c)` with `.on(x = %s)` bound to 1: the ON clause lands on the
      nested chain. */
  function NestedExample(): TableRef
  {
    On(InnerJoin(Table("a", "", "", None), InnerJoin(Table("b", "", "", None), Table("c", "", "", None))),
       CondClause(Condition("x = %s", [IntValue(1)])))
  }

  lemma NestedExampleShape()
    ensures NestedExample() == TableSet([Table("a", "", "", None),
      TableSet([Table("b", "", "", None), Table("c", "", "JOIN", None)], "JOIN",
               Some(CondClause(Condition("x = %s", [IntValue(1)]))))], "", None)
  {
  }

  lemma NestedExamplePlain()
    ensures Plain(NestedExample())
  {
    NestedExampleShape();
    var t := NestedExample();
    var nested := t.items[1];
    assert "x = %s"[1..] == " = %s" && " = %s"[1..] == "= %s";
    assert "= %s"[1..] == " %s" && " %s"[1..] == "%s" && "%s"[1..] == "s";
    assert Placeholders("x = %s") == 1;
    assert PlainList(nested.items) by {
      assert nested.items[1..][1..] == [];
    }
    assert PlainList(t.items) by {
      assert t.items[1..][1..] == [];
    }
  }

  lemma NestedExampleParams()
    ensures ParamsAsWritten(NestedExample()) == []
    ensures Params(NestedExample()) == [IntValue(1)]
  {
    NestedExampleShape();
    var t := NestedExample();
    var nested := t.items[1];
    assert nested.items[1..][1..] == [];
    assert ParamsList(nested.items) == [];
    assert ParamsListAsWritten(nested.items) == [];
    assert t.items[1..][1..] == [];
  }

  /** No chain in the reference has an ON clause that binds values. */
  predicate ChainOnsUnbound(t: TableRef)
    decreases t, 1
  {
    match t
    case Table(_, _, _, _) => true
    case TableSet(items, _, on) => OnParams(on) == [] && ChainOnsUnboundList(items)
  }

  predicate ChainOnsUnboundList(ts: seq<TableRef>)
    decreases ts, 0
  {
    |ts| == 0 || (ChainOnsUnbound(ts[0]) && ChainOnsUnboundList(ts[1..]))
  }

  /** `__params__` as written binds the values `Params` binds exactly when no
      chain's ON clause has values; otherwise it binds fewer. */
  lemma {:induction false} ParamsAgree(t: TableRef)
    ensures ChainOnsUnbound(t) ==> ParamsAsWritten(t) == Params(t)
    ensures !ChainOnsUnbound(t) ==> |ParamsAsWritten(t)| < |Params(t)|
    decreases t, 1
  {
    match t
    case Table(_, _, _, _) =>
    case TableSet(items, _, on) =>
      ParamsListAgree(items);
  }

  lemma {:induction false} ParamsListAgree(ts: seq<TableRef>)
    ensures ChainOnsUnboundList(ts) ==> ParamsListAsWritten(ts) == ParamsList(ts)
    ensures !ChainOnsUnboundList(ts) ==> |ParamsListAsWritten(ts)| < |ParamsList(ts)|
    ensures |ParamsListAsWritten(ts)| <= |ParamsList(ts)|
    decreases ts, 0
  {
    if |ts| > 0 {
      ParamsAgree(ts[0]);
      ParamsListAgree(ts[1..]);
    }
  }

  /** A chain nested on the right of a join with a one-value ON clause renders
      `a JOIN (b JOIN c) ON (x = %s)`, whose one placeholder the written
      `__params__` leaves unbound; `Params` binds it. */
  lemma NestedOnValuesDropped()
    ensures Placeholders(Sql(NestedExample())) == 1
    ensures ParamsAsWritten(NestedExample()) == []
    ensures Params(NestedExample()) == [IntValue(1)]
  {
    NestedExamplePlain();
    NestedExampleParams();
    TableBalanced(NestedExample());
  }
}

=== FILE: tuple_values.dfy ===
/**
  Condition values held in a Python tuple (sqlbuilder/smartsql/__init__.py).
  `Expr(sql, *params)` keeps its values as the tuple `params`. A comparison
  with an `Expr` passes that tuple to the `Condition` it builds, and
  `Condition.__init__` keeps it unless it is empty. `ConditionSet._init`
  copies the reference. The set combinators later call `extend` or `insert`
  on the set's values, and a tuple has neither.

  `ConditionSets` models the values as lists throughout, which is what the
  combinators evidently expect. This module follows the tuple flag beside
  those clauses and shows where the code as written raises
  `AttributeError` instead.
 */
module TupleValues {
  import opened Outcomes
  import opened Identifiers
  import opened Conditions
  import opened ConditionSets

  /** A clause, and whether its `_params` is a Python tuple. */
  datatype Held = Held(clause: Clause, isTuple: bool)

  /** The comparison as written: its values are a tuple exactly when they
      came from an `Expr` operand that has some. */
  function CompareAsWritten(f: Field, op: CompareOp, x: Operand): (r: Result<Held>)
    ensures r.Ok? <==> Compare(f, op, x).Ok?
    ensures r.Ok? ==> r.value.clause == CondClause(Compare(f, op, x).value)
    ensures r.Ok? ==> (r.value.isTuple <==> x.ExprOperand? && |x.expr.params| > 0)
  {
    match Compare(f, op, x)
    case Ok(c) => Ok(Held(CondClause(c), x.ExprOperand? && |x.expr.params| > 0))
    case Err(e) => Err(e)
  }

  /** `_and(c)` / `_or(c)` on a set whose values are a tuple when `ts`: an
      empty set takes the clause with its values (`_init`); otherwise
      `self._params.extend` is looked up on the tuple and fails. */
  function ExtendAsWritten(s: ConditionSet, ts: bool, c: Held, combined: ConditionSet): (r: Result<Held>)
  {
    if s.EmptySet? then Ok(Held(SetClause(combined), c.isTuple))
    else if ts then Err(AttributeError)
    else Ok(Held(SetClause(combined), false))
  }

  /** `_rand(c)` / `_ror(c)`: `_pre_extend` calls `insert` on the set's
      values once per value of `c`, so a tuple fails only when `c` has
      values; with none, the set keeps its tuple. */
  function PreExtendAsWritten(s: ConditionSet, ts: bool, c: Condition, cTuple: bool, combined: ConditionSet)
    : (r: Result<Held>)
  {
    if s.EmptySet? then Ok(Held(SetClause(combined), cTuple))
    else if ts && |c.params| > 0 then Err(AttributeError)
    else Ok(Held(SetClause(combined), ts))
  }

  /** Python's `x & y` as written. A condition on the left first becomes a
      set holding its own values (`ConditionSet(self)`), unless the right
      operand is a set, whose `__rand__` runs instead. */
  function PyAndAsWritten(x: Held, y: Held): (r: Result<Held>)
  {
    match x.clause
    case CondClause(c) =>
      if y.clause.SetClause? then PreExtendAsWritten(y.clause.conds, y.isTuple, c, x.isTuple, PyAnd(x.clause, y.clause))
      else ExtendAsWritten(Init(x.clause), x.isTuple, y, PyAnd(x.clause, y.clause))
    case SetClause(s) => ExtendAsWritten(s, x.isTuple, y, PyAnd(x.clause, y.clause))
  }

  /** Python's `x | y` as written. */
  function PyOrAsWritten(x: Held, y: Held): (r: Result<Held>)
  {
    match x.clause
    case CondClause(c) =>
      if y.clause.SetClause? then PreExtendAsWritten(y.clause.conds, y.isTuple, c, x.isTuple, PyOr(x.clause, y.clause))
      else ExtendAsWritten(Init(x.clause), x.isTuple, y, PyOr(x.clause, y.clause))
    case SetClause(s) => ExtendAsWritten(s, x.isTuple, y, PyOr(x.clause, y.clause))
  }

  /** The set whose values `&` and `|` extend: the right operand when a
      condition meets a set, otherwise the left one. */
  function Receiver(x: Held, y: Held): Held
  {
    if x.clause.CondClause? && y.clause.SetClause? then y else x
  }

  predicate ReceiverNonEmpty(x: Held, y: Held)
  {
    var h := Receiver(x, y);
    !(h.clause.SetClause? && h.clause.conds.EmptySet?)
  }

  /** The code as written fails exactly when the set receiving the values
      holds a tuple and is not empty (and, for `__rand__`/`__ror__`, the
      condition brings values to insert). When it does not fail, it
      produces the set the list-valued model produces. */
  lemma AsWrittenFailsOnTuples(x: Held, y: Held)
    ensures var r := PyAndAsWritten(x, y);
            (r.Err? <==> Receiver(x, y).isTuple && ReceiverNonEmpty(x, y)
                         && (x.clause.CondClause? && y.clause.SetClause? ==> |x.clause.cond.params| > 0))
            && (r.Err? ==> r.error == AttributeError)
            && (r.Ok? ==> r.value.clause == SetClause(PyAnd(x.clause, y.clause)))
    ensures var r := PyOrAsWritten(x, y);
            (r.Err? <==> Receiver(x, y).isTuple && ReceiverNonEmpty(x, y)
                         && (x.clause.CondClause? && y.clause.SetClause? ==> |x.clause.cond.params| > 0))
            && (r.Err? ==> r.error == AttributeError)
            && (r.Ok? ==> r.value.clause == SetClause(PyOr(x.clause, y.clause)))
  {
  }

  /** `(F.a > E("b + %s", 1)) & (F.c == 2)` and the same with `|` raise
      `AttributeError` as written, where the list-valued model binds 1 then 2. */
  lemma ExprOnLeftFails()
    ensures var x := CompareAsWritten(Field("a", "", ""), Gt, ExprOperand(Expr("b + %s", [IntValue(1)])));
            var y := CompareAsWritten(Field("c", "", ""), Eq, Plain(IntValue(2)));
            && x.Ok? && y.Ok? && x.value.isTuple
            && PyAndAsWritten(x.value, y.value) == Err(AttributeError)
            && PyOrAsWritten(x.value, y.value) == Err(AttributeError)
            && SetParams(PyAnd(x.value.clause, y.value.clause)) == [IntValue(1), IntValue(2)]
  {
  }

  /** With lists, a comparison against an `Expr` combines like any other
      condition: anded or ored with a condition on its right it binds the
      expression's values then the condition's, and the result keeps one
      `%s` per value. */
  lemma ExprValuesCombine(f: Field, op: CompareOp, e: Expr, d: Condition)
    requires PlainField(f) && ExprBalanced(e) && Balanced(d)
    ensures Compare(f, op, ExprOperand(e)).Ok?
    ensures var x := CondClause(Compare(f, op, ExprOperand(e)).value);
            && SetParams(PyAnd(x, CondClause(d))) == e.params + d.params
            && SetParams(PyOr(x, CondClause(d))) == e.params + d.params
            && SetBalanced(PyAnd(x, CondClause(d))) && SetBalanced(PyOr(x, CondClause(d)))
  {
    var x := CondClause(Compare(f, op, ExprOperand(e)).value);
    CompareBalanced(f, op, ExprOperand(e));
    BuildBalancedStep(x, CondClause(d));
  }
}

=== FILE: unions.dfy ===
/**
  `UnionPart` and `UnionQuerySet` (sqlbuilder/smartsql/__init__.py): rendered
  SELECT statements combined with UNION DISTINCT (`*`) and UNION ALL (`+`),
  each part in parentheses, followed by an optional ORDER BY and LIMIT.
 */
module Unions {
  import opened Outcomes
  import opened SqlText
  import opened Conditions
  import opened Options
  import opened Keywords
  import opened Queries
  import opened QueryProperties
  import opened QueryRelations

  /** A rendered statement used as one side of a union. */
  datatype UnionPart = UnionPart(sql: string, params: seq<Value>)

  /** The right operand of `*` / `+`: a union part, or any other object. */
  datatype UnionOperand = PartOperand(part: UnionPart) | OtherOperand

  /** An entry of `_union_part_list`: the union keyword (none for the first
      part) and the part. */
  datatype Entry = Entry(op: Option<Keyword>, part: UnionPart)

  /** A `UnionQuerySet`. Empty strings stand for the `None` of an unset clause. */
  datatype UnionQuerySet = UnionQuerySet(entries: seq<Entry>, orderBy: string, limit: string)

  /** `select_for_union(*f_list)`: the statement of `select` with no options. */
  function SelectForUnion(q: QuerySet, xs: seq<FieldItem>): (r: UnionPart)
    ensures Select(q, xs, []) == Ok(Statement(r.sql, r.params))
  {
    var s := Select(q, xs, []);
    assert CheckOptions<OptValue>([], SelectOptions).Ok?;
    UnionPart(s.value.sql, s.value.params)
  }

  /** `UnionQuerySet(up)`: one part, no ORDER BY, no LIMIT. */
  function Start(up: UnionPart): (u: UnionQuerySet)
    ensures u.entries == [Entry(None, up)] && u.orderBy == "" && u.limit == ""
  {
    UnionQuerySet([Entry(None, up)], "", "")
  }

  /** Appends a part under a union keyword; anything but a union part is refused. */
  function Append(u: UnionQuerySet, op: Keyword, x: UnionOperand): (r: Result<UnionQuerySet>)
    ensures x.OtherOperand? <==> r == Err(TypeError)
    ensures x.PartOperand? ==> r == Ok(u.(entries := u.entries + [Entry(Some(op), x.part)]))
  {
    match x
    case PartOperand(p) => Ok(u.(entries := u.entries + [Entry(Some(op), p)]))
    case OtherOperand => Err(TypeError)
  }

  /** `UnionQuerySet * up`: UNION DISTINCT. */
  function Distinct(u: UnionQuerySet, x: UnionOperand): (r: Result<UnionQuerySet>)
    ensures x.OtherOperand? <==> r == Err(TypeError)
    ensures r.Ok? ==> r.value.entries == u.entries + [Entry(Some(UnionDistinctKw), x.part)]
    ensures r.Ok? ==> r.value.orderBy == u.orderBy && r.value.limit == u.limit
  {
    Append(u, UnionDistinctKw, x)
  }

  /** `UnionQuerySet + up`: UNION ALL. */
  function All(u: UnionQuerySet, x: UnionOperand): (r: Result<UnionQuerySet>)
    ensures x.OtherOperand? <==> r == Err(TypeError)
    ensures r.Ok? ==> r.value.entries == u.entries + [Entry(Some(UnionAllKw), x.part)]
    ensures r.Ok? ==> r.value.orderBy == u.orderBy && r.value.limit == u.limit
  {
    Append(u, UnionAllKw, x)
  }

  /** `UnionPart * up`: a union of the two parts, or TypeError. */
  function PartDistinct(a: UnionPart, x: UnionOperand): (r: Result<UnionQuerySet>)
    ensures x.OtherOperand? <==> r.Err?
    ensures x.OtherOperand? ==> r == Err(TypeError)
    ensures r.Ok? ==> r.value == UnionQuerySet([Entry(None, a), Entry(Some(UnionDistinctKw), x.part)], "", "")
  {
    Distinct(Start(a), x)
  }

  /** `UnionPart + up`: a union of the two parts, or TypeError. */
  function PartAll(a: UnionPart, x: UnionOperand): (r: Result<UnionQuerySet>)
    ensures x.OtherOperand? <==> r.Err?
    ensures x.OtherOperand? ==> r == Err(TypeError)
    ensures r.Ok? ==> r.value == UnionQuerySet([Entry(None, a), Entry(Some(UnionAllKw), x.part)], "", "")
  {
    All(Start(a), x)
  }

  /** `order_by(*f_list, desc=...)`, as for a `QuerySet`. */
  function UnionOrderBy(u: UnionQuerySet, xs: seq<FieldItem>, opts: seq<(string, OptValue)>)
    : (r: Result<UnionQuerySet>)
    ensures r.Ok? <==> CheckOptions(opts, ["desc"]).Ok?
    ensures r.Err? ==> r == Err(CheckOptions(opts, ["desc"]).error)
    ensures r.Ok? ==> r.value == u.(orderBy := AppendOrder(u.orderBy, xs, if OptOn(opts, "desc") then "DESC" else "ASC"))
  {
    var _ :- CheckOptions(opts, ["desc"]);
    var direct := if OptOn(opts, "desc") then "DESC" else "ASC";
    Ok(u.(orderBy := AppendOrder(u.orderBy, xs, direct)))
  }

  /** `limit(offset, limit)`: only the limit text changes, as for a `QuerySet`. */
  function UnionLimit(u: UnionQuerySet, offset: int, limit: int): (r: UnionQuerySet)
    ensures r.(limit := u.limit) == u
    ensures r.limit == LimitText(offset, limit)
  {
    u.(limit := LimitText(offset, limit))
  }

  /** The values of the entries, part after part. */
  function EntriesParams(es: seq<Entry>): seq<Value>
  {
    if |es| == 0 then [] else es[0].part.params + EntriesParams(es[1..])
  }

  /** One entry: its keyword, if any, then `(<part>)`. */
  function EntryPiece(e: Entry): (r: Piece)
    ensures r.params == e.part.params
  {
    var kw := if e.op.Some? then [Kw(e.op.value)] else [];
    Piece(kw + [Text("(" + e.part.sql + ")")], e.part.params)
  }

  function EntriesPiece(es: seq<Entry>): (r: Piece)
    ensures r.params == EntriesParams(es)
  {
    if |es| == 0 then Piece([], []) else Cat(EntryPiece(es[0]), EntriesPiece(es[1..]))
  }

  /** `select()`: the parts in order, then ORDER BY and LIMIT when set. The
      values are those of the parts, in order. */
  function UnionSelect(u: UnionQuerySet): (r: Statement)
    ensures r.sql == Join(UnionWords(u), " ")
    ensures r.params == EntriesParams(u.entries)
  {
    var e, o, l := EntriesPiece(u.entries), TextPiece(true, u.orderBy), TextPiece(true, u.limit);
    var p := Cat(e, Cat(o, l));
    assert p.params == EntriesParams(u.entries) + ([] + []);
    EntriesWords(u.entries);
    TextWords(true, u.orderBy);
    TextWords(true, u.limit);
    WordsSql3(e.words, o.words, l.words, PartsWords(u.entries), IfSet(u.orderBy), IfSet(u.limit));
    Finish(p)
  }

  // ---------------------------------------------------------------------
  // Properties

  /** Appending a part appends its values to the statement's values. */
  lemma {:induction false} EntriesParamsAppend(es: seq<Entry>, e: Entry)
    ensures EntriesParams(es + [e]) == EntriesParams(es) + e.part.params
    decreases |es|
  {
    if |es| == 0 {
      assert es + [e] == [e];
      assert [e][1..] == [];
    } else {
      assert (es + [e])[1..] == es[1..] + [e];
      EntriesParamsAppend(es[1..], e);
    }
  }

  /** The values of a union grow part by part: `*` and `+` append the new
      part's values after the ones already there. */
  lemma UnionParamsAppend(u: UnionQuerySet, p: UnionPart)
    ensures UnionSelect(Distinct(u, PartOperand(p)).value).params == UnionSelect(u).params + p.params
    ensures UnionSelect(All(u, PartOperand(p)).value).params == UnionSelect(u).params + p.params
  {
    EntriesParamsAppend(u.entries, Entry(Some(UnionDistinctKw), p));
    EntriesParamsAppend(u.entries, Entry(Some(UnionAllKw), p));
  }

  /** A part binds one value per `%s` of its text. */
  predicate PartBalanced(p: UnionPart)
  {
    Placeholders(p.sql) == |p.params|
  }

  /** The union invariant: every part is balanced and the ORDER BY and LIMIT
      texts hold no placeholder. */
  predicate UnionPlain(u: UnionQuerySet)
  {
    && (forall i :: 0 <= i < |u.entries| ==> PartBalanced(u.entries[i].part))
    && Placeholders(u.orderBy) == 0
    && Placeholders(u.limit) == 0
  }

  lemma EntryBalanced(e: Entry)
    requires PartBalanced(e.part)
    ensures PieceBalanced(EntryPiece(e))
  {
    Parenthesized(e.part.sql);
    var t := Text("(" + e.part.sql + ")");
    if e.op.Some? {
      assert [Kw(e.op.value)] + [t] == [Kw(e.op.value), t];
      TwoWords(Kw(e.op.value), t, e.part.params);
    } else {
      assert [] + [t] == [t];
      OneWord(t, e.part.params);
    }
  }

  lemma {:induction false} EntriesBalanced(es: seq<Entry>)
    requires forall i :: 0 <= i < |es| ==> PartBalanced(es[i].part)
    ensures PieceBalanced(EntriesPiece(es))
    decreases |es|
  {
    if |es| > 0 {
      assert PartBalanced(es[0].part);
      assert forall i :: 0 <= i < |es| - 1 ==> es[1..][i] == es[i + 1];
      EntriesBalanced(es[1..]);
      EntryBalanced(es[0]);
      CatBalanced(EntryPiece(es[0]), EntriesPiece(es[1..]));
    }
  }

  /** `select()` of a union that keeps the invariant binds one value per `%s`. */
  lemma UnionSelectBalanced(u: UnionQuerySet)
    requires UnionPlain(u)
    ensures Placeholders(UnionSelect(u).sql) == |UnionSelect(u).params|
  {
    var o, l := TextPiece(true, u.orderBy), TextPiece(true, u.limit);
    EntriesBalanced(u.entries);
    TextPieceBalanced(true, u.orderBy);
    TextPieceBalanced(true, u.limit);
    CatBalanced(o, l);
    CatBalanced(EntriesPiece(u.entries), Cat(o, l));
    FinishBalanced(Cat(EntriesPiece(u.entries), Cat(o, l)));
  }

  /** A part made by `select_for_union` from a query that keeps its
      invariant is balanced. */
  lemma SelectForUnionBalanced(q: QuerySet, xs: seq<FieldItem>)
    requires QueryPlain(q) && ItemsPlain(xs)
    ensures PartBalanced(SelectForUnion(q, xs))
  {
    SelectBalanced(q, xs, []);
  }

  /** A union started from a balanced part keeps the invariant, and `*`,
      `+`, `order_by` and `limit` keep it. */
  lemma StartPlain(p: UnionPart)
    requires PartBalanced(p)
    ensures UnionPlain(Start(p))
  {
  }

  lemma AppendKeepsPlain(u: UnionQuerySet, p: UnionPart)
    requires UnionPlain(u) && PartBalanced(p)
    ensures UnionPlain(Distinct(u, PartOperand(p)).value)
    ensures UnionPlain(All(u, PartOperand(p)).value)
  {
  }

  lemma UnionOrderByKeepsPlain(u: UnionQuerySet, xs: seq<FieldItem>, opts: seq<(string, OptValue)>)
    requires UnionPlain(u) && ItemsPlain(xs)
    ensures UnionOrderBy(u, xs, opts).Ok? ==> UnionPlain(UnionOrderBy(u, xs, opts).value)
  {
    AppendOrderPlain(u.orderBy, xs, if OptOn(opts, "desc") then "DESC" else "ASC");
  }

  lemma UnionLimitKeepsPlain(u: UnionQuerySet, offset: int, limit: int)
    requires UnionPlain(u)
    ensures UnionPlain(UnionLimit(u, offset, limit))
  {
    LimitTextPlain(offset, limit);
  }

  /** The words of the parts of a union, written out entry by entry: the
      union keyword when the entry has one, then the part in parentheses. */
  function PartsWords(es: seq<Entry>): seq<string>
  {
    if |es| == 0 then []
    else (if es[0].op.Some? then [KeywordText(es[0].op.value)] else []) + ["(" + es[0].part.sql + ")"]
         + PartsWords(es[1..])
  }

  /** The words of `select()`: the parts, then ORDER BY and LIMIT when set. */
  function UnionWords(u: UnionQuerySet): seq<string>
  {
    PartsWords(u.entries) + IfSet(u.orderBy) + IfSet(u.limit)
  }

  lemma EntryWords(e: Entry)
    ensures WordsSql(EntryPiece(e).words)
         == (if e.op.Some? then [KeywordText(e.op.value)] else []) + ["(" + e.part.sql + ")"]
  {
    var kw := if e.op.Some? then [Kw(e.op.value)] else [];
    WordsSqlAppend(kw, [Text("(" + e.part.sql + ")")]);
  }

  lemma {:induction false} EntriesWords(es: seq<Entry>)
    ensures WordsSql(EntriesPiece(es).words) == PartsWords(es)
    decreases |es|
  {
    if |es| > 0 {
      EntriesWords(es[1..]);
      EntryWords(es[0]);
      WordsSqlAppend(EntryPiece(es[0]).words, EntriesPiece(es[1..]).words);
    }
  }

  /** The words of a two-part union with no ORDER BY or LIMIT. */
  lemma TwoPartWords(a: UnionPart, op: Keyword, b: UnionPart)
    ensures EntriesPiece([Entry(None, a), Entry(Some(op), b)]).words
         == [Text("(" + a.sql + ")"), Kw(op), Text("(" + b.sql + ")")]
  {
    var ea, eb := Entry(None, a), Entry(Some(op), b);
    assert [ea, eb][1..] == [eb];
    assert [eb][1..] == [];
    assert EntryPiece(ea).words == [Text("(" + a.sql + ")")];
    assert EntryPiece(eb).words == [Kw(op), Text("(" + b.sql + ")")];
    assert EntriesPiece([eb]).words == EntryPiece(eb).words + [];
  }

  lemma TwoPartSelect(a: UnionPart, op: Keyword, b: UnionPart)
    ensures UnionSelect(UnionQuerySet([Entry(None, a), Entry(Some(op), b)], "", ""))
         == Statement(Join(["(" + a.sql + ")", KeywordText(op), "(" + b.sql + ")"], " "), a.params + b.params)
  {
    var ea, eb := Entry(None, a), Entry(Some(op), b);
    TwoPartWords(a, op, b);
    var ws := [Text("(" + a.sql + ")"), Kw(op), Text("(" + b.sql + ")")];
    assert ws + ([] + []) == ws;
    assert WordsSql(ws) == ["(" + a.sql + ")", KeywordText(op), "(" + b.sql + ")"];
    assert [ea] + [eb] == [ea, eb];
    EntriesParamsAppend([ea], eb);
    assert [ea][1..] == [];
  }

  /** `a * b` renders `(a) UNION DISTINCT (b)` with the values of `a` then
      those of `b`. */
  lemma TwoPartDistinct(a: UnionPart, b: UnionPart)
    ensures UnionSelect(PartDistinct(a, PartOperand(b)).value)
         == Statement(Join(["(" + a.sql + ")", "UNION DISTINCT", "(" + b.sql + ")"], " "), a.params + b.params)
  {
    TwoPartSelect(a, UnionDistinctKw, b);
  }

  /** `a + b` renders `(a) UNION ALL (b)` with the values of `a` then those
      of `b`. */
  lemma TwoPartAll(a: UnionPart, b: UnionPart)
    ensures UnionSelect(PartAll(a, PartOperand(b)).value)
         == Statement(Join(["(" + a.sql + ")", "UNION ALL", "(" + b.sql + ")"], " "), a.params + b.params)
  {
    TwoPartSelect(a, UnionAllKw, b);
  }
}
